=== FILE: README.md ===
# A verified model of the novel site's search, chapter workflow and forms

The site is a Next.js application for reading and publishing serialised
fiction. This project models, as pure Dafny functions over immutable data,
the parts of it that carry logic:

- the paginated book search of `getBookList`: how the conditional `WHERE`
  clause and its `$n` placeholders are assembled, `ORDER BY create_time
  DESC`, `LIMIT`/`OFFSET`, and the second query run for `total`, which is
  meant to count the matches but selects the matching rows instead (see
  Findings);
- the leaderboards of `getRankBooks`, the chapter reads (`getChapterList`,
  `getChapterContent`, `getChapter`), and the category list of
  `getBookCategories`;
- the transactional chapter actions `createChapter`, `updateChapter` and
  `deleteChapter`, with all-or-nothing rollback;
- the `/api/books` route (GET for categories, POST for the search) and its
  `||` defaults;
- the pagination widget, `dateFormat`, and the three word-count formatters;
- the client pages: the leaderboard tabs, the category browser (both the
  stand-alone page and the client component), and the registration, login,
  chapter-writing, chapter-editing, book-creation and feedback forms. For
  the forms this covers their ordered checks, their messages, and what each
  server answer does.

The database is an explicit value:
- for the searches, a `seq<Book>` in storage order;
- for the chapter actions, three maps keyed by id.

A database failure is a boolean parameter. Clocks, new ids and server
answers are parameters too. JavaScript values that the code tests for
truthiness or nullishness are `Undefined | Null | Num(n)` (module
`JsValues`).

Modules, leaves first:
- `Results`, `JsValues`, `Schema`, `Decimal`, `Sorting`, `IntSets`: shared
  vocabulary. `Decimal` covers `toString`, `padStart` and `Number`;
  `Sorting` is a stable sort.
- `BookSearch`, `Rank`, `ChapterReads`, `ChapterActions`: the data layer.
- `BooksRoute`: the HTTP route.
- `Pagination`, `DateFormat`, `WordCount`: the helpers.
- `RankPage`, `BookClass`, `Validation`, `AuthForms`, `AuthorForms`,
  `FeedbackForm`: the pages.

## Model

| member | source | states |
|---|---|---|
| JsValues.OrElse | app/api/books/route.ts:26-28 | `v \|\| d` on a number: the value itself when it is a non-zero number, the default otherwise; a non-zero default never yields 0 |
| JsValues.OrElseText | app/register/page.tsx:102 | `message \|\| fallback` on text: the message when non-empty, else the fallback |
| Decimal.IntToString | lib/data.ts:133 | `toString` of an integer: non-empty, a leading `-` exactly for negatives, all digits otherwise |
| Decimal.ParseInt | app/api/books/route.ts:8 | `Number` of a decimal text: digits read as their value, and so do digits after a `+` sign, or after a `-` sign, negated; the empty text and every other text read as nothing; only a text starting with `-` reads as negative |
| Decimal.IntToStringRoundTrip | app/api/books/route.ts:8 | `Number` reads back every integer `toString` writes |
| Decimal.PadZero | lib/utils.ts:15-19 | `padStart(width, '0')`: the text keeps its digits at the end and is filled with zeros in front up to the width |
| Decimal.PaddedRoundTrip | lib/utils.ts:15-19 | a zero-padded number still reads as the same number |
| Sorting.SortBy | lib/data.ts:47 | the ascending sort behind each `ORDER BY`: sorted by the key, same length and the same multiset of rows |
| Sorting.SortedUnique | lib/data.ts:114 | a strictly increasing sequence and a sorted one with the same elements are equal: distinct keys leave one sorted order |
| BookSearch.Append | lib/data.ts:82-86 | appending one predicate gives it the next placeholder `$k+1` and pushes its value; an absent field changes nothing |
| BookSearch.AddStep | lib/data.ts:82-110 | each filter step keeps the placeholders numbered `$1..$k` in order |
| BookSearch.BuildWhere | lib/data.ts:79-110 | the assembled clause has its placeholders numbered `$1..$k` |
| BookSearch.AddStepShape | lib/data.ts:82-110 | after step `t`, there is a predicate for a field before `t` exactly when that field is present (`!== undefined` for direction, truthy for category, not nullish for the rest), in field order, each bound to its field's value |
| BookSearch.BuildWhereShape | lib/data.ts:79-110 | the finished clause has one predicate per present field and none for absent ones |
| BookSearch.BuildListQuery | lib/data.ts:113-115 | the list query: predicates `$1..$k`, then `LIMIT $k+1` holding `pageSize \|\| 10` and `OFFSET $k+2` holding `(pageNum\|\|1 - 1) * (pageSize\|\|10)` |
| BookSearch.CountOf | lib/data.ts:118-121 | the query run for `total` keeps the list query's predicates and drops the last two values (limit and offset); its select list is left as it is |
| BookSearch.Select | lib/data.ts:118-129 | running a `WHERE` keeps only rows of the table that satisfy every predicate |
| BookSearch.Filter | lib/data.ts:82-110 | the books that match the condition, in table order: membership iff the book is in the table and matches |
| BookSearch.FilterFrom | lib/data.ts:82-110 | the filter decides each book on its own, front to back |
| BookSearch.Ranked | lib/data.ts:114 | `ORDER BY create_time DESC` over the matches: the same multiset, newest first |
| BookSearch.LimitOffset | lib/data.ts:114-115 | `LIMIT`/`OFFSET` fail on negative values; otherwise the slice `rows[offset..]` cut to `limit` rows |
| BookSearch.MatchesByStep | lib/data.ts:82-110 | a book matches the condition iff it passes every one of the five filter steps |
| BookSearch.StepOfInverse | lib/data.ts:82-110 | a predicate's column and comparison identify which filter step produced it |
| BookSearch.SatisfiedWhereMatches | lib/data.ts:82-110 | a row satisfying the built clause matches the condition |
| BookSearch.StepFromWhere | lib/data.ts:82-110 | a row satisfying the built clause passes each present step |
| BookSearch.PredicateMeaning | lib/data.ts:82-110 | each predicate of the built clause compares its step's column with its step's field |
| BookSearch.MatchesSatisfyWhere | lib/data.ts:82-110 | a matching book satisfies the built clause |
| BookSearch.PredicateFromMatch | lib/data.ts:82-110 | a matching book satisfies each single predicate, and predicate `i` reads `$i+1` |
| BookSearch.WhereMeansMatches | lib/data.ts:82-110 | satisfying the built clause is equivalent to matching the condition (both directions) |
| BookSearch.SelectIsFilter | lib/data.ts:118-129 | running the built clause over the table selects exactly the filtered books |
| BookSearch.BuiltQueriesSelectFilter | lib/data.ts:117-129 | the list query and the derived count query select the same rows, the filtered books |
| BookSearch.GetBookList | lib/data.ts:65-148 | fails with "Failed to fetch book list" exactly on a database error, a search matching nothing (reading `rows[0].count` throws), a negative limit or offset, or one beyond PostgreSQL's `bigint`; otherwise `total` is `NaN` and the rows are the requested page of the newest-first matches |
| BookSearch.GetBookListIntended | lib/data.ts:117-123 | with a `COUNT(*)` query, fails only on a database error or out-of-range paging; `total` is the number of matches and the rows are the requested page |
| BookSearch.CountQueryHasNoCount | lib/data.ts:117-123 | the search as written succeeds exactly when the intended one does and something matches, and then returns the intended page with a `NaN` total |
| BookSearch.EmptyTableSearchFails | lib/data.ts:117-123 | page 1 of an unfiltered search of an empty table fails as written, and is an empty page with total 0 as intended |
| BookSearch.PageContents | lib/data.ts:113-143 | a page holds at most `pageSize` rows and no more than the matches, all matching, newest first, the ranked list from the offset; its total is `NaN`, and the intended search gives the same page with the match count |
| BookSearch.RankedRowsAreMatches | lib/data.ts:114 | every ranked book is a matching book of the table |
| BookSearch.PagesUpToIsPrefix | lib/data.ts:113-115 | the pages 1..n laid end to end are the first `n * size` rows, with no gap or overlap |
| BookSearch.SearchPage | lib/data.ts:113-115 | the rows shown for page `p` (the empty failure list when nothing matches) are the slice of the ranked matches starting at `(p-1) * pageSize` |
| BookSearch.SearchPagesUpTo | lib/data.ts:113-115 | the first n pages of a search, concatenated |
| BookSearch.PagesCoverMatches | lib/data.ts:113-129 | for pages within `bigint`, the first n pages are a prefix of the ranked matches; once they reach `total`, they hold every match exactly once |
| BookSearch.RankedIsTheOnlyOrder | lib/data.ts:114 | when the matches' creation times are pairwise distinct, every newest-first arrangement of them is the model's ranking, so any order the database picks gives the same pages |
| BookSearch.PageOfSearch | lib/data.ts:113-123 | asking for page `p` fails exactly when nothing matches, and otherwise yields the slice at `(p-1) * pageSize` of the ranked matches; the intended search always yields that slice |
| BookSearch.FilterIgnoresPaging | lib/data.ts:82-110 | the filtered set does not depend on the page number or page size |
| BookSearch.FirstPageHoldsAllWhenLargeEnough | lib/data.ts:113-143 | when `pageSize` is at least the intended `total`, the intended first page lists `total` books; as written, the first page lists every match under a `NaN` total |
| Rank.ParseRankType | lib/data.ts:155-218 | only `visit_rank`, `newest_rank` and `update_rank` name a board; any other name fails with "无效的排行榜类型" |
| Rank.RankTypeNameRoundTrip | lib/data.ts:155-218 | each board's name parses back to that board |
| Rank.Eligible | lib/data.ts:170 | the boards consider exactly the books of work direction 0 |
| Rank.RankedBooks | lib/data.ts:155-218 | a board holds `min(20, eligible)` direction-0 books in descending order of its key (visits, creation or update time) |
| Rank.TopRowsOfSorted | lib/data.ts:171-172 | the first n rows of a descending sort are descending and drawn from the sorted books |
| Rank.RankedBooksHoldAll | lib/data.ts:172 | with at most 20 eligible books, the board holds all of them |
| Rank.RankedBooksAreTop | lib/data.ts:171-172 | on a full board, no book left off ranks above the last one listed |
| Rank.Project | lib/data.ts:224-235 | a row keeps the book's id, visits and word count; `updateTime` is the creation time on the newest board and the update time on the others |
| Rank.GetRankBooks | lib/data.ts:151-241 | succeeds iff the database answers and the board name is known; every failure is reported as "获取排行榜数据失败"; the rows are the board's books, projected |
| Rank.BoardRows | lib/data.ts:151-241 | every row comes from a direction-0 book and rows are in descending key order |
| ChapterReads.RowsAt | lib/data.ts:446-464 | the chapter rows of the given ids, in that order |
| ChapterReads.BookChapters | lib/data.ts:457-459 | one row per chapter of the book |
| ChapterReads.BookChaptersMembers | lib/data.ts:457-458 | the book's chapters are exactly the stored chapters with that `book_id` |
| ChapterReads.GetChapterList | lib/data.ts:446-469 | fails with "获取章节列表失败" exactly on a database error; otherwise all of the book's chapters in ascending chapter number |
| ChapterReads.ChapterListMembers | lib/data.ts:446-469 | the list holds exactly the chapters of the book |
| ChapterReads.GetChapterContent | lib/data.ts:471-524 | succeeds iff the chapter, its book and its content row all exist (inner joins); the view carries the chapter, its book's name and the content text |
| ChapterReads.GetChapter | lib/actions.ts:15-35 | a database error gives "获取章节失败"; otherwise `null` for an unknown id, or the chapter's fields with its content when a content row exists (left join) |
| ChapterReads.ContentlessChapter | lib/actions.ts:24-26 | a chapter without content is found by `getChapter`, with no content, but `getChapterContent` fails for it |
| ChapterActions.TopNumber | lib/actions.ts:93-100 | the greatest chapter number of the book, or undefined when it has none |
| ChapterActions.NextChapterNum | lib/actions.ts:102 | one more than the greatest chapter number, 1 for a book without chapters |
| ChapterActions.CreateChapter | lib/actions.ts:86-153 | succeeds iff no error and the new id is free; on success inserts the chapter with the next number and its content, and points the book's last-chapter fields at it; on failure nothing changes and the message is "创建章节失败" |
| ChapterActions.UpdateChapter | lib/actions.ts:40-81 | succeeds iff no error and the chapter exists; changes only that chapter's name, paid flag and time, and its content text; on failure nothing changes and the message is "更新章节失败" |
| ChapterActions.DeleteChapter | lib/actions.ts:158-192 | succeeds iff no error and the chapter exists; removes the chapter and its content and leaves books untouched; on failure nothing changes and the message is "删除章节失败" |
| ChapterActions.CreatePreservesValid | lib/actions.ts:86-153 | creation keeps keys consistent, every content row owned by a chapter, numbers at least 1 and unique within a book |
| ChapterActions.CreatePreservesPointers | lib/actions.ts:124-131 | creation keeps every book's last-chapter pointer on a chapter of that book |
| ChapterActions.UpdatePreservesValid | lib/actions.ts:40-81 | updating keeps the store consistent and the pointers valid |
| ChapterActions.DeletePreservesValid | lib/actions.ts:158-192 | deleting keeps keys, ownership and numbering consistent |
| ChapterActions.CreatePointsAtHighest | lib/actions.ts:102-131 | after creation the book points at the new chapter, whose number is the highest of the book |
| ChapterActions.CreatedChapterIsReadable | lib/actions.ts:86-153 | a created chapter can be read back through `getChapterContent` with its name and text |
| ChapterActions.DeletedChapterIsGone | lib/actions.ts:158-192 | after deletion `getChapterContent` fails and `getChapter` answers `null` for the id |
| ChapterActions.UpdateReadBack | lib/actions.ts:40-81 | after an update `getChapter` returns the new name, paid flag and, when a content row existed, the new text |
| ChapterActions.CreateFourthChapter | lib/actions.ts:102-131 | a book with chapters 1, 2, 3 gets chapter 4 named "Ch4", and its last chapter becomes "Ch4" |
| ChapterActions.DeleteLeavesDanglingPointer | lib/actions.ts:158-192 | deleting the last chapter keeps the store consistent but leaves the book pointing at a chapter that no longer exists |
| ChapterActions.ThreeChaptersValid | lib/actions.ts:86-153 | the three-chapter example store is consistent and its pointer valid |
| ChapterActions.DeleteTopReusesNumber | lib/actions.ts:93-102 | after deleting a book's highest chapter, the next number handed out is at most the deleted one's |
| ChapterActions.DeleteThenCreateReusesThree | lib/actions.ts:93-102 | deleting chapter 3 of 1, 2, 3 and creating again hands out number 3 a second time |
| ChapterActions.DeleteMiddleLeavesGap | lib/actions.ts:158-192 | deleting chapter 2 of 1, 2, 3 leaves the numbers {1, 3} |
| BooksRoute.JsNumber | app/api/books/route.ts:8 | `Number(param)`: a missing or empty parameter is 0, a decimal integer with an optional sign its value, anything else NaN |
| BooksRoute.DirectionParam | app/api/books/route.ts:8 | `Number(param) \|\| 0`: the parsed direction when it is a non-zero number, else 0 |
| BooksRoute.OfDirection | lib/data.ts:46 | `WHERE work_direction = $1`: exactly the categories of the direction |
| BooksRoute.GetBookCategories | lib/data.ts:36-62 | fails with "Failed to fetch book categories" exactly on a database error; otherwise the direction's categories ascending by `sort` |
| BooksRoute.Get | app/api/books/route.ts:5-19 | status 200 with the bare category array, or 500 with `{ categories: [] }` on failure |
| BooksRoute.GetAnswersDirection | app/api/books/route.ts:5-11 | the 200 answer lists exactly the categories of the requested direction, in ascending `sort` |
| BooksRoute.JsNumberReadsIntToString | app/api/books/route.ts:8 | a direction written with `toString` is read back as itself |
| BooksRoute.DefaultDirection | app/api/books/route.ts:8 | a missing, empty, non-numeric or zero parameter asks for direction 0 |
| BooksRoute.ConditionOf | app/api/books/route.ts:25-34 | the search condition applies `\|\| 10`, `\|\| 1` and `\|\| 0` to page size, page number and direction and passes the other fields through unchanged |
| BooksRoute.JsonNumber | app/api/books/route.ts:36-41 | `NextResponse.json` writes a `NaN` total as `null` and a number as itself |
| BooksRoute.Post | app/api/books/route.ts:21-55 | status 200 iff the body can be read (it parses and is not `null`) and the search succeeds, echoing the defaulted page number and size with the page's rows and a `null` total; otherwise the fixed 500 payload with "获取书籍列表失败" |
| BooksRoute.PostIntended | app/api/books/route.ts:21-55 | the same route over the intended search: status 200 iff the body can be read and the search succeeds, with `total` the number of matches |
| BooksRoute.DefaultsArePositive | app/api/books/route.ts:26-27 | without usable paging values the search asks for page 1 of 10 at offset 0 |
| BooksRoute.PostStatus | app/api/books/route.ts:21-55 | the route answers 200 exactly when the body can be read, the database answers, at least one book matches, and page size and offset are non-negative and within `bigint`; the intended route needs no match |
| BooksRoute.NoMatchAnswers500 | app/api/books/route.ts:21-55 | a search matching nothing gets the 500 failure payload, where the intended route answers an empty list with total 0 |
| BooksRoute.DirectionAlwaysFiltered | app/api/books/route.ts:28 | the search always filters on direction; a body without one sees direction 0 only |
| BooksRoute.PostAnswersSearch | app/api/books/route.ts:36-41 | a 200 answer's `total` is `null` and its list holds at most `pageSize` matching books; the intended route gives the same answer with `total` the match count |
| BooksRoute.FirstPageListsAllMatches | app/api/books/route.ts:36-41 | a first page at least as large as the match count lists every match exactly once, under a `null` total; the intended total is the match count |
| BooksRoute.RangeMatches | lib/data.ts:100-110 | a 300000..500000 filter keeps a direction-0 book iff its word count is in the range, both ends included |
| BooksRoute.RangeFilter | lib/data.ts:100-110 | over books of 100000, 350000, 450000 and 600000 words that filter keeps the two middle books |
| BooksRoute.WordCountRangeScenario | app/api/books/route.ts:21-41 | the route answers that filter with status 200, a `null` total and exactly the two middle books; the intended route's total is 2 |
| Pagination.TotalPages | components/common/custom-pagination.tsx:18 | `Math.ceil(total / pageSize)`: the least n with `total <= n * pageSize` |
| Pagination.CeilBounds | components/common/custom-pagination.tsx:18 | the ceiling bounds `(n-1)*size < total <= n*size` |
| Pagination.WindowPages | components/common/custom-pagination.tsx:24-42 | the buttons are the consecutive pages from the window's start to its end |
| Pagination.Window | components/common/custom-pagination.tsx:22-29 | the window starts at page 1 or later, ends at `totalPages` or earlier and spans at most five pages; exactly five when there are five pages, and all of them when there are fewer |
| Pagination.WindowIsReference | components/common/custom-pagination.tsx:22-29 | the window equals an independent definition: five pages centred on the current one, shifted to stay within 1..totalPages |
| Pagination.WindowBounds | components/common/custom-pagination.tsx:22-42 | with at least one page: between one and five buttons, consecutive, all within 1..totalPages |
| Pagination.WindowShowsCurrent | components/common/custom-pagination.tsx:22-42 | five buttons whenever there are five pages; every page when there are at most five; the current page is always among them when it is in range |
| Pagination.Render | components/common/custom-pagination.tsx:46-66 | nothing for `total <= 0`; otherwise a previous arrow disabled on page 1, a next arrow disabled on the last page, and the window's buttons with only the current one highlighted |
| Pagination.RenderedButtons | components/common/custom-pagination.tsx:31-42 | one to five buttons, with exactly one highlighted when the current page is in range |
| Pagination.TenResultsFourPerPage | components/common/custom-pagination.tsx:18-29 | 10 results at 4 per page make 3 pages, all shown from page 2 |
| DateFormat.TokenAt | lib/utils.ts:22 | the token the alternation matches at the front of the text, if any, and none otherwise |
| DateFormat.Replace | lib/utils.ts:22 | a format without token letters comes back unchanged, and replacing every token by its own text gives the format back |
| DateFormat.Format | lib/utils.ts:10-23 | a format without token letters comes back unchanged, and `YYYY-MM-DD` becomes the year, the padded 1-based month and the padded day, joined by dashes |
| DateFormat.ScanRoundTrip | lib/utils.ts:22 | splitting the format into tokens and literal characters loses nothing |
| DateFormat.UnscanRoundTrip | lib/utils.ts:22 | a sequence of tokens and non-token characters splits back into itself |
| DateFormat.LiteralsUnchanged | lib/utils.ts:22 | a format without token letters is returned unchanged |
| DateFormat.NoTokenAtLiteral | lib/utils.ts:22 | no token matches at a character that starts none |
| DateFormat.SingleToken | lib/utils.ts:13-22 | a format that is one token becomes that token's field |
| DateFormat.CaseSensitive | lib/utils.ts:15-18 | `MM` is the month and `mm` the minutes |
| DateFormat.DateOnlyFormat | lib/utils.ts:33 | `YYYY-MM-DD` becomes year, dash, month, dash, day |
| DateFormat.MonthReadsBack | lib/utils.ts:15 | the month is two digits reading as `getMonth() + 1` |
| DateFormat.TwoDigitFieldReadsBack | lib/utils.ts:15-19 | every padded field below 100 is two digits reading as its value |
| DateFormat.YearNotPadded | lib/utils.ts:14 | the year is not padded: a one-digit year is one character |
| DateFormat.MarchIsPadded | lib/utils.ts:15 | month 3 is shown as "03" |
| WordCount.ReadShownRoundTrip | app/book-class/page.tsx:148-154 | the shown text, the number followed by its unit, reads back as exactly that number and unit, so no two results look alike |
| WordCount.UtilsUnit | lib/utils.ts:38-46 | the shared formatter uses 万 from 50000, 千 from 4000 and no unit below |
| WordCount.RankFormat | app/book-rank/page.tsx:51-59 | the leaderboard uses 万 above 10000 and 千 above 1000, and shows the floor of the count in that unit |
| WordCount.ClassFormat | app/book-class/page.tsx:147-155 | the category pages use 万 from 10000 and 千 from 1000, and show the floor of the count in that unit |
| WordCount.UnitHasPositiveNumber | app/book-rank/page.tsx:51-59 | on the leaderboard and category pages a unit is only ever shown after a number of at least 1 |
| WordCount.RankAndClassAgree | app/book-class/BookClassClient.tsx:129-137 | the leaderboard and category formatters agree everywhere except at exactly 1000 and 10000 |
| WordCount.ThresholdTexts | app/book-rank/page.tsx:51-59 | at 10000 the leaderboard shows "10千" and the category pages "1万"; at 1000 they show "1000" and "1千" |
| WordCount.UtilsAndClassUnitsAgree | lib/utils.ts:38-46 | the shared formatter and the category pages pick the same unit iff the count is below 1000, in 4000..9999, or from 50000 |
| WordCount.UnitsMonotone | lib/utils.ts:38-46 | in all three formatters a larger count never shows a smaller unit |
| RankPage.BoardTitle | app/book-rank/page.tsx:64-74 | the title of each of the three boards; no title for any other value |
| RankPage.HandleRankChange | app/book-rank/page.tsx:62-76 | the new board type is stored and fetched; a known board renames the title, an unknown one keeps the old title; the rows are untouched |
| RankPage.TitlesMatchBoards | app/book-rank/page.tsx:64-74 | the page titles exactly the board names `getRankBooks` accepts, with three different titles |
| RankPage.FetchRankData | app/book-rank/page.tsx:33-48 | an ok answer whose `data` is an array becomes the table; any failure empties it |
| RankPage.Rows | app/book-rank/page.tsx:105-116 | one table row per book, in order, with its formatted word count |
| RankPage.RanksAreOneToN | app/book-rank/page.tsx:108 | the ranks shown are strictly increasing and within 1..n |
| RankPage.UnknownBoardKeepsTitle | app/book-rank/page.tsx:62-76 | switching to an unknown board keeps the title and empties the table |
| BookClass.ChangeCategory | app/book-class/page.tsx:103-110 | the highlighted category is the id; the condition's category is the id when positive and undefined otherwise; nothing else changes |
| BookClass.ChangeBookStatus | app/book-class/page.tsx:112-116 | the status is highlighted and put in the condition; nothing else changes |
| BookClass.ChangeWordCount | app/book-class/BookClassClient.tsx:115-121 | the bucket's lower bound is highlighted and both bounds go into the condition; nothing else changes |
| BookClass.ChangeUpdateTime | app/book-class/page.tsx:128-135 | a truthy number of days sets the lower update date to that day formatted `YYYY-MM-DD`; 0 or null clears it to null |
| BookClass.ChangeSort | app/book-class/page.tsx:137-141 | the sort is highlighted and put in the condition; nothing else changes |
| BookClass.HandlePageChange | app/book-class/BookClassClient.tsx:95-96 | only the page number changes |
| BookClass.UpdateTimeIsDate | app/book-class/page.tsx:132 | the lower update date is year, dash, month, dash, day |
| BookClass.LoadCategoryList | app/book-class/page.tsx:50-69 | an answer with code 200 replaces the categories, highlights the channel, clears the category and sets the condition's direction; another code or a thrown request changes nothing |
| BookClass.ClientLoadCategoryList | app/book-class/BookClassClient.tsx:54-71 | any parsed answer is stored as the categories, even the error object, and the channel and condition are reset as on the page; a thrown request changes nothing |
| BookClass.ClientKeepsErrorObject | app/book-class/BookClassClient.tsx:59 | after a failed category request the component holds the `{ categories: [] }` object, not an array |
| BookClass.ClientLoadsDirection | app/book-class/BookClassClient.tsx:54-66 | a served channel switch lists exactly that channel's categories |
| BookClass.MatchesSplits | app/book-class/page.tsx:118-124 | a book matches a condition iff it matches it without the word-count bounds and its count lies within them |
| BookClass.SharedEndpoints | app/book-class/page.tsx:239-263 | 300000, 500000 and 1000000 each fall in two adjacent buckets |
| BookClass.BucketsCover | app/book-class/page.tsx:234-263 | every non-negative count falls in one of the four ranged buttons' buckets, and the "不限" button admits every count |
| BookClass.QueryParams | app/book-class/page.tsx:74-79 | the query string holds exactly the present entries, each rendered with `toString` |
| BookClass.ParamReadsBack | app/book-class/page.tsx:77 | a numeric parameter reads back as its number |
| BookClass.EntryKeysDistinct | app/book-class/page.tsx:75-79 | the condition's keys are pairwise different |
| BookClass.AbsentEntryOmitted | app/book-class/page.tsx:76 | an undefined or null field does not appear in the query string at all |
| BookClass.PresentEntryIncluded | app/book-class/page.tsx:76-77 | every present field appears with its rendered value |
| BookClass.OpenBucketOmitsMax | app/book-class/page.tsx:259-263 | the query string of the condition after pressing "100万字以上" with category 0 chosen, which the intended press sends, has `wordCountMin=1000000`, no maximum and no category |
| BookClass.ClientBody | app/book-class/BookClassClient.tsx:80 | `JSON.stringify` of the condition carries its paging, direction, category, status and bounds, and the keyword only when it is text |
| BookClass.ClientSearch | app/book-class/BookClassClient.tsx:73-93 | a parsed answer replaces the books and total and takes its page number and size; a thrown request changes nothing |
| BookClass.PageSearch | app/book-class/page.tsx:71-96 | an answer with code 200 replaces the books and total and takes its paging; another code or a thrown request changes nothing |
| BookClass.FailedSearchResets | app/book-class/BookClassClient.tsx:82-89 | the route's 500 payload empties the list, zeroes the total and resets paging to 1 and 10 |
| BookClass.SearchAnswer | app/book-class/BookClassClient.tsx:73-93 | posting a condition and merging the answer keeps the buttons and filters of the state it lands in; a success needs a match and shows the page of the ranked matches the route computes, a `null` total and the defaulted paging; a failure empties the table, sets total 0 and returns to page 1 of 10; either way the pager (`total <= 0`, custom-pagination.tsx:46) draws nothing |
| BookClass.ClientPress | app/book-class/BookClassClient.tsx:95-122 | a handler's `search()` posts the condition before the press: the books shown are those of the old condition, and the page number is the old one, while the buttons and filters show the new condition; the total is `null` and the pager is gone |
| BookClass.ClientPressIntended | app/book-class/BookClassClient.tsx:95-122 | a press posting the condition it has just set shows that condition's matches, its requested page of ranked matches and its page number, under a `null` total |
| BookClass.PagerStaysOnFirstPage | app/book-class/BookClassClient.tsx:95-98 | from page 1, pressing any page, the component is back on page 1 once the answer arrives, success or not |
| BookClass.PagerNeverLeavesFirstPage | app/book-class/BookClassClient.tsx:95-98 | from page 1, no sequence of pager presses ever reaches another page |
| BookClass.PageChangeReachesPage | app/book-class/BookClassClient.tsx:95-98 | with the intended press, a successful press of page p shows page p: the slice of the ranked matches at `(p-1) * pageSize` |
| BookClass.FirstRenderListsBook | app/book-class/BookClassClient.tsx:73-93 | a press from a state on page 1 of 10 with no filters lists a direction-0 book of a one-book table under a `null` total, on page 1 of 10, whatever filters the press set |
| BookClass.BucketPressShowsPreviousBounds | app/book-class/BookClassClient.tsx:115-122 | every book a bucket press shows lies within the word-count bounds in force before the press |
| BookClass.FirstBucketPressIgnoresBucket | app/book-class/BookClassClient.tsx:115-122 | pressing "100万字以上" first lists a book below a million words while that button is highlighted |
| BookClass.BucketSearch | app/book-class/BookClassClient.tsx:115-122 | with the intended press, each word-count button selects exactly the books within its bucket that pass the other filters, and shows only books within the bucket |
| BookClass.FirstDirectionSwitchShowsOldDirection | app/book-class/BookClassClient.tsx:54-67 | switching to direction 1 first highlights direction 1 but lists a direction-0 book |
| BookClass.LoadDropsCategory | app/book-class/BookClassClient.tsx:54-67 | with the intended press, the search after a channel switch has no category step and shows only books of that channel |
| BookClass.PagePressQuery | app/book-class/page.tsx:71-81 | the page's search after a press sends exactly the present entries of the condition before the press |
| BookClass.FirstOpenBucketPressSendsNoMin | app/book-class/page.tsx:118-125 | pressing "100万字以上" first puts the lower bound in the condition but sends no `wordCountMin` |
| Validation.FirstFailure | app/register/page.tsx:49-83 | the message of the first failing check; none exactly when all checks pass |
| Validation.FirstFailureIsFirst | app/register/page.tsx:49-83 | a failing check after passing ones decides the message |
| Validation.FirstFailingIndex | app/register/page.tsx:49-83 | the message is that of check `i` whenever it fails and all before it pass |
| Validation.FirstFailureAppend | app/login/page.tsx:32-55 | checks after a failing prefix are never consulted, and a passing prefix hands over to the rest |
| AuthForms.LoginPhonePrefix | app/login/page.tsx:40 | the login pattern looks only at the first eleven characters: a registrable number, or `1\|` and nine digits |
| AuthForms.RegisteredPhonesLogIn | app/register/page.tsx:56 | every registrable number passes the login pattern, even with text after it, which registration refuses |
| AuthForms.BarPassesLogin | app/login/page.tsx:40 | `1\|` and nine digits pass the login pattern but not the registration one |
| AuthForms.VelCodePrefixOnly | app/register/page.tsx:77 | any text after four digits is an accepted verification code |
| AuthForms.ValidateRegister | app/register/page.tsx:49-83 | registration is sent iff the username is an eleven-digit mobile number, the password is non-empty and the code starts with four digits; otherwise the first failing check's message, in source order |
| AuthForms.RegisterUser | app/register/page.tsx:47-112 | only a valid form is sent; `ok` stores the token and uid with the username as nickname and goes home; a rejection shows its message or "注册失败"; a thrown request shows "注册失败，请稍后重试" |
| AuthForms.SentRegistrationIsWellFormed | app/register/page.tsx:56-83 | a sent registration carries eleven digits, a password and a code of at least four characters |
| AuthForms.ValidateLogin | app/login/page.tsx:32-55 | login is sent iff the username passes the login pattern and the password is non-empty; otherwise the first failing message |
| AuthForms.LoginUser | app/login/page.tsx:30-91 | only code 200 signs in, with the server's nickname, "登录成功！" and a trip home; other codes show the message or "登录失败"; a thrown request shows "登录失败，请稍后重试" |
| AuthForms.RegisteredUserCanSubmitLogin | app/login/page.tsx:32-55 | a username and password that pass registration's checks pass login's |
| AuthorForms.ApplyEdit | app/author/chapter-add/page.tsx:76-108 | each input changes only its own field, and the radio buttons set `isVip` to 1 for paid and 0 for free |
| AuthorForms.EditsKeepVipFlag | app/author/chapter-add/page.tsx:18-22 | starting from the initial form, no sequence of edits takes `isVip` outside {0, 1} |
| AuthorForms.ValidateChapter | app/author/chapter-add/page.tsx:25-45 | a chapter is sent iff it has a name and at least 50 characters of text; otherwise the first failing message (name, empty text, short text) |
| AuthorForms.SaveChapter | app/author/chapter-add/page.tsx:24-65 | a valid form is posted to the book's chapter path; `ok` returns to the book's chapter list; a rejected answer shows nothing and stays; a thrown request shows "保存失败" |
| AuthorForms.UpdateChapter | app/author/chapter-update/page.tsx:43-83 | a valid form is PUT to the chapter's path; any answer shows "更新成功！", only a thrown request shows "更新失败" |
| AuthorForms.ChapterPagesAgree | app/author/chapter-update/page.tsx:44-64 | the add and update pages accept and refuse the same forms with the same message |
| AuthorForms.UpdateIgnoresStatus | app/author/chapter-update/page.tsx:66-76 | a rejected update is reported exactly like an accepted one |
| AuthorForms.MissingBookIdPostsToNull | app/author/chapter-add/page.tsx:16-48 | without an id in the address the add page posts to `/api/author/book/null/chapter` |
| AuthorForms.LoadChapter | app/author/chapter-update/page.tsx:23-41 | loading happens only for a non-empty id; the loaded JSON replaces the form, and a failure keeps it and shows "加载章节数据失败" |
| AuthorForms.LoadingCanBreakVipFlag | app/author/chapter-update/page.tsx:29 | a loaded chapter's `isVip` is taken as it is, even outside {0, 1}; an empty id loads nothing |
| AuthorForms.LoadCategories | app/author/book-add/page.tsx:42-61 | any parsed answer becomes the category list; a non-empty array preselects its first category's id (as text) and name; the error object preselects nothing; a thrown request shows "获取分类列表失败" |
| AuthorForms.ChangeDirection | app/author/book-add/page.tsx:131-134 | picking a channel stores it before loading its categories |
| AuthorForms.DirectionChangeListsItsCategories | app/author/book-add/page.tsx:42-52 | a served channel switch lists exactly that channel's categories and preselects one of least `sort` |
| AuthorForms.FailedLoadKeepsStaleCategory | app/author/book-add/page.tsx:45-52 | when the server fails, the list becomes the error object and the previous channel's category stays selected |
| AuthorForms.FindCategory | app/author/book-add/page.tsx:151 | `find` by id text: the first listed category whose id renders as the value, every earlier one having another id; none iff no category does |
| AuthorForms.SelectCategory | app/author/book-add/page.tsx:150-157 | selecting stores the value and the found name, or "" when none matches; over the error object `find` throws |
| AuthorForms.SelectingListedCategory | app/author/book-add/page.tsx:151-156 | with distinct ids, selecting a listed category by its id stores its name |
| AuthorForms.PreselectIsStable | app/author/book-add/page.tsx:47-52 | re-selecting the preselected category leaves the page unchanged |
| AuthorForms.ValidateBook | app/author/book-add/page.tsx:69-86 | a book is sent iff it has a name, a cover and a description; otherwise the first missing one's message, in that order |
| AuthorForms.SubmitBook | app/author/book-add/page.tsx:66-114 | only a valid form is sent; `ok` shows "小说创建成功" and goes to `/author/books`; a rejected or thrown request shows "提交失败，请重试" |
| AuthorForms.CategoryNotValidated | app/author/book-add/page.tsx:66-86 | the category plays no part in validation: a form with an empty category id is sent |
| FeedbackForm.ValidateFeedback | app/feedback/page.tsx:14-31 | feedback is sent iff it has at least 10 characters; empty text and short text get their own messages |
| FeedbackForm.Submit | app/feedback/page.tsx:14-58 | only valid text is sent; `ok` empties the box and shows "提交成功！"; a rejected or thrown request keeps the text and shows "提交失败，请稍后重试" |
| FeedbackForm.AcceptedFeedbackIsNotResent | app/feedback/page.tsx:46 | after an accepted submission, pressing again sends nothing and asks for content |
| FeedbackForm.FailedFeedbackCanBeRetried | app/feedback/page.tsx:42-56 | after a failed submission a retry sends the same text |

## Left out

- The connection pool, transactions as a mechanism, `revalidatePath`, authentication, the request cache, React rendering, toasts' styling, `isLoading`, image upload: none of them decides a result. SQL text is modelled by what it selects (predicates, placeholders, order, limit and offset), not as characters. Rollback is modelled as "the store is unchanged on failure".
- React state: each press's state update is applied and its search answered before the next press. What the hooks do decide is kept: a handler's `search()` reads the condition of the render before the press (see Findings).
- Concurrency: two simultaneous creates for one book may compute the same next number. The model runs one action at a time.
- `addDay` and the clock: the date that `changeUpdateTime` formats is a parameter (`since`), and `dateFormat` is modelled on the fields of a date, not on `Date`.
- The keyword: `getBookList` receives it but builds no predicate from it, so it filters nothing. The model passes it through the same way, and keyword search on the home page is not part of this model.
- The rows of `getBookList` are projected to `{id, categoryName, title, ...}` strings. The model returns the book rows themselves.
- BookSearch.PagesCoverMatches: proved for one fixed order of books with equal `create_time`, table order. PostgreSQL leaves the order of such ties unspecified and may choose differently for each page's query, so tied books can then repeat or go missing across pages. When the matches' creation times are pairwise distinct there is no such choice (BookSearch.RankedIsTheOnlyOrder).
- Floating point: page counts are exact integer ceilings, and the formatters floor exactly.
- Decimal.ParseInt: models `Number()` on decimal integers with an optional `+` or `-` sign only. Fractions, exponents, surrounding spaces, `Infinity` and the `0x`, `0b` and `0o` prefixes are read as NaN, where `Number()` gives a number. BooksRoute.JsNumber inherits this.
- BooksRoute.JsNumber: reads only decimal integers with an optional sign, as Decimal.ParseInt does; other forms `Number()` accepts read as NaN, so such a direction falls back to 0 in the model.
- BooksRoute.Post: body fields are modelled as absent, `null` or integers. String, boolean and fractional fields are not modelled: `{"bookStatus": ""}` makes the query fail with 500, and a string `pageSize` such as `"5"` is truthy and passed on as text.
- Rank.GetRankBooks: fixes one order of books with equal ranking keys, table order (a stable sort). `ORDER BY ... DESC LIMIT 20` leaves to PostgreSQL both the order of such ties and which tied books take the last places, so only Rank.BoardRows and Rank.RankedBooksAreTop, which do not depend on ties, hold for every execution.
- BookSearch.GetBookList: computes the offset exactly. The source computes it as a double, which is rounded above 2^53, so an offset just below 2^63 can round past `bigint` and fail where the model succeeds.
- BookSearch.GetBookList: fixes one order of matches with equal `create_time`, table order (`Ranked` is a stable sort). `ORDER BY b.create_time DESC` leaves the order of such ties to PostgreSQL, so with ties the database may return a different arrangement of the same matches, and a page cut from it may hold different tied books. When the matches' creation times are pairwise distinct, BookSearch.RankedIsTheOnlyOrder shows every newest-first arrangement is `Ranked`, and the page contracts are then exact. The members below inherit this.
- BookSearch.GetBookListIntended: fixes ties in table order, as BookSearch.GetBookList does.
- BookSearch.PageContents: the slice and order it states assume table order for ties, as BookSearch.GetBookList does; the size bounds, membership and `NaN` total hold for any order.
- BookSearch.SearchPage: fixes ties in table order, as BookSearch.GetBookList does.
- BookSearch.PageOfSearch: fixes ties in table order, as BookSearch.GetBookList does; whether the page succeeds does not depend on ties.
- BooksRoute.Post: the listed rows fix ties in table order, as BookSearch.GetBookList does.
- BooksRoute.PostIntended: the listed rows fix ties in table order, as BookSearch.GetBookList does.
- BooksRoute.PostAnswersSearch: its equation with the intended answer compares two rankings that break ties the same way; membership, size and the `null` total hold for any order.
- BookClass.SearchAnswer: the page of books shown fixes ties in table order, as BookSearch.GetBookList does.
- BookClass.ClientPressIntended: the page of books shown fixes ties in table order, as BookSearch.GetBookList does.
- BookClass.PageChangeReachesPage: the slice shown fixes ties in table order, as BookSearch.GetBookList does.
- BooksRoute.PostStatus: inherits the exact offset of BookSearch.GetBookList, so a status 200 for an offset just below 2^63 may be a 500 in the source.
- WordCount.UtilsUnit: does not model the number `wordCountFormat` in the shared utilities shows, because it is an unrounded floating-point quotient (for example 5.2345万).
- Text lengths count Unicode scalar values. JavaScript's `length` counts UTF-16 units, so a character outside the Basic Multilingual Plane counts twice in the source.
- AuthForms.LoginUser: compares `code` as an integer. The source's `==` would also accept the string "200"; the same holds for BookClass.LoadCategoryList and BookClass.PageSearch.
- BookClass.LoadCategoryList: compares `code` with 200 as an integer; the source's `==` would also accept the string "200".
- BookClass.PageSearch: compares `code` with 200 as an integer; the source's `==` would also accept the string "200".
- Pagination.Render: requires a positive `pageSize`. The widget is only given the page size of a search, which is at least 1; with 0 the source would compute `Infinity` pages.
- BookClass.QueryParams: the query string's order is the condition's field order. The source orders keys by insertion into the state object, and the model fixes one such order.
- AuthorForms.LoadChapter: the loaded JSON is assumed to have the chapter form's shape. Other shapes would put `undefined` fields into the form.
- The leaderboard and category pages of the external backend (`/front/...`) are modelled only through the answers they return, as parameters.
- Behaviour kept as the code has it:
  - the search orders by `create_time` only;
  - a missing chapter on update or delete reports the same generic failure message as a database error, not a distinct not-found error;
  - chapter numbers are not kept contiguous: delete leaves gaps, and deleting the highest chapter lets its number be handed out again;
  - `getChapter` uses a left join, so a chapter without content is visible there;
  - the search does not require `pageNum >= 1` or `pageSize > 0`: negative limits or offsets fail in the database.

## Findings

The category browser's handlers each call `setSearchCondition(...)` and
then `search()` in the same closure. `search` reads `searchCondition` from
the render the handler belongs to, and no effect searches again when the
condition changes. So every search sends the condition from before the
press (BookClass.ClientPress). The intended behaviour is to search with the
condition just set (BookClass.ClientPressIntended).

`getBookList` finds `total` by rewriting its own query text with
`/SELECT.*FROM/`. The pattern has no `s` flag, and `SELECT` and `FROM` stand
on different lines, so nothing is rewritten: the query returns the matching
book rows, which have no `count` column. A search matching at least one book
gets a `NaN` total, sent as `null`, so the client's pager draws nothing; a
search matching nothing throws on `rows[0].count` and the route answers 500.

| source | as written | input that shows it | evidently intended | confidence | as-written member | corrected member |
|---|---|---|---|---|---|---|
| app/book-class/BookClassClient.tsx:95-98 | `handlePageChange` posts the page before the press, and the answer's `pageNum` overwrites the page pressed | from page 1, press page 2: page 1 is requested and the pager returns to 1, for ever | show the page pressed | high, not executed | BookClass.PagerNeverLeavesFirstPage | BookClass.PageChangeReachesPage |
| app/book-class/BookClassClient.tsx:115-122 | `changeWordCount` posts the word-count bounds before the press | from page 1 of 10 with no filters, press "100万字以上" over a table of one 100-word book: the book is listed under the highlighted bucket | search the bucket pressed | high, not executed | BookClass.FirstBucketPressIgnoresBucket | BookClass.BucketSearch |
| app/book-class/BookClassClient.tsx:54-67 | `loadCategoryList` posts the direction before the switch | from page 1 of 10 with no filters, switch to direction 1: direction-0 books are listed | search the new direction | high, not executed | BookClass.FirstDirectionSwitchShowsOldDirection | BookClass.LoadDropsCategory |
| app/book-class/page.tsx:118-126 | the page's `changeWordCount` builds the query string from the condition before the press | from the first render, press "100万字以上": no `wordCountMin` is sent | send the bounds just set | high, not executed | BookClass.FirstOpenBucketPressSendsNoMin | BookClass.OpenBucketOmitsMax |
| lib/data.ts:117-123 | the query meant to count the matches selects the matching rows, and `parseInt(rows[0].count)` reads a column that is not there | an unfiltered search of an empty table: `rows[0]` is undefined, the search throws and the route answers 500; with one matching book, `total` is `NaN` and the route sends `null` | count the matches with `SELECT COUNT(*)`: an empty page with total 0, and the match count otherwise | high, not executed | BookSearch.CountQueryHasNoCount | BookSearch.GetBookListIntended |

=== FILE: auth_forms.dfy ===
/** The registration and login forms: their ordered checks, the phone and
    verification-code patterns they test, and what a server answer does to
    the stored session. */
module AuthForms {
  import opened Results
  import opened JsValues
  import Decimal
  import Validation

  // ---------------------------------------------------------------------
  // The patterns

  /** `/^1[3-9]\d{9}$/`: eleven digits, a 1, then 3 to 9. */
  predicate RegisterPhone(s: string) {
    && |s| == 11
    && s[0] == '1'
    && '3' <= s[1] <= '9'
    && Decimal.AllDigits(s[2..])
  }

  /** `/^1[3|4|5|6|7|8|9][0-9]{9}/`: anchored only at the start, and the
      bracket admits `|` as well as 3 to 9. */
  predicate LoginPhone(s: string) {
    && |s| >= 11
    && s[0] == '1'
    && ('3' <= s[1] <= '9' || s[1] == '|')
    && Decimal.AllDigits(s[2..11])
  }

  /** `/^\d{4}/`: four digits at the start, anything after them. */
  predicate VelCodeFormat(s: string) {
    |s| >= 4 && Decimal.AllDigits(s[..4])
  }

  /** The login pattern tests only the first eleven characters: it accepts
      a string exactly when its first eleven characters are a registrable
      phone number, or `1|` followed by nine digits. */
  lemma LoginPhonePrefix(s: string)
    ensures LoginPhone(s) <==>
      (|s| >= 11 && (RegisterPhone(s[..11]) || (s[0] == '1' && s[1] == '|' && Decimal.AllDigits(s[2..11]))))
  {
    if |s| >= 11 {
      assert s[..11][2..] == s[2..11];
    }
  }

  /** Every number that can register can log in, and so can it with any
      text after it, which the registration pattern refuses. */
  lemma RegisteredPhonesLogIn(s: string, tail: string)
    requires RegisterPhone(s)
    ensures LoginPhone(s) && LoginPhone(s + tail)
    ensures tail != [] ==> !RegisterPhone(s + tail)
  {
    assert (s + tail)[2..11] == s[2..];
  }

  /** `1|` and nine digits log in but cannot register. */
  lemma BarPassesLogin(digits: string)
    requires |digits| == 9 && Decimal.AllDigits(digits)
    ensures LoginPhone("1|" + digits)
    ensures !RegisterPhone("1|" + digits)
  {
    assert ("1|" + digits)[2..11] == digits;
  }

  /** Any text after four digits is a well-formed verification code. */
  lemma VelCodePrefixOnly(code: string, tail: string)
    requires |code| == 4 && Decimal.AllDigits(code)
    ensures VelCodeFormat(code + tail)
  {
    assert (code + tail)[..4] == code;
  }

  // ---------------------------------------------------------------------
  // Registration

  const UsernameEmpty := "用户名不能为空！"
  const PhoneInvalid := "手机号格式不正确！"
  const PasswordEmpty := "密码不能为空！"
  const VelCodeEmpty := "验证码不能为空！"
  const VelCodeInvalid := "验证码格式不正确！"
  const RegisterFailed := "注册失败"
  const RegisterError := "注册失败，请稍后重试"

  datatype RegisterForm = RegisterForm(username: string, password: string, velCode: string, sessionId: string)

  /** The checks of `registerUser`, in source order. */
  function RegisterChecks(f: RegisterForm): seq<Validation.Check> {
    [Validation.Check(f.username != "", UsernameEmpty),
     Validation.Check(RegisterPhone(f.username), PhoneInvalid),
     Validation.Check(f.password != "", PasswordEmpty),
     Validation.Check(f.velCode != "", VelCodeEmpty),
     Validation.Check(VelCodeFormat(f.velCode), VelCodeInvalid)]
  }

  /** `registerUser`'s validation: `None` when the form is sent. */
  function ValidateRegister(f: RegisterForm): (r: Option<string>)
    ensures r.None? <==> RegisterPhone(f.username) && f.password != "" && VelCodeFormat(f.velCode)
    ensures f.username == "" ==> r == Some(UsernameEmpty)
    ensures f.username != "" && !RegisterPhone(f.username) ==> r == Some(PhoneInvalid)
    ensures RegisterPhone(f.username) && f.password == "" ==> r == Some(PasswordEmpty)
    ensures RegisterPhone(f.username) && f.password != "" && f.velCode == "" ==> r == Some(VelCodeEmpty)
    ensures RegisterPhone(f.username) && f.password != "" && f.velCode != "" && !VelCodeFormat(f.velCode) ==>
      r == Some(VelCodeInvalid)
  {
    var checks := RegisterChecks(f);
    Validation.FirstFailingIndex(checks, if f.username == "" then 0 else if !RegisterPhone(f.username) then 1
      else if f.password == "" then 2 else if f.velCode == "" then 3 else 4);
    Validation.FirstFailure(checks)
  }

  /** What the browser keeps after a successful sign-in. */
  datatype Session = Session(token: string, uid: string, nickName: string)

  /** The server's answer to a registration. */
  datatype RegisterAnswer = RegisterAnswer(ok: bool, message: string, token: string, uid: string)

  /** The visible effect of pressing the button: whether the form was sent,
      the toast shown, the session stored and the page navigated to. */
  datatype Outcome = Outcome(sent: bool, toast: Option<string>, session: Option<Session>, navigate: Option<string>)

  /** `registerUser()`. `answer` is what the server sends, `None` when the
      request or its JSON throws; it is only consulted for a valid form. */
  function RegisterUser(f: RegisterForm, answer: Option<RegisterAnswer>): (o: Outcome)
    ensures o.sent <==> ValidateRegister(f).None?
    ensures !o.sent ==> o == Outcome(false, ValidateRegister(f), None, None)
    ensures o.session.Some? <==> o.sent && answer.Some? && answer.value.ok
    ensures o.session.Some? ==>
      o.session.value == Session(answer.value.token, answer.value.uid, f.username) && o.navigate == Some("/")
    ensures o.sent && answer.None? ==> o.toast == Some(RegisterError)
    ensures o.sent && answer.Some? && !answer.value.ok ==> o.toast == Some(OrElseText(answer.value.message, RegisterFailed))
  {
    match ValidateRegister(f)
    case Some(message) => Outcome(false, Some(message), None, None)
    case None =>
      match answer
      case None => Outcome(true, Some(RegisterError), None, None)
      case Some(a) =>
        if a.ok then Outcome(true, None, Some(Session(a.token, a.uid, f.username)), Some("/"))
        else Outcome(true, Some(OrElseText(a.message, RegisterFailed)), None, None)
  }

  /** A sent registration always carries an eleven-digit number, a
      password and a code starting with four digits. */
  lemma SentRegistrationIsWellFormed(f: RegisterForm, answer: Option<RegisterAnswer>)
    requires RegisterUser(f, answer).sent
    ensures |f.username| == 11 && Decimal.AllDigits(f.username)
    ensures f.password != [] && |f.velCode| >= 4
  {
    assert forall i :: 2 <= i < 11 ==> f.username[i] == f.username[2..][i - 2];
  }

  // ---------------------------------------------------------------------
  // Login

  const LoginFailed := "登录失败"
  const LoginError := "登录失败，请稍后重试"
  const LoginSucceeded := "登录成功！"

  datatype LoginForm = LoginForm(username: string, password: string)

  /** The checks of `loginUser`, in source order. */
  function LoginChecks(f: LoginForm): seq<Validation.Check> {
    [Validation.Check(f.username != "", UsernameEmpty),
     Validation.Check(LoginPhone(f.username), PhoneInvalid),
     Validation.Check(f.password != "", PasswordEmpty)]
  }

  /** `loginUser`'s validation. */
  function ValidateLogin(f: LoginForm): (r: Option<string>)
    ensures r.None? <==> LoginPhone(f.username) && f.password != ""
    ensures f.username == "" ==> r == Some(UsernameEmpty)
    ensures f.username != "" && !LoginPhone(f.username) ==> r == Some(PhoneInvalid)
    ensures LoginPhone(f.username) && f.password == "" ==> r == Some(PasswordEmpty)
  {
    var checks := LoginChecks(f);
    Validation.FirstFailingIndex(checks, if f.username == "" then 0 else if !LoginPhone(f.username) then 1 else 2);
    Validation.FirstFailure(checks)
  }

  /** The server's answer to a login. */
  datatype LoginAnswer = LoginAnswer(code: int, message: string, token: string, uid: string, nickName: string)

  /** `loginUser()`: only code 200 signs in, with the nickname the server
      sends. */
  function LoginUser(f: LoginForm, answer: Option<LoginAnswer>): (o: Outcome)
    ensures o.sent <==> ValidateLogin(f).None?
    ensures !o.sent ==> o == Outcome(false, ValidateLogin(f), None, None)
    ensures o.session.Some? <==> o.sent && answer.Some? && answer.value.code == 200
    ensures o.session.Some? ==>
      && o.session.value == Session(answer.value.token, answer.value.uid, answer.value.nickName)
      && o.toast == Some(LoginSucceeded) && o.navigate == Some("/")
    ensures o.sent && answer.None? ==> o.toast == Some(LoginError)
    ensures o.sent && answer.Some? && answer.value.code != 200 ==> o.toast == Some(OrElseText(answer.value.message, LoginFailed))
  {
    match ValidateLogin(f)
    case Some(message) => Outcome(false, Some(message), None, None)
    case None =>
      match answer
      case None => Outcome(true, Some(LoginError), None, None)
      case Some(a) =>
        if a.code == 200 then Outcome(true, Some(LoginSucceeded), Some(Session(a.token, a.uid, a.nickName)), Some("/"))
        else Outcome(true, Some(OrElseText(a.message, LoginFailed)), None, None)
  }

  /** A username that passes registration's checks passes login's, with
      the same password. */
  lemma RegisteredUserCanSubmitLogin(f: RegisterForm)
    requires ValidateRegister(f).None?
    ensures ValidateLogin(LoginForm(f.username, f.password)).None?
  {
    RegisteredPhonesLogIn(f.username, []);
    assert f.username + [] == f.username;
  }
}

=== FILE: author_forms.dfy ===
/** The author pages: writing a new chapter, editing an existing one, and
    creating a book with its channel and category. Each runs its checks in
    order, then sends the form as it stands. */
module AuthorForms {
  import opened Results
  import opened Schema
  import Decimal
  import Validation
  import BooksRoute

  /** `${id}` in a template literal: a missing query parameter prints as
      `null`. */
  function IdText(id: Option<string>): string {
    match id
    case None => "null"
    case Some(s) => s
  }

  // ---------------------------------------------------------------------
  // Chapters

  const NameEmpty := "章节名不能为空！"
  const ContentEmpty := "章节内容不能为空！"
  const ContentTooShort := "章节内容太少！"
  const MinContentLength := 50
  const SaveFailed := "保存失败"
  const Updated := "更新成功！"
  const UpdateFailed := "更新失败"
  const LoadFailed := "加载章节数据失败"

  /** The chapter form; `isVip` is 0 for a free chapter, 1 for a paid one. */
  datatype ChapterForm = ChapterForm(chapterName: string, chapterContent: string, isVip: int)

  const EmptyChapter := ChapterForm("", "", 0)

  predicate VipFlag(f: ChapterForm) {
    f.isVip == 0 || f.isVip == 1
  }

  /** What the inputs of the form can do: type a name, type the text, or
      pick one of the two radio buttons. */
  datatype ChapterEdit = SetName(name: string) | SetContent(content: string) | SetPaid(paid: bool)

  function ApplyEdit(f: ChapterForm, e: ChapterEdit): (g: ChapterForm)
    ensures e.SetName? ==> g.chapterName == e.name && g.chapterContent == f.chapterContent && g.isVip == f.isVip
    ensures e.SetContent? ==> g.chapterContent == e.content && g.chapterName == f.chapterName && g.isVip == f.isVip
    ensures e.SetPaid? ==> VipFlag(g) && (g.isVip == 1 <==> e.paid)
    ensures e.SetPaid? ==> g.chapterName == f.chapterName && g.chapterContent == f.chapterContent
  {
    match e
    case SetName(name) => f.(chapterName := name)
    case SetContent(content) => f.(chapterContent := content)
    case SetPaid(paid) => f.(isVip := if paid then 1 else 0)
  }

  /** The form after a sequence of edits, oldest first. */
  function ApplyEdits(f: ChapterForm, edits: seq<ChapterEdit>): ChapterForm
    decreases |edits|
  {
    if edits == [] then f else ApplyEdits(ApplyEdit(f, edits[0]), edits[1..])
  }

  /** Editing never takes `isVip` outside {0, 1}: the form the add page
      sends always has a valid flag. */
  lemma {:induction false} EditsKeepVipFlag(f: ChapterForm, edits: seq<ChapterEdit>)
    requires VipFlag(f)
    ensures VipFlag(ApplyEdits(f, edits))
    decreases |edits|
  {
    if edits != [] {
      EditsKeepVipFlag(ApplyEdit(f, edits[0]), edits[1..]);
    }
  }

  /** The three checks both chapter pages run, in source order. */
  function ChapterChecks(f: ChapterForm): seq<Validation.Check> {
    [Validation.Check(f.chapterName != "", NameEmpty),
     Validation.Check(f.chapterContent != "", ContentEmpty),
     Validation.Check(|f.chapterContent| >= MinContentLength, ContentTooShort)]
  }

  function ValidateChapter(f: ChapterForm): (r: Option<string>)
    ensures r.None? <==> f.chapterName != "" && |f.chapterContent| >= MinContentLength
    ensures f.chapterName == "" ==> r == Some(NameEmpty)
    ensures f.chapterName != "" && f.chapterContent == "" ==> r == Some(ContentEmpty)
    ensures f.chapterName != "" && 0 < |f.chapterContent| < MinContentLength ==> r == Some(ContentTooShort)
  {
    var checks := ChapterChecks(f);
    Validation.FirstFailingIndex(checks, if f.chapterName == "" then 0 else if f.chapterContent == "" then 1 else 2);
    Validation.FirstFailure(checks)
  }

  /** A chapter request: the method, the path and the JSON body. */
  datatype ChapterRequest = ChapterRequest(verb: string, url: string, body: ChapterForm)

  /** `saveChapter()` of the add page: a rejected answer shows nothing and
      stays on the page; only a thrown request shows a toast. */
  function SaveChapter(f: ChapterForm, bookId: Option<string>, reply: Validation.Reply): (e: Validation.Effect<ChapterRequest>)
    ensures e.sent.Some? <==> ValidateChapter(f).None?
    ensures e.sent.None? ==> e == Validation.Refused(ValidateChapter(f).value)
    ensures e.sent.Some? ==> e.sent.value == ChapterRequest("POST", "/api/author/book/" + IdText(bookId) + "/chapter", f)
    ensures e.navigate.Some? <==> e.sent.Some? && reply == Validation.Replied(true)
    ensures e.navigate.Some? ==> e.navigate.value == "/author/chapter-list?id=" + IdText(bookId) && e.toast.None?
    ensures e.sent.Some? && reply == Validation.Replied(false) ==> e.toast.None? && e.navigate.None?
    ensures e.sent.Some? && reply.Thrown? ==> e.toast == Some(SaveFailed) && e.navigate.None?
  {
    match ValidateChapter(f)
    case Some(message) => Validation.Refused(message)
    case None =>
      var request := ChapterRequest("POST", "/api/author/book/" + IdText(bookId) + "/chapter", f);
      match reply
      case Thrown => Validation.Effect(Some(request), Some(SaveFailed), None)
      case Replied(ok) =>
        if ok then Validation.Effect(Some(request), None, Some("/author/chapter-list?id=" + IdText(bookId)))
        else Validation.Effect(Some(request), None, None)
  }

  /** `handleSubmit()` of the update page: once the PUT comes back, it
      reports success whatever the status. */
  function UpdateChapter(f: ChapterForm, chapterId: Option<string>, reply: Validation.Reply): (e: Validation.Effect<ChapterRequest>)
    ensures e.sent.Some? <==> ValidateChapter(f).None?
    ensures e.sent.None? ==> e == Validation.Refused(ValidateChapter(f).value)
    ensures e.sent.Some? ==> e.sent.value == ChapterRequest("PUT", "/api/author/chapters/" + IdText(chapterId), f)
    ensures e.navigate.None?
    ensures e.sent.Some? ==> (e.toast == Some(Updated) <==> reply.Replied?)
    ensures e.sent.Some? && reply.Thrown? ==> e.toast == Some(UpdateFailed)
  {
    match ValidateChapter(f)
    case Some(message) => Validation.Refused(message)
    case None =>
      var request := ChapterRequest("PUT", "/api/author/chapters/" + IdText(chapterId), f);
      match reply
      case Thrown => Validation.Effect(Some(request), Some(UpdateFailed), None)
      case Replied(_) => Validation.Effect(Some(request), Some(Updated), None)
  }

  /** Both chapter pages accept and refuse the same forms with the same
      message. */
  lemma ChapterPagesAgree(f: ChapterForm, bookId: Option<string>, chapterId: Option<string>, r1: Validation.Reply, r2: Validation.Reply)
    ensures SaveChapter(f, bookId, r1).sent.Some? <==> UpdateChapter(f, chapterId, r2).sent.Some?
    ensures SaveChapter(f, bookId, r1).sent.None? ==> SaveChapter(f, bookId, r1) == UpdateChapter(f, chapterId, r2)
  {
  }

  /** A refused update is reported as a success all the same. */
  lemma UpdateIgnoresStatus(f: ChapterForm, chapterId: Option<string>)
    requires ValidateChapter(f).None?
    ensures UpdateChapter(f, chapterId, Validation.Replied(false)).toast == Some(Updated)
    ensures UpdateChapter(f, chapterId, Validation.Replied(false)) == UpdateChapter(f, chapterId, Validation.Replied(true))
  {
  }

  /** Without an id in the address the add page still posts, to the book
      called `null`. */
  lemma MissingBookIdPostsToNull(f: ChapterForm, reply: Validation.Reply)
    requires ValidateChapter(f).None?
    ensures SaveChapter(f, None, reply).sent.value.url == "/api/author/book/null/chapter"
  {
  }

  /** `if (chapterId)`: the update page loads only for a non-empty id. */
  predicate ShouldLoad(chapterId: Option<string>) {
    chapterId.Some? && chapterId.value != ""
  }

  /** `loadChapter()`: `loaded` is the JSON the server sent, `None` when the
      request or its parsing throws. The page takes the JSON as it is. */
  function LoadChapter(f: ChapterForm, chapterId: Option<string>, loaded: Option<ChapterForm>): (r: (ChapterForm, Option<string>))
    ensures !ShouldLoad(chapterId) ==> r == (f, None)
    ensures ShouldLoad(chapterId) && loaded.Some? ==> r == (loaded.value, None)
    ensures ShouldLoad(chapterId) && loaded.None? ==> r == (f, Some(LoadFailed))
  {
    if !ShouldLoad(chapterId) then (f, None)
    else match loaded
      case None => (f, Some(LoadFailed))
      case Some(data) => (data, None)
  }

  /** The flag invariant the edits keep does not survive loading: the page
      shows and sends back whatever `isVip` the server holds. */
  lemma LoadingCanBreakVipFlag()
    ensures !VipFlag(LoadChapter(EmptyChapter, Some("7"), Some(ChapterForm("a", "b", 2))).0)
    ensures LoadChapter(EmptyChapter, Some(""), Some(ChapterForm("a", "b", 2))).0 == EmptyChapter
  {
  }

  // ---------------------------------------------------------------------
  // Books

  const BookNameEmpty := "请输入书名"
  const CoverMissing := "请上传封面"
  const DescEmpty := "请输入简介"
  const BookCreated := "小说创建成功"
  const SubmitFailed := "提交失败，请重试"
  const CategoriesLoadFailed := "获取分类列表失败"
  const BooksPage := "/author/books"

  /** The book form; every field is text, the channel `"0"` or `"1"`. */
  datatype BookForm = BookForm(
    workDirection: string,
    categoryId: string,
    categoryName: string,
    bookName: string,
    picUrl: string,
    bookDesc: string)

  const EmptyBook := BookForm("0", "", "", "", "", "")

  /** The form and the `categories` state, which holds whatever JSON the
      category request returned. */
  datatype BookPage = BookPage(form: BookForm, categories: BooksRoute.CategoriesBody)

  const InitialBookPage := BookPage(EmptyBook, BooksRoute.CategoryArray([]))

  /** `loadCategories()`. `resp` is `None` when the request or its JSON
      throws; the status is not looked at. An array with a first element
      preselects it; the error object has no `length` and preselects
      nothing. */
  function LoadCategories(p: BookPage, resp: Option<BooksRoute.CategoriesResponse>): (r: (BookPage, Option<string>))
    ensures resp.None? ==> r == (p, Some(CategoriesLoadFailed))
    ensures resp.Some? ==> r.1.None? && r.0.categories == resp.value.body
    ensures && r.0.form.workDirection == p.form.workDirection && r.0.form.bookName == p.form.bookName
            && r.0.form.picUrl == p.form.picUrl && r.0.form.bookDesc == p.form.bookDesc
    ensures resp.Some? && resp.value.body.CategoryArray? && resp.value.body.rows != [] ==>
      var first := resp.value.body.rows[0];
      r.0.form.categoryId == Decimal.IntToString(first.id) && r.0.form.categoryName == first.name
    ensures !(resp.Some? && resp.value.body.CategoryArray? && resp.value.body.rows != []) ==>
      r.0.form.categoryId == p.form.categoryId && r.0.form.categoryName == p.form.categoryName
  {
    match resp
    case None => (p, Some(CategoriesLoadFailed))
    case Some(answer) =>
      match answer.body
      case CategoryArray(rows) =>
        if rows != [] then
          (BookPage(p.form.(categoryId := Decimal.IntToString(rows[0].id), categoryName := rows[0].name), answer.body), None)
        else (p.(categories := answer.body), None)
      case CategoryObject(_) => (p.(categories := answer.body), None)
  }

  /** Picking a channel: store it, then load its categories. */
  function ChangeDirection(p: BookPage, value: string, resp: Option<BooksRoute.CategoriesResponse>): (r: (BookPage, Option<string>))
    ensures r.0.form.workDirection == value
  {
    LoadCategories(p.(form := p.form.(workDirection := value)), resp)
  }

  /** Picking a channel the server answers for lists exactly that channel's
      categories and preselects one of least `sort`. */
  lemma DirectionChangeListsItsCategories(p: BookPage, value: string, rows: seq<Category>)
    ensures var wd := BooksRoute.DirectionParam(Some(value));
      var q := ChangeDirection(p, value, Some(BooksRoute.Get(Some(value), rows, false))).0;
      && q.categories.CategoryArray?
      && (forall c :: c in q.categories.rows <==> c in rows && c.workDirection == wd)
      && ((exists c :: c in rows && c.workDirection == wd) ==>
            exists c :: c in rows && c.workDirection == wd
              && q.form.categoryId == Decimal.IntToString(c.id) && q.form.categoryName == c.name
              && forall d :: d in rows && d.workDirection == wd ==> c.sort <= d.sort)
  {
    var wd := BooksRoute.DirectionParam(Some(value));
    var resp := BooksRoute.Get(Some(value), rows, false);
    BooksRoute.GetAnswersDirection(Some(value), rows);
    var listed := resp.body.rows;
    if c :| c in rows && c.workDirection == wd {
      assert c in listed;
      HeadIsLeast(listed);
    }
  }

  /** The head of a list in ascending `sort` order has the least `sort`. */
  lemma HeadIsLeast(listed: seq<Category>)
    requires listed != []
    requires forall i, j :: 0 <= i < j < |listed| ==> listed[i].sort <= listed[j].sort
    ensures forall d :: d in listed ==> listed[0].sort <= d.sort
  {
    forall d | d in listed
      ensures listed[0].sort <= d.sort
    {
      var j :| 0 <= j < |listed| && listed[j] == d;
      if j > 0 {
        assert listed[0].sort <= listed[j].sort;
      }
    }
  }

  /** When the category request fails on the server, the page shows the
      error object and keeps the category of the previous channel. */
  lemma FailedLoadKeepsStaleCategory(p: BookPage, value: string, rows: seq<Category>)
    ensures var q := ChangeDirection(p, value, Some(BooksRoute.Get(Some(value), rows, true))).0;
      && q.categories == BooksRoute.CategoryObject([])
      && q.form.categoryId == p.form.categoryId && q.form.categoryName == p.form.categoryName
  {
  }

  /** `categories.find(c => c.id.toString() === value)`. */
  function FindCategory(rows: seq<Category>, value: string): (r: Option<Category>)
    ensures r.None? <==> forall c :: c in rows ==> Decimal.IntToString(c.id) != value
    ensures r.Some? ==> r.value in rows && Decimal.IntToString(r.value.id) == value
    ensures rows != [] && Decimal.IntToString(rows[0].id) == value ==> r == Some(rows[0])
    // the first match wins: every row before it has another id
    ensures r.Some? ==>
      exists i :: 0 <= i < |rows| && rows[i] == r.value && forall j :: 0 <= j < i ==> Decimal.IntToString(rows[j].id) != value
  {
    if rows == [] then None
    else if Decimal.IntToString(rows[0].id) == value then Some(rows[0])
    else
      assert forall c :: c in rows ==> c == rows[0] || c in rows[1..];
      var r := FindCategory(rows[1..], value);
      if r.Some? then
        var i :| 0 <= i < |rows[1..]| && rows[1..][i] == r.value && forall j :: 0 <= j < i ==> Decimal.IntToString(rows[1..][j].id) != value;
        assert rows[i + 1] == r.value;
        assert forall j :: 0 <= j < i + 1 ==> Decimal.IntToString(rows[j].id) != value by {
          forall j | 0 <= j < i + 1 ensures Decimal.IntToString(rows[j].id) != value {
            if j > 0 { assert rows[j] == rows[1..][j - 1]; }
          }
        }
        r
      else r
  }

  /** The category select's `onValueChange`. Over the error object,
      `categories.find` is not a function and the handler throws. */
  function SelectCategory(p: BookPage, value: string): (r: Result<BookPage>)
    ensures r.Success? <==> p.categories.CategoryArray?
    ensures r.Success? ==> && r.value.categories == p.categories
                           && r.value.form == p.form.(categoryId := value, categoryName := r.value.form.categoryName)
    ensures r.Success? && FindCategory(p.categories.rows, value).None? ==> r.value.form.categoryName == ""
  {
    match p.categories
    case CategoryObject(_) => Failure("categories.find is not a function")
    case CategoryArray(rows) =>
      var name := match FindCategory(rows, value) case Some(c) => c.name case None => "";
      Success(p.(form := p.form.(categoryId := value, categoryName := name)))
  }

  predicate DistinctIds(rows: seq<Category>) {
    forall i, j :: 0 <= i < |rows| && 0 <= j < |rows| && rows[i].id == rows[j].id ==> i == j
  }

  /** Selecting a listed category by its id stores that category's name,
      when ids are distinct as the table's key makes them. */
  lemma SelectingListedCategory(p: BookPage, c: Category)
    requires p.categories.CategoryArray? && c in p.categories.rows && DistinctIds(p.categories.rows)
    ensures var r := SelectCategory(p, Decimal.IntToString(c.id));
      r.Success? && r.value.form.categoryId == Decimal.IntToString(c.id) && r.value.form.categoryName == c.name
  {
    var rows := p.categories.rows;
    var found := FindCategory(rows, Decimal.IntToString(c.id));
    var d := found.value;
    Decimal.IntToStringRoundTrip(c.id);
    Decimal.IntToStringRoundTrip(d.id);
    assert d.id == c.id;
    var i :| 0 <= i < |rows| && rows[i] == c;
    var j :| 0 <= j < |rows| && rows[j] == d;
  }

  /** Re-selecting the preselected category after a load keeps its name,
      whatever ids the list holds. */
  lemma PreselectIsStable(p: BookPage, resp: BooksRoute.CategoriesResponse)
    requires resp.body.CategoryArray? && resp.body.rows != []
    ensures var q := LoadCategories(p, Some(resp)).0;
      SelectCategory(q, q.form.categoryId) == Success(q)
  {
  }

  /** The checks of `onSubmit`, in source order; the category is not among
      them. */
  function BookChecks(f: BookForm): seq<Validation.Check> {
    [Validation.Check(f.bookName != "", BookNameEmpty),
     Validation.Check(f.picUrl != "", CoverMissing),
     Validation.Check(f.bookDesc != "", DescEmpty)]
  }

  function ValidateBook(f: BookForm): (r: Option<string>)
    ensures r.None? <==> f.bookName != "" && f.picUrl != "" && f.bookDesc != ""
    ensures f.bookName == "" ==> r == Some(BookNameEmpty)
    ensures f.bookName != "" && f.picUrl == "" ==> r == Some(CoverMissing)
    ensures f.bookName != "" && f.picUrl != "" && f.bookDesc == "" ==> r == Some(DescEmpty)
  {
    var checks := BookChecks(f);
    Validation.FirstFailingIndex(checks, if f.bookName == "" then 0 else if f.picUrl == "" then 1 else 2);
    Validation.FirstFailure(checks)
  }

  /** `onSubmit()`: a rejected answer is thrown and reported like a failed
      request. */
  function SubmitBook(f: BookForm, reply: Validation.Reply): (e: Validation.Effect<BookForm>)
    ensures e.sent.Some? <==> ValidateBook(f).None?
    ensures e.sent.None? ==> e == Validation.Refused(ValidateBook(f).value)
    ensures e.sent.Some? ==> e.sent.value == f
    ensures e.navigate.Some? <==> e.sent.Some? && reply == Validation.Replied(true)
    ensures e.navigate.Some? ==> e.navigate.value == BooksPage && e.toast == Some(BookCreated)
    ensures e.sent.Some? && reply != Validation.Replied(true) ==> e.toast == Some(SubmitFailed)
  {
    match ValidateBook(f)
    case Some(message) => Validation.Refused(message)
    case None =>
      if reply == Validation.Replied(true) then Validation.Effect(Some(f), Some(BookCreated), Some(BooksPage))
      else Validation.Effect(Some(f), Some(SubmitFailed), None)
  }

  /** The category plays no part in whether a book is sent: a form that
      never loaded its categories goes out with an empty category id. */
  lemma CategoryNotValidated(f: BookForm, categoryId: string, categoryName: string, reply: Validation.Reply)
    ensures ValidateBook(f.(categoryId := categoryId, categoryName := categoryName)) == ValidateBook(f)
    ensures var g := EmptyBook.(bookName := "n", picUrl := "p", bookDesc := "d");
      SubmitBook(g, reply).sent == Some(g) && g.categoryId == ""
  {
  }
}

=== FILE: book_class.dfy ===
/** The category browsing pages (`app/book-class/page.tsx` and its client
    component `BookClassClient.tsx`): a search condition edited by filter
    buttons, the query string or JSON body a search sends, and how answers
    update the page. The client component's search is the `/api/books`
    POST route of `BooksRoute`. */
module BookClass {
  import opened Results
  import opened JsValues
  import opened Schema
  import Decimal
  import DateFormat
  import BookSearch
  import BooksRoute

  /** A string-valued field of the condition: absent, `null`, or a string. */
  datatype TextField = NoText | NullText | TextOf(s: string)

  /** The client-side `SearchCondition`. */
  datatype Condition = Condition(
    keyword: TextField,
    workDirection: Value,
    categoryId: Value,
    bookStatus: Value,
    wordCountMin: Value,
    wordCountMax: Value,
    updateTimeMin: TextField,
    sort: TextField,
    pageNum: Value,
    pageSize: Value)

  /** The page's state: which filter buttons are highlighted, the category
      list as last received, the condition, the books shown, and the
      `total` handed to the pager (a number, or the `null` of an answer
      whose total was `NaN`). */
  datatype ClassState = ClassState(
    workDirectionOn: int,
    categoryOn: int,
    bookStatusOn: Value,
    wordCountOn: Value,
    updateTimeOn: Value,
    sortOn: TextField,
    categories: BooksRoute.CategoriesBody,
    cond: Condition,
    books: seq<Book>,
    total: Value)

  /** The first state of `page.tsx`: page 1 of 10, nothing else set. The
      client component starts from the server's `initialBooks` paging
      instead; its states with this condition are those on page 1 of 10
      with no filters. */
  const Initial := ClassState(0, 0, Null, Null, Null, NullText, BooksRoute.CategoryArray([]),
    Condition(NoText, Undefined, Undefined, Undefined, Undefined, Undefined, NoText, NoText, Num(1), Num(10)),
    [], Num(0))

  // ---------------------------------------------------------------------
  // Filter buttons

  /** `changeCategory(id)`: highlight `id`; only a positive id filters. */
  function ChangeCategory(s: ClassState, id: int): (r: ClassState)
    ensures r.categoryOn == id
    ensures r.cond.categoryId == (if id > 0 then Num(id) else Undefined)
    ensures r == s.(categoryOn := id, cond := s.cond.(categoryId := r.cond.categoryId))
  {
    s.(categoryOn := id, cond := s.cond.(categoryId := if id > 0 then Num(id) else Undefined))
  }

  /** `changeBookStatus(status)` with `status` null, 0 or 1. */
  function ChangeBookStatus(s: ClassState, status: Value): (r: ClassState)
    ensures r.bookStatusOn == status && r.cond.bookStatus == status
    ensures r == s.(bookStatusOn := status, cond := s.cond.(bookStatus := status))
  {
    s.(bookStatusOn := status, cond := s.cond.(bookStatus := status))
  }

  /** `changeWordCount(min, max)`: the button is remembered by its `min`. */
  function ChangeWordCount(s: ClassState, min: Value, max: Value): (r: ClassState)
    ensures r.wordCountOn == min
    ensures r.cond.wordCountMin == min && r.cond.wordCountMax == max
    ensures r == s.(wordCountOn := min, cond := s.cond.(wordCountMin := min, wordCountMax := max))
  {
    s.(wordCountOn := min, cond := s.cond.(wordCountMin := min, wordCountMax := max))
  }

  /** `changeUpdateTime(days)` of the page: a truthy `days` asks for books
      updated since the date `days` days ago, written `YYYY-MM-DD`; `since`
      is that date (`addDay(-days)`, which reads the clock). */
  function ChangeUpdateTime(s: ClassState, days: Value, since: DateFormat.DateFields): (r: ClassState)
    ensures r.updateTimeOn == days
    ensures Truthy(days) ==> r.cond.updateTimeMin == TextOf(DateFormat.Format("YYYY-MM-DD", since))
    ensures !Truthy(days) ==> r.cond.updateTimeMin == NullText
    ensures r == s.(updateTimeOn := days, cond := s.cond.(updateTimeMin := r.cond.updateTimeMin))
  {
    var text := if Truthy(days) then TextOf(DateFormat.Format("YYYY-MM-DD", since)) else NullText;
    s.(updateTimeOn := days, cond := s.cond.(updateTimeMin := text))
  }

  /** `changeSort(sort)` of the page. */
  function ChangeSort(s: ClassState, sort: TextField): (r: ClassState)
    ensures r.sortOn == sort && r.cond.sort == sort
    ensures r == s.(sortOn := sort, cond := s.cond.(sort := sort))
  {
    s.(sortOn := sort, cond := s.cond.(sort := sort))
  }

  /** `handlePageChange(page)`. */
  function HandlePageChange(s: ClassState, page: int): (r: ClassState)
    ensures r.cond.pageNum == Num(page)
    ensures r == s.(cond := s.cond.(pageNum := Num(page)))
  {
    s.(cond := s.cond.(pageNum := Num(page)))
  }

  /** The date filter reads year, month and day joined by dashes. */
  lemma UpdateTimeIsDate(s: ClassState, days: Value, since: DateFormat.DateFields)
    requires Truthy(days)
    ensures var m := DateFormat.FormatMapOf(since);
      ChangeUpdateTime(s, days, since).cond.updateTimeMin == TextOf(m.year + ("-" + (m.month + ("-" + m.day))))
  {
    DateFormat.DateOnlyFormat(DateFormat.FormatMapOf(since));
  }

  // ---------------------------------------------------------------------
  // Loading the category list

  /** The `{ code, data }` envelope the page's search backend answers
      with. */
  datatype Coded<T> = Coded(code: int, data: T)

  /** `loadCategoryList(wd)` of the page. `resp` is `None` when the request
      or its JSON throws. When the answer's code is 200 it shows the
      categories, switches the direction, drops the category filter and
      highlights "all"; otherwise nothing changes. */
  function LoadCategoryList(s: ClassState, wd: int, resp: Option<Coded<seq<Category>>>): (r: ClassState)
    ensures resp.None? || resp.value.code != 200 ==> r == s
    ensures resp.Some? && resp.value.code == 200 ==>
      && r.categories == BooksRoute.CategoryArray(resp.value.data)
      && r.workDirectionOn == wd && r.categoryOn == 0
      && r.cond == s.cond.(workDirection := Num(wd), categoryId := Undefined)
  {
    match resp
    case Some(Coded(code, cs)) =>
      if code == 200 then Reset(s, wd, BooksRoute.CategoryArray(cs)) else s
    case None => s
  }

  function Reset(s: ClassState, wd: int, categories: BooksRoute.CategoriesBody): ClassState {
    s.(categories := categories, workDirectionOn := wd, categoryOn := 0,
       cond := s.cond.(workDirection := Num(wd), categoryId := Undefined))
  }

  /** `loadCategoryList(wd)` of the client component: whatever JSON the GET
      route answers is taken as the category list, without looking at the
      status; only a thrown error (`None`) leaves the state alone. */
  function ClientLoadCategoryList(s: ClassState, wd: int, resp: Option<BooksRoute.CategoriesResponse>): (r: ClassState)
    ensures resp.None? ==> r == s
    ensures resp.Some? ==>
      && r.categories == resp.value.body
      && r.workDirectionOn == wd && r.categoryOn == 0
      && r.cond == s.cond.(workDirection := Num(wd), categoryId := Undefined)
  {
    match resp
    case None => s
    case Some(answer) => Reset(s, wd, answer.body)
  }

  /** When the categories cannot be read, the client keeps the route's
      `{ categories: [] }` object as its category list, which is not a
      list of buttons. */
  lemma ClientKeepsErrorObject(s: ClassState, wd: int, param: Option<string>, rows: seq<Category>)
    ensures !ClientLoadCategoryList(s, wd, Some(BooksRoute.Get(param, rows, true))).categories.CategoryArray?
  {
  }

  /** The client asks the GET route for `workDirection=<wd>` and receives
      exactly the categories of direction `wd`. */
  lemma ClientLoadsDirection(s: ClassState, wd: int, rows: seq<Category>)
    ensures var param := Some(Decimal.IntToString(wd));
      var r := ClientLoadCategoryList(s, wd, Some(BooksRoute.Get(param, rows, false)));
      && r.categories.CategoryArray?
      && forall c :: c in r.categories.rows <==> c in rows && c.workDirection == wd
  {
    var param := Some(Decimal.IntToString(wd));
    BooksRoute.JsNumberReadsIntToString(wd);
    BooksRoute.GetAnswersDirection(param, rows);
  }

  // ---------------------------------------------------------------------
  // The word-count buttons

  /** The `(min, max)` pairs of the five word-count buttons, "all" first. */
  const Buckets: seq<(Value, Value)> := [
    (Null, Null),
    (Num(0), Num(300000)),
    (Num(300000), Num(500000)),
    (Num(500000), Num(1000000)),
    (Num(1000000), Null)]

  /** The word-count part of the search's filter, inclusive at both ends. */
  predicate WithinBounds(min: Value, max: Value, w: int) {
    && (Nullish(min) || (min.Num? && w >= min.n))
    && (Nullish(max) || (max.Num? && w <= max.n))
  }

  /** The search's filter splits into the word-count bounds and the rest. */
  lemma MatchesSplits(c: BookSearch.SearchCondition, b: Book)
    ensures BookSearch.Matches(c, b) <==>
      && BookSearch.Matches(c.(wordCountMin := Undefined, wordCountMax := Undefined), b)
      && WithinBounds(c.wordCountMin, c.wordCountMax, b.wordCount)
  {
  }

  /** Adjacent buckets share their endpoint, and the bounds are inclusive,
      so a book at 300000, 500000 or 1000000 words is in two buckets. */
  lemma SharedEndpoints()
    ensures WithinBounds(Buckets[1].0, Buckets[1].1, 300000) && WithinBounds(Buckets[2].0, Buckets[2].1, 300000)
    ensures WithinBounds(Buckets[2].0, Buckets[2].1, 500000) && WithinBounds(Buckets[3].0, Buckets[3].1, 500000)
    ensures WithinBounds(Buckets[3].0, Buckets[3].1, 1000000) && WithinBounds(Buckets[4].0, Buckets[4].1, 1000000)
  {
  }

  /** Every non-negative count is in one of the four bounded buckets, and
      "all" admits every count. */
  lemma BucketsCover(w: int)
    requires w >= 0
    ensures exists k :: 1 <= k < |Buckets| && WithinBounds(Buckets[k].0, Buckets[k].1, w)
    ensures WithinBounds(Buckets[0].0, Buckets[0].1, w)
  {
    if w <= 300000 {
      assert WithinBounds(Buckets[1].0, Buckets[1].1, w);
    } else if w <= 500000 {
      assert WithinBounds(Buckets[2].0, Buckets[2].1, w);
    } else if w <= 1000000 {
      assert WithinBounds(Buckets[3].0, Buckets[3].1, w);
    } else {
      assert WithinBounds(Buckets[4].0, Buckets[4].1, w);
    }
  }

  // ---------------------------------------------------------------------
  // The page's query string

  /** One `[key, value]` of `Object.entries(searchCondition)`. */
  datatype Param = NumParam(v: Value) | TextParam(t: TextField)

  predicate Present(p: Param) {
    match p
    case NumParam(v) => !Nullish(v)
    case TextParam(t) => t.TextOf?
  }

  /** `value.toString()` */
  function Rendered(p: Param): string
    requires Present(p)
  {
    match p
    case NumParam(v) => Decimal.IntToString(v.n)
    case TextParam(t) => t.s
  }

  /** The condition's entries. The order is the order the fields were first
      set, which this model fixes as the declaration order. */
  function Entries(c: Condition): seq<(string, Param)> {
    [("keyword", TextParam(c.keyword)),
     ("workDirection", NumParam(c.workDirection)),
     ("categoryId", NumParam(c.categoryId)),
     ("bookStatus", NumParam(c.bookStatus)),
     ("wordCountMin", NumParam(c.wordCountMin)),
     ("wordCountMax", NumParam(c.wordCountMax)),
     ("updateTimeMin", TextParam(c.updateTimeMin)),
     ("sort", TextParam(c.sort)),
     ("pageNum", NumParam(c.pageNum)),
     ("pageSize", NumParam(c.pageSize))]
  }

  /** The `params.append` loop: every entry that is neither `undefined` nor
      `null`, in entry order. */
  function QueryParams(entries: seq<(string, Param)>): (r: seq<(string, string)>)
    ensures |r| <= |entries|
    ensures forall kv :: kv in r <==> exists e :: e in entries && Present(e.1) && kv == (e.0, Rendered(e.1))
  {
    if entries == [] then []
    else
      var rest := QueryParams(entries[1..]);
      assert forall e :: e in entries <==> e == entries[0] || e in entries[1..];
      if Present(entries[0].1) then [(entries[0].0, Rendered(entries[0].1))] + rest else rest
  }

  /** A number put in the query string reads back as that number. */
  lemma ParamReadsBack(p: Param)
    requires p.NumParam? && Present(p)
    ensures Decimal.ParseInt(Rendered(p)) == Some(p.v.n)
  {
    Decimal.IntToStringRoundTrip(p.v.n);
  }

  /** No two entries of a condition share a key. */
  predicate DistinctKeys(entries: seq<(string, Param)>) {
    forall i, j :: 0 <= i < j < |entries| ==> entries[i].0 != entries[j].0
  }

  lemma EntryKeysDistinct(c: Condition)
    ensures DistinctKeys(Entries(c))
  {
    var e := Entries(c);
    forall i, j | 0 <= i < j < |e| ensures e[i].0 != e[j].0 {
      assert e[i].0[0] != e[j].0[0] || |e[i].0| != |e[j].0| || e[i].0[10] != e[j].0[10];
    }
  }

  /** The key of an entry that is `undefined` or `null` is not in the query
      string. */
  lemma AbsentEntryOmitted(entries: seq<(string, Param)>, i: nat)
    requires DistinctKeys(entries)
    requires i < |entries| && !Present(entries[i].1)
    ensures forall v :: (entries[i].0, v) !in QueryParams(entries)
  {
  }

  /** A present entry is in the query string with its rendered value. */
  lemma PresentEntryIncluded(entries: seq<(string, Param)>, i: nat)
    requires i < |entries| && Present(entries[i].1)
    ensures (entries[i].0, Rendered(entries[i].1)) in QueryParams(entries)
  {
    assert entries[i] in entries;
  }

  /** The query string of the condition after pressing "100万字以上" and
      clearing the category, which a press sending the condition it has
      just set would send: it has the lower bound and leaves out the
      upper bound and the category. */
  lemma OpenBucketOmitsMax(s: ClassState)
    ensures var c := ChangeCategory(ChangeWordCount(s, Buckets[4].0, Buckets[4].1), 0).cond;
      && ("wordCountMin", Decimal.IntToString(1000000)) in QueryParams(Entries(c))
      && (forall v :: ("wordCountMax", v) !in QueryParams(Entries(c)))
      && (forall v :: ("categoryId", v) !in QueryParams(Entries(c)))
  {
    var c := ChangeCategory(ChangeWordCount(s, Buckets[4].0, Buckets[4].1), 0).cond;
    var e := Entries(c);
    EntryKeysDistinct(c);
    assert e[4] == ("wordCountMin", NumParam(Num(1000000)));
    PresentEntryIncluded(e, 4);
    assert e[5] == ("wordCountMax", NumParam(Null));
    AbsentEntryOmitted(e, 5);
    assert e[2] == ("categoryId", NumParam(Undefined));
    AbsentEntryOmitted(e, 2);
  }

  // ---------------------------------------------------------------------
  // Searching

  /** `JSON.stringify(searchCondition)` read back by the route: undefined
      fields vanish, `null` stays `null`. */
  function ClientBody(c: Condition): (body: BooksRoute.PostBody)
    ensures body.pageNum == c.pageNum && body.pageSize == c.pageSize
    ensures body.workDirection == c.workDirection && body.categoryId == c.categoryId
    ensures body.bookStatus == c.bookStatus
    ensures body.wordCountMin == c.wordCountMin && body.wordCountMax == c.wordCountMax
    ensures body.keyword == if c.keyword.TextOf? then Some(c.keyword.s) else None
  {
    BooksRoute.PostBody(c.pageSize, c.pageNum, c.workDirection, c.categoryId, c.bookStatus,
      c.wordCountMin, c.wordCountMax, if c.keyword.TextOf? then Some(c.keyword.s) else None)
  }

  /** The client's `search()`: it takes list, total and paging from any
      answer, status or not; a thrown error (`None`) changes nothing. */
  function ClientSearch(s: ClassState, resp: Option<BooksRoute.ListResponse>): (r: ClassState)
    ensures resp.None? ==> r == s
    ensures resp.Some? ==>
      && r.books == resp.value.list && r.total == resp.value.total
      && r.cond == s.cond.(pageNum := Num(resp.value.pageNum), pageSize := Num(resp.value.pageSize))
  {
    match resp
    case None => s
    case Some(a) =>
      s.(books := a.list, total := a.total, cond := s.cond.(pageNum := Num(a.pageNum), pageSize := Num(a.pageSize)))
  }

  /** The `data` of the page's search backend answer. */
  datatype SearchData = SearchData(list: seq<Book>, total: int, pageNum: int, pageSize: int)

  /** The page's `search()`: only an answer with code 200 is taken; any
      other code, or a thrown request (`None`), changes nothing. */
  function PageSearch(s: ClassState, resp: Option<Coded<SearchData>>): (r: ClassState)
    ensures resp.None? || resp.value.code != 200 ==> r == s
    ensures resp.Some? && resp.value.code == 200 ==>
      var a := resp.value.data;
      && r.books == a.list && r.total == Num(a.total)
      && r.cond == s.cond.(pageNum := Num(a.pageNum), pageSize := Num(a.pageSize))
  {
    match resp
    case Some(Coded(code, a)) =>
      if code == 200 then
        s.(books := a.list, total := Num(a.total), cond := s.cond.(pageNum := Num(a.pageNum), pageSize := Num(a.pageSize)))
      else s
    case None => s
  }

  /** A failed search sends the client back to page 1 of 10 with an empty
      table, whatever page it was on. */
  lemma FailedSearchResets(s: ClassState)
    ensures var r := ClientSearch(s, Some(BooksRoute.FailedResponse));
      && r.books == [] && r.total == Num(0)
      && r.cond.pageNum == Num(1) && r.cond.pageSize == Num(10)
  {
  }

  /** Whether `CustomPagination` draws anything for the state's `total`.
      It draws nothing when `total <= 0` (`Pagination.Render` is `None`
      exactly then), and in JavaScript `null <= 0` holds while
      `undefined <= 0` does not. */
  predicate PagerShown(s: ClassState) {
    match s.total
    case Num(n) => n > 0
    case Null => false
    case Undefined => true
  }

  // ---------------------------------------------------------------------
  // Pressing a button

  /** The client's `search()` posting the condition `sent`, with its answer
      merged into `next`, the state at the time the answer arrives. The
      buttons and filters stay as in `next`. A successful answer, which
      needs a matching book, shows one page of the ranked matches of `sent`
      under a `null` total; a failed one empties the table, sets the total
      to 0 and goes back to page 1 of 10. Either way the pager is gone. */
  function SearchAnswer(next: ClassState, sent: Condition, books: seq<Book>, dbError: bool): (r: ClassState)
    ensures r == next.(books := r.books, total := r.total,
      cond := next.cond.(pageNum := r.cond.pageNum, pageSize := r.cond.pageSize))
    ensures var c := BooksRoute.ConditionOf(ClientBody(sent));
      BooksRoute.Post(Some(ClientBody(sent)), books, dbError).status == 200 ==>
        && BookSearch.Filter(books, c) != []
        && r.total == Null
        && (forall b :: b in r.books ==> b in books && BookSearch.Matches(c, b))
        && BookSearch.LimitOffset(BookSearch.Ranked(books, c), BookSearch.PageSize(c), BookSearch.Offset(c)) == Success(r.books)
        && r.cond.pageNum == Num(OrElse(sent.pageNum, 1))
        && r.cond.pageSize == Num(OrElse(sent.pageSize, 10))
    ensures BooksRoute.Post(Some(ClientBody(sent)), books, dbError).status != 200 ==>
      && r.books == [] && r.total == Num(0)
      && r.cond.pageNum == Num(1) && r.cond.pageSize == Num(10)
    ensures !PagerShown(r)
  {
    var resp := BooksRoute.Post(Some(ClientBody(sent)), books, dbError);
    if resp.status == 200 then
      BooksRoute.PostStatus(Some(ClientBody(sent)), books, dbError);
      BooksRoute.PostAnswersSearch(ClientBody(sent), books);
      ClientSearch(next, Some(resp))
    else
      ClientSearch(next, Some(resp))
  }

  /** A press of the client component as the code has it. The handler sets
      the condition, giving `next`, and calls `search()` in the same
      closure; that closure reads `searchCondition` of the render before
      the press, so the body posted is `s.cond`'s. No effect searches again
      when the condition changes. */
  function ClientPress(s: ClassState, next: ClassState, books: seq<Book>, dbError: bool): (r: ClassState)
    ensures r == next.(books := r.books, total := r.total,
      cond := next.cond.(pageNum := r.cond.pageNum, pageSize := r.cond.pageSize))
    // what is shown answers the condition before the press
    ensures var c := BooksRoute.ConditionOf(ClientBody(s.cond));
      BooksRoute.Post(Some(ClientBody(s.cond)), books, dbError).status == 200 ==>
        && r.total == Null
        && (forall b :: b in r.books ==> b in books && BookSearch.Matches(c, b))
        && r.cond.pageNum == Num(OrElse(s.cond.pageNum, 1))
    ensures !PagerShown(r)
  {
    SearchAnswer(next, s.cond, books, dbError)
  }

  /** A press as evidently intended: the search posts the condition the
      handler has just set. */
  function ClientPressIntended(next: ClassState, books: seq<Book>, dbError: bool): (r: ClassState)
    ensures r == next.(books := r.books, total := r.total,
      cond := next.cond.(pageNum := r.cond.pageNum, pageSize := r.cond.pageSize))
    ensures var c := BooksRoute.ConditionOf(ClientBody(next.cond));
      BooksRoute.Post(Some(ClientBody(next.cond)), books, dbError).status == 200 ==>
        && r.total == Null
        && (forall b :: b in r.books ==> b in books && BookSearch.Matches(c, b))
        && BookSearch.LimitOffset(BookSearch.Ranked(books, c), BookSearch.PageSize(c), BookSearch.Offset(c)) == Success(r.books)
        && r.cond.pageNum == Num(OrElse(next.cond.pageNum, 1))
  {
    SearchAnswer(next, next.cond, books, dbError)
  }

  /** As the code has it, a pager press from page 1 posts page 1, and the
      answer's page number puts the pager back on page 1, whichever page
      was pressed and whether or not the search succeeds. */
  lemma PagerStaysOnFirstPage(s: ClassState, p: int, books: seq<Book>, dbError: bool)
    requires s.cond.pageNum == Num(1)
    ensures ClientPress(s, HandlePageChange(s, p), books, dbError).cond.pageNum == Num(1)
  {
  }

  /** Pager presses one after another, each answered before the next, as
      the code has them. */
  function PageThrough(s: ClassState, pages: seq<int>, books: seq<Book>): ClassState
    decreases |pages|
  {
    if pages == [] then s
    else PageThrough(ClientPress(s, HandlePageChange(s, pages[0]), books, false), pages[1..], books)
  }

  /** From any state on page 1, no sequence of pager presses ever leaves
      page 1. */
  lemma {:induction false} PagerNeverLeavesFirstPage(s: ClassState, pages: seq<int>, books: seq<Book>)
    requires s.cond.pageNum == Num(1)
    ensures PageThrough(s, pages, books).cond.pageNum == Num(1)
    decreases |pages|
  {
    if pages != [] {
      var t := ClientPress(s, HandlePageChange(s, pages[0]), books, false);
      PagerStaysOnFirstPage(s, pages[0], books, false);
      PagerNeverLeavesFirstPage(t, pages[1..], books);
    }
  }

  /** With the intended press, a successful pager press lands on the page
      pressed and shows that page of the ranked matches. */
  lemma PageChangeReachesPage(s: ClassState, p: int, books: seq<Book>)
    requires p >= 1
    requires BooksRoute.Post(Some(ClientBody(HandlePageChange(s, p).cond)), books, false).status == 200
    ensures var c := BooksRoute.ConditionOf(ClientBody(HandlePageChange(s, p).cond));
      var r := ClientPressIntended(HandlePageChange(s, p), books, false);
      && r.cond.pageNum == Num(p)
      && BookSearch.LimitOffset(BookSearch.Ranked(books, c), BookSearch.PageSize(c), (p - 1) * BookSearch.PageSize(c)) == Success(r.books)
  {
    PressedPageOffset(s, p);
  }

  /** The offset the route computes for a pressed page `p`. */
  lemma PressedPageOffset(s: ClassState, p: int)
    requires p >= 1
    ensures var c := BooksRoute.ConditionOf(ClientBody(HandlePageChange(s, p).cond));
      BookSearch.Offset(c) == (p - 1) * BookSearch.PageSize(c)
  {
  }

  /** A press from a state on page 1 of 10 with no filters: a direction-0
      book is the whole answer to a one-book table, under a `null` total,
      whatever state the answer is merged into; the condition stays
      `next`'s, on page 1 of 10. */
  lemma FirstRenderListsBook(s: ClassState, next: ClassState, b: Book)
    requires s.cond == Initial.cond
    requires b.workDirection == 0
    ensures var r := ClientPress(s, next, [b], false);
      && r.books == [b] && r.total == Null
      && r.workDirectionOn == next.workDirectionOn && r.wordCountOn == next.wordCountOn
      && r.cond == next.cond.(pageNum := Num(1), pageSize := Num(10))
  {
    var body := ClientBody(s.cond);
    var c := BooksRoute.ConditionOf(body);
    assert c == BookSearch.SearchCondition(Num(0), Undefined, Undefined, Undefined, Undefined, None, Num(1), Num(10));
    BookSearch.SingleMatch(c, b);
    BooksRoute.PostStatus(Some(body), [b], false);
  }

  /** As the code has it, a bucket press shows books within the bounds in
      force before the press, whichever bucket was pressed. */
  lemma BucketPressShowsPreviousBounds(s: ClassState, k: nat, books: seq<Book>)
    requires k < |Buckets|
    ensures var r := ClientPress(s, ChangeWordCount(s, Buckets[k].0, Buckets[k].1), books, false);
      forall b :: b in r.books ==> WithinBounds(s.cond.wordCountMin, s.cond.wordCountMax, b.wordCount)
  {
    var c := BooksRoute.ConditionOf(ClientBody(s.cond));
    forall b | b in ClientPress(s, ChangeWordCount(s, Buckets[k].0, Buckets[k].1), books, false).books
      ensures WithinBounds(s.cond.wordCountMin, s.cond.wordCountMax, b.wordCount)
    {
      MatchesSplits(c, b);
    }
  }

  /** As the code has it, pressing "100万字以上" from a state on page 1 of
      10 with no filters lists a direction-0 book below a million words,
      outside the bucket, while that button is highlighted. */
  lemma FirstBucketPressIgnoresBucket(s: ClassState, b: Book)
    requires s.cond == Initial.cond
    requires b.workDirection == 0 && b.wordCount < 1000000
    ensures var next := ChangeWordCount(s, Buckets[4].0, Buckets[4].1);
      var r := ClientPress(s, next, [b], false);
      && r.wordCountOn == Num(1000000)
      && r.books == [b]
      && !WithinBounds(Buckets[4].0, Buckets[4].1, b.wordCount)
  {
    assert Buckets[4] == (Num(1000000), Null);
    assert !WithinBounds(Num(1000000), Null, b.wordCount);
    FirstRenderListsBook(s, ChangeWordCount(s, Num(1000000), Null), b);
  }

  /** With the intended press, bucket `k` is searched: a book is selected
      exactly when it passes the other filters and its word count is in the
      bucket, and every book shown is in the bucket. */
  lemma BucketSearch(s: ClassState, k: nat, books: seq<Book>, b: Book)
    requires k < |Buckets|
    ensures var (min, max) := Buckets[k];
      var next := ChangeWordCount(s, min, max);
      var c := BooksRoute.ConditionOf(ClientBody(next.cond));
      && (BookSearch.Matches(c, b) <==>
          BookSearch.Matches(c.(wordCountMin := Undefined, wordCountMax := Undefined), b) && WithinBounds(min, max, b.wordCount))
      && forall x :: x in ClientPressIntended(next, books, false).books ==> WithinBounds(min, max, x.wordCount)
  {
    var (min, max) := Buckets[k];
    var next := ChangeWordCount(s, min, max);
    var c := BooksRoute.ConditionOf(ClientBody(next.cond));
    MatchesSplits(c, b);
    forall x | x in ClientPressIntended(next, books, false).books
      ensures WithinBounds(min, max, x.wordCount)
    {
      MatchesSplits(c, x);
    }
  }

  /** As the code has it, the search after the client's direction switch
      posts the direction before the switch: switching to direction 1 from
      a state on page 1 of 10 with no filters lists a direction-0 book
      under direction 1's highlighted tab. */
  lemma FirstDirectionSwitchShowsOldDirection(s: ClassState, b: Book, answer: BooksRoute.CategoriesResponse)
    requires s.cond == Initial.cond
    requires b.workDirection == 0
    ensures var next := ClientLoadCategoryList(s, 1, Some(answer));
      var r := ClientPress(s, next, [b], false);
      && r.workDirectionOn == 1 && r.cond.workDirection == Num(1)
      && r.books == [b] && b.workDirection != 1
  {
    FirstRenderListsBook(s, ClientLoadCategoryList(s, 1, Some(answer)), b);
  }

  /** With the intended press, the search after the client's direction
      switch filters by the new direction and by no category: every book
      shown has direction `wd`. */
  lemma LoadDropsCategory(s: ClassState, wd: int, answer: BooksRoute.CategoriesResponse, books: seq<Book>, b: Book)
    ensures var next := ClientLoadCategoryList(s, wd, Some(answer));
      var c := BooksRoute.ConditionOf(ClientBody(next.cond));
      && !BookSearch.StepPresent(c, 1)
      && (BookSearch.Matches(c, b) ==> b.workDirection == wd)
      && forall x :: x in ClientPressIntended(next, books, false).books ==> x.workDirection == wd
  {
  }

  /** The query string the page's `search()` sends when a handler calls it
      right after `setSearchCondition`, as the code has it: the entries of
      `searchCondition` before the press, whatever condition `next` the
      handler set. */
  function PagePressQuery(s: ClassState, next: ClassState): (q: seq<(string, string)>)
    ensures forall kv :: kv in q <==> exists e :: e in Entries(s.cond) && Present(e.1) && kv == (e.0, Rendered(e.1))
  {
    QueryParams(Entries(s.cond))
  }

  /** As the code has it, pressing "100万字以上" first on the page sends no
      lower bound at all, although the condition now holds one. */
  lemma FirstOpenBucketPressSendsNoMin()
    ensures var next := ChangeWordCount(Initial, Buckets[4].0, Buckets[4].1);
      && next.cond.wordCountMin == Num(1000000)
      && forall v :: ("wordCountMin", v) !in PagePressQuery(Initial, next)
  {
    var e := Entries(Initial.cond);
    EntryKeysDistinct(Initial.cond);
    assert e[4] == ("wordCountMin", NumParam(Undefined));
    AbsentEntryOmitted(e, 4);
  }
}

=== FILE: book_search.dfy ===
/** The paginated book search of `getBookList`: a filter record becomes a
    list query (WHERE predicates with placeholders `$1..$k`, then LIMIT
    `$k+1` and OFFSET `$k+2`) and a second query over the same WHERE clause
    meant to count the matches. The queries are given a meaning over the
    `book_info` rows, and the search's result is proved to agree with a
    direct reading of the filter. */
module BookSearch {
  import opened Results
  import opened JsValues
  import opened Schema
  import Sorting

  /** The `searchCondition` object. `keyword` is accepted and never used. */
  datatype SearchCondition = SearchCondition(
    workDirection: Value,
    categoryId: Value,
    bookStatus: Value,
    wordCountMin: Value,
    wordCountMax: Value,
    keyword: Option<string>,
    pageNum: Value,
    pageSize: Value)

  datatype Column = WorkDirectionColumn | CategoryColumn | StatusColumn | WordCountColumn

  datatype Comparison = Equals | AtLeast | AtMost

  /** One ` AND b.<column> <comparison> $<slot>` fragment of the WHERE text. */
  datatype Predicate = Predicate(column: Column, comparison: Comparison, slot: nat)

  /** The WHERE predicates built so far and the parameters bound to them. */
  datatype Where = Where(predicates: seq<Predicate>, values: seq<Value>)

  /** The row query: WHERE, `ORDER BY b.create_time DESC LIMIT $l OFFSET $o`. */
  datatype ListQuery = ListQuery(predicates: seq<Predicate>, values: seq<Value>, limitSlot: nat, offsetSlot: nat)

  /** The query run before the list query to find `total`: the list
      query's text cut before ORDER BY, with the parameter array minus its
      last two entries. Its select list is meant to become `COUNT(*)`, but
      the pattern `/SELECT.*FROM/` has no `s` flag and `SELECT` and `FROM`
      stand on different lines of the text, so nothing is replaced: the
      query selects the matching book rows themselves. */
  datatype CountQuery = CountQuery(predicates: seq<Predicate>, values: seq<Value>)

  /** A page of the search. `total` is `None` when it is `NaN`. */
  datatype BookPage = BookPage(rows: seq<Book>, total: Option<int>, pageNum: int, pageSize: int)

  const FetchFailed := "Failed to fetch book list"

  // ---------------------------------------------------------------------
  // Building the queries

  /** Placeholder `$i` sits on the i-th predicate and names the i-th value. */
  predicate Numbered(w: Where) {
    && |w.predicates| == |w.values|
    && forall i :: 0 <= i < |w.predicates| ==> w.predicates[i].slot == i + 1
  }

  /** One `if (...) { query += ...; values.push(...); valueIndex++ }` step:
      the new placeholder is the current `valueIndex`, one past the
      parameters pushed so far. */
  function Append(w: Where, present: bool, column: Column, comparison: Comparison, v: Value): (r: Where)
    requires Numbered(w)
    ensures Numbered(r)
    ensures present ==> r.predicates == w.predicates + [Predicate(column, comparison, |w.values| + 1)]
    ensures present ==> r.values == w.values + [v]
    ensures !present ==> r == w
  {
    if present then Where(w.predicates + [Predicate(column, comparison, |w.values| + 1)], w.values + [v])
    else w
  }

  /** The five filter tests of the source, in source order: step 0 is
      `workDirection !== undefined` (so 0 and null add a predicate), step 1
      is `categoryId` truthiness (so 0, null and undefined do not), steps
      2..4 are `!== null && !== undefined` on `bookStatus`, `wordCountMin`
      and `wordCountMax`. */
  predicate StepPresent(c: SearchCondition, t: nat) {
    match t
    case 0 => c.workDirection != Undefined
    case 1 => Truthy(c.categoryId)
    case 2 => !Nullish(c.bookStatus)
    case 3 => !Nullish(c.wordCountMin)
    case _ => !Nullish(c.wordCountMax)
  }

  /** The field a step pushes onto `values`. */
  function StepField(c: SearchCondition, t: nat): Value {
    match t
    case 0 => c.workDirection
    case 1 => c.categoryId
    case 2 => c.bookStatus
    case 3 => c.wordCountMin
    case _ => c.wordCountMax
  }

  function StepColumn(t: nat): Column {
    match t
    case 0 => WorkDirectionColumn
    case 1 => CategoryColumn
    case 2 => StatusColumn
    case _ => WordCountColumn
  }

  /** `>=` for `wordCountMin`, `<=` for `wordCountMax`, `=` otherwise. */
  function StepComparison(t: nat): Comparison {
    if t == 3 then AtLeast else if t == 4 then AtMost else Equals
  }

  /** The step a predicate comes from (5 for none). */
  function StepOf(p: Predicate): nat {
    match (p.column, p.comparison)
    case (WorkDirectionColumn, Equals) => 0
    case (CategoryColumn, Equals) => 1
    case (StatusColumn, Equals) => 2
    case (WordCountColumn, AtLeast) => 3
    case (WordCountColumn, AtMost) => 4
    case _ => 5
  }

  function AddStep(w: Where, c: SearchCondition, t: nat): (r: Where)
    requires Numbered(w)
    ensures Numbered(r)
  {
    Append(w, StepPresent(c, t), StepColumn(t), StepComparison(t), StepField(c, t))
  }

  /** The WHERE part of `getBookList`: the five steps in order. */
  function BuildWhere(c: SearchCondition): (w: Where)
    ensures Numbered(w)
  {
    var w0 := Where([], []);
    var w1 := AddStep(w0, c, 0);
    var w2 := AddStep(w1, c, 1);
    var w3 := AddStep(w2, c, 2);
    var w4 := AddStep(w3, c, 3);
    AddStep(w4, c, 4)
  }

  /** `searchCondition.pageNum || 1` */
  function PageNum(c: SearchCondition): int {
    OrElse(c.pageNum, 1)
  }

  /** `searchCondition.pageSize || 10` */
  function PageSize(c: SearchCondition): int {
    OrElse(c.pageSize, 10)
  }

  /** `((pageNum || 1) - 1) * (pageSize || 10)` */
  function Offset(c: SearchCondition): int {
    (PageNum(c) - 1) * PageSize(c)
  }

  predicate HasStep(preds: seq<Predicate>, t: nat) {
    exists i :: 0 <= i < |preds| && StepOf(preds[i]) == t
  }

  /** What holds after the steps before `s` have run: predicates in step
      order, one per present step and none for an absent one, each bound to
      its own field. */
  predicate Shaped(w: Where, c: SearchCondition, s: nat) {
    && Numbered(w)
    && (forall i, j :: 0 <= i < j < |w.predicates| ==> StepOf(w.predicates[i]) < StepOf(w.predicates[j]))
    && (forall i :: 0 <= i < |w.predicates| ==> StepOf(w.predicates[i]) < s)
    && (forall i :: 0 <= i < |w.predicates| ==> w.values[i] == StepField(c, StepOf(w.predicates[i])))
    && (forall t :: 0 <= t < s ==> (HasStep(w.predicates, t) <==> StepPresent(c, t)))
  }

  lemma AddStepShape(w: Where, c: SearchCondition, t: nat)
    requires t < 5 && Shaped(w, c, t)
    ensures Shaped(AddStep(w, c, t), c, t + 1)
  {
    var r := AddStep(w, c, t);
    var n := |w.predicates|;
    assert StepOf(Predicate(StepColumn(t), StepComparison(t), n + 1)) == t;
    forall u | 0 <= u < t + 1 ensures HasStep(r.predicates, u) <==> StepPresent(c, u) {
      if u < t {
        if HasStep(r.predicates, u) {
          var i :| 0 <= i < |r.predicates| && StepOf(r.predicates[i]) == u;
          assert i < n && r.predicates[i] == w.predicates[i];
        }
        if HasStep(w.predicates, u) {
          var i :| 0 <= i < n && StepOf(w.predicates[i]) == u;
          assert r.predicates[i] == w.predicates[i];
        }
      } else if StepPresent(c, t) {
        assert StepOf(r.predicates[n]) == t;
      } else {
        assert r == w;
      }
    }
  }

  lemma BuildWhereShape(c: SearchCondition)
    ensures Shaped(BuildWhere(c), c, 5)
  {
    var w0 := Where([], []);
    var w1 := AddStep(w0, c, 0);
    var w2 := AddStep(w1, c, 1);
    var w3 := AddStep(w2, c, 2);
    var w4 := AddStep(w3, c, 3);
    AddStepShape(w0, c, 0);
    AddStepShape(w1, c, 1);
    AddStepShape(w2, c, 2);
    AddStepShape(w3, c, 3);
    AddStepShape(w4, c, 4);
  }

  /** What the list query promises about its text and parameters. */
  predicate Describes(c: SearchCondition, q: ListQuery) {
    // placeholders $1..$k on the predicates, in append order
    && |q.values| == |q.predicates| + 2
    && (forall i :: 0 <= i < |q.predicates| ==> q.predicates[i].slot == i + 1)
    && (forall i, j :: 0 <= i < j < |q.predicates| ==> StepOf(q.predicates[i]) < StepOf(q.predicates[j]))
    // LIMIT $k+1 and OFFSET $k+2 carry the page size and the offset
    && q.limitSlot == |q.predicates| + 1 && q.offsetSlot == |q.predicates| + 2
    && q.values[|q.predicates|] == Num(PageSize(c))
    && q.values[|q.predicates| + 1] == Num(Offset(c))
    // a predicate exactly for the present fields, each bound to its field
    && (forall t :: 0 <= t < 5 ==> (HasStep(q.predicates, t) <==> StepPresent(c, t)))
    && (forall i :: 0 <= i < |q.predicates| ==> StepOf(q.predicates[i]) < 5)
    && (forall i :: 0 <= i < |q.predicates| ==> q.values[i] == StepField(c, StepOf(q.predicates[i])))
  }

  /** The list query and its parameter array. */
  function BuildListQuery(c: SearchCondition): (q: ListQuery)
    ensures Describes(c, q)
  {
    var w := BuildWhere(c);
    BuildWhereShape(c);
    var k := |w.values|;
    ListQuery(w.predicates, w.values + [Num(PageSize(c)), Num(Offset(c))], k + 1, k + 2)
  }

  /** `query.replace(/SELECT.*FROM/, ...).split('ORDER BY')[0]` with
      `values.slice(0, -2)`: the WHERE clause and its parameters, whatever
      the select list turns out to be. */
  function CountOf(q: ListQuery): (cq: CountQuery)
    requires |q.values| >= 2
    ensures cq.predicates == q.predicates
    ensures |cq.values| == |q.values| - 2
    ensures forall i :: 0 <= i < |cq.values| ==> cq.values[i] == q.values[i]
  {
    CountQuery(q.predicates, q.values[..|q.values| - 2])
  }

  // ---------------------------------------------------------------------
  // What the queries select

  function ColumnOf(b: Book, column: Column): int {
    match column
    case WorkDirectionColumn => b.workDirection
    case CategoryColumn => b.categoryId
    case StatusColumn => b.bookStatus
    case WordCountColumn => b.wordCount
  }

  /** A comparison against a parameter; comparing with SQL NULL is never
      true. */
  predicate Compare(b: Book, column: Column, comparison: Comparison, v: Value) {
    v.Num? &&
    match comparison
    case Equals => ColumnOf(b, column) == v.n
    case AtLeast => ColumnOf(b, column) >= v.n
    case AtMost => ColumnOf(b, column) <= v.n
  }

  predicate Satisfies(b: Book, p: Predicate, v: Value) {
    Compare(b, p.column, p.comparison, v)
  }

  predicate SlotsBound(preds: seq<Predicate>, values: seq<Value>) {
    forall i :: 0 <= i < |preds| ==> 1 <= preds[i].slot <= |values|
  }

  /** `WHERE 1=1 AND ... AND ...` */
  predicate SatisfiesAll(b: Book, preds: seq<Predicate>, values: seq<Value>)
    requires SlotsBound(preds, values)
  {
    forall i :: 0 <= i < |preds| ==> Satisfies(b, preds[i], values[preds[i].slot - 1])
  }

  /** The rows a WHERE clause selects, in table order. */
  function Select(books: seq<Book>, preds: seq<Predicate>, values: seq<Value>): (r: seq<Book>)
    requires SlotsBound(preds, values)
    ensures |r| <= |books|
    ensures forall b :: b in r ==> b in books && SatisfiesAll(b, preds, values)
  {
    if books == [] then []
    else
      var rest := Select(books[1..], preds, values);
      if SatisfiesAll(books[0], preds, values) then [books[0]] + rest else rest
  }

  /** A direct reading of the search condition, independent of the query
      text: a field constrains the book exactly when the builder tests it
      as present, and a present `null` direction matches nothing. */
  predicate Matches(c: SearchCondition, b: Book) {
    && (c.workDirection.Undefined? || c.workDirection == Num(b.workDirection))
    && (!Truthy(c.categoryId) || b.categoryId == c.categoryId.n)
    && (Nullish(c.bookStatus) || c.bookStatus == Num(b.bookStatus))
    && (Nullish(c.wordCountMin) || (c.wordCountMin.Num? && b.wordCount >= c.wordCountMin.n))
    && (Nullish(c.wordCountMax) || (c.wordCountMax.Num? && b.wordCount <= c.wordCountMax.n))
  }

  /** The books the condition selects, in table order. */
  function Filter(books: seq<Book>, c: SearchCondition): (r: seq<Book>)
    ensures |r| <= |books|
    ensures forall b :: b in r <==> b in books && Matches(c, b)
    ensures multiset(r) <= multiset(books)
  {
    if books == [] then []
    else
      var rest := Filter(books[1..], c);
      assert books == [books[0]] + books[1..];
      if Matches(c, books[0]) then [books[0]] + rest else rest
  }

  /** `Filter` looks at one book at a time, front to back. */
  lemma FilterFrom(books: seq<Book>, i: nat, c: SearchCondition)
    requires i < |books|
    ensures Filter(books[i..], c) ==
      if Matches(c, books[i]) then [books[i]] + Filter(books[i + 1..], c) else Filter(books[i + 1..], c)
  {
    assert books[i..][1..] == books[i + 1..];
  }

  function NewestFirst(b: Book): int {
    -b.createTime
  }

  /** The matching books in `ORDER BY b.create_time DESC` order. Ties keep
      table order; the query itself leaves them unspecified. */
  function Ranked(books: seq<Book>, c: SearchCondition): (r: seq<Book>)
    ensures multiset(r) == multiset(Filter(books, c))
    ensures forall i, j :: 0 <= i < j < |r| ==> r[i].createTime >= r[j].createTime
  {
    var r := Sorting.SortBy(Filter(books, c), NewestFirst);
    assert forall i, j :: 0 <= i < j < |r| ==> NewestFirst(r[i]) <= NewestFirst(r[j]);
    r
  }

  /** `LIMIT limit OFFSET offset`; PostgreSQL rejects negative values. */
  function LimitOffset<T>(rows: seq<T>, limit: int, offset: int): (r: Result<seq<T>>)
    ensures r.Success? <==> limit >= 0 && offset >= 0
    ensures r.Success? ==> |r.value| <= limit
    ensures r.Success? ==> |r.value| == if offset >= |rows| then 0 else Least(limit, |rows| - offset)
    ensures r.Success? ==> forall i :: 0 <= i < |r.value| ==> r.value[i] == rows[offset + i]
  {
    if limit < 0 || offset < 0 then Failure("LIMIT and OFFSET must not be negative")
    else if offset >= |rows| then Success([])
    else Success(rows[offset..offset + Least(limit, |rows| - offset)])
  }

  function Least(a: int, b: int): int {
    if a <= b then a else b
  }

  /** Step `t`'s predicate holds of `b`, or the step added none. */
  predicate StepHolds(c: SearchCondition, t: nat, b: Book) {
    !StepPresent(c, t) || Compare(b, StepColumn(t), StepComparison(t), StepField(c, t))
  }

  lemma MatchesByStep(c: SearchCondition, b: Book)
    ensures Matches(c, b) <==> forall t :: 0 <= t < 5 ==> StepHolds(c, t, b)
  {
    assert StepHolds(c, 0, b) && StepHolds(c, 1, b) && StepHolds(c, 2, b) && StepHolds(c, 3, b) && StepHolds(c, 4, b)
      <==> Matches(c, b);
  }

  lemma StepOfInverse(p: Predicate)
    requires StepOf(p) < 5
    ensures p.column == StepColumn(StepOf(p)) && p.comparison == StepComparison(StepOf(p))
  {
  }

  /** A parameter array that agrees with the list query's on the entries
      its WHERE placeholders name. */
  predicate AgreesOn(q: ListQuery, values: seq<Value>) {
    && |q.predicates| <= |values|
    && |q.predicates| <= |q.values|
    && forall i :: 0 <= i < |q.predicates| ==> values[i] == q.values[i]
  }

  lemma SatisfiedWhereMatches(c: SearchCondition, q: ListQuery, b: Book, values: seq<Value>)
    requires Describes(c, q) && AgreesOn(q, values)
    requires SlotsBound(q.predicates, values)
    requires SatisfiesAll(b, q.predicates, values)
    ensures Matches(c, b)
  {
    forall t | 0 <= t < 5 ensures StepHolds(c, t, b) {
      StepFromWhere(c, q, b, values, t);
    }
    MatchesByStep(c, b);
  }

  /** A present step's predicate is among the satisfied ones. */
  lemma StepFromWhere(c: SearchCondition, q: ListQuery, b: Book, values: seq<Value>, t: nat)
    requires Describes(c, q) && AgreesOn(q, values)
    requires SlotsBound(q.predicates, values)
    requires SatisfiesAll(b, q.predicates, values)
    requires t < 5
    ensures StepHolds(c, t, b)
  {
    if StepPresent(c, t) {
      assert HasStep(q.predicates, t);
      var i :| 0 <= i < |q.predicates| && StepOf(q.predicates[i]) == t;
      PredicateMeaning(c, q, b, values, i);
    }
  }

  /** The i-th predicate of a described query tests its step's field. */
  lemma PredicateMeaning(c: SearchCondition, q: ListQuery, b: Book, values: seq<Value>, i: nat)
    requires Describes(c, q) && AgreesOn(q, values)
    requires SlotsBound(q.predicates, values)
    requires SatisfiesAll(b, q.predicates, values)
    requires i < |q.predicates|
    ensures var t := StepOf(q.predicates[i]);
      Compare(b, StepColumn(t), StepComparison(t), StepField(c, t))
  {
    var p := q.predicates[i];
    assert Satisfies(b, p, values[p.slot - 1]);
    assert values[p.slot - 1] == StepField(c, StepOf(p));
    StepOfInverse(p);
  }

  lemma MatchesSatisfyWhere(c: SearchCondition, q: ListQuery, b: Book, values: seq<Value>)
    requires Describes(c, q) && AgreesOn(q, values)
    requires Matches(c, b)
    ensures SlotsBound(q.predicates, values)
    ensures SatisfiesAll(b, q.predicates, values)
  {
    forall i | 0 <= i < |q.predicates| ensures Satisfies(b, q.predicates[i], values[q.predicates[i].slot - 1]) {
      PredicateFromMatch(c, q, b, values, i);
    }
  }

  /** Each built predicate holds of a matching book. */
  lemma PredicateFromMatch(c: SearchCondition, q: ListQuery, b: Book, values: seq<Value>, i: nat)
    requires Describes(c, q) && AgreesOn(q, values)
    requires Matches(c, b)
    requires i < |q.predicates|
    ensures q.predicates[i].slot == i + 1
    ensures Satisfies(b, q.predicates[i], values[i])
  {
    var t := StepOf(q.predicates[i]);
    MatchesByStep(c, b);
    assert HasStep(q.predicates, t);
    assert StepHolds(c, t, b);
    StepOfInverse(q.predicates[i]);
  }

  /** The WHERE clause of a described query means exactly `Matches`. */
  lemma WhereMeansMatches(c: SearchCondition, q: ListQuery, b: Book, values: seq<Value>)
    requires Describes(c, q) && AgreesOn(q, values)
    ensures SlotsBound(q.predicates, values)
    ensures SatisfiesAll(b, q.predicates, values) <==> Matches(c, b)
  {
    if SatisfiesAll(b, q.predicates, values) {
      SatisfiedWhereMatches(c, q, b, values);
    }
    if Matches(c, b) {
      MatchesSatisfyWhere(c, q, b, values);
    }
  }

  /** Selecting with the WHERE clause of a described query yields the
      filtered books, for the list query's parameters and for the count
      query's. */
  lemma {:induction false} SelectIsFilter(c: SearchCondition, q: ListQuery, books: seq<Book>, values: seq<Value>)
    requires Describes(c, q) && AgreesOn(q, values)
    ensures SlotsBound(q.predicates, values)
    ensures Select(books, q.predicates, values) == Filter(books, c)
    decreases |books|
  {
    WhereMeansMatches(c, q, Book(0, "", "", "", "", 0, "", 0, 0, 0, 0, 0, 0, None, "", 0), values);
    if books != [] {
      SelectIsFilter(c, q, books[1..], values);
      WhereMeansMatches(c, q, books[0], values);
    }
  }

  // ---------------------------------------------------------------------
  // The search

  /** `parseInt(countResult.rows[0].count)` as the code has it. The rows
      are book rows with no `count` column: with at least one row the
      total is `parseInt(undefined)`, which is `NaN` (`None`); with none,
      `rows[0]` is `undefined` and reading `.count` of it throws. */
  function ReadTotal(cq: CountQuery, books: seq<Book>): Result<Option<int>>
    requires SlotsBound(cq.predicates, cq.values)
  {
    if Select(books, cq.predicates, cq.values) == [] then
      Failure("Cannot read properties of undefined (reading 'count')")
    else Success(None)
  }

  /** The total the count query was meant to give: the number of rows a
      `SELECT COUNT(*)` over the same WHERE clause counts. */
  function CountAsIntended(cq: CountQuery, books: seq<Book>): int
    requires SlotsBound(cq.predicates, cq.values)
  {
    |Select(books, cq.predicates, cq.values)|
  }

  /** The list query's result: the selected rows newest first, then
      LIMIT/OFFSET with the numbers bound to their placeholders. */
  function RunList(q: ListQuery, books: seq<Book>): Result<seq<Book>>
    requires SlotsBound(q.predicates, q.values)
    requires 1 <= q.limitSlot <= |q.values| && 1 <= q.offsetSlot <= |q.values|
    requires q.values[q.limitSlot - 1].Num? && q.values[q.offsetSlot - 1].Num?
  {
    var ordered := Sorting.SortBy(Select(books, q.predicates, q.values), NewestFirst);
    LimitOffset(ordered, q.values[q.limitSlot - 1].n, q.values[q.offsetSlot - 1].n)
  }

  /** Both built queries select exactly the filtered books. */
  lemma BuiltQueriesSelectFilter(c: SearchCondition, books: seq<Book>)
    ensures var q := BuildListQuery(c);
      && SlotsBound(q.predicates, q.values)
      && SlotsBound(q.predicates, CountOf(q).values)
      && Select(books, q.predicates, q.values) == Filter(books, c)
      && Select(books, q.predicates, CountOf(q).values) == Filter(books, c)
  {
    var q := BuildListQuery(c);
    SelectIsFilter(c, q, books, q.values);
    SelectIsFilter(c, q, books, CountOf(q).values);
  }

  /** The largest PostgreSQL `bigint`, the type of LIMIT and OFFSET. */
  const MaxBigint: int := 0x7fff_ffff_ffff_ffff

  /** Both paging values are within `bigint`; PostgreSQL rejects a LIMIT or
      OFFSET parameter outside it. */
  predicate PagingInRange(c: SearchCondition) {
    PageSize(c) <= MaxBigint && Offset(c) <= MaxBigint
  }

  /** `getBookList` as the code has it: the query for `total`, then the list
      query, then the page. A database error (`dbError`), reading the
      total of a search that matches nothing, or the error PostgreSQL
      raises for a negative or out-of-range LIMIT or OFFSET, is caught and
      rethrown as one message. A page that is returned has a `NaN` total. */
  function GetBookList(c: SearchCondition, books: seq<Book>, dbError: bool): (r: Result<BookPage>)
    ensures r.Success? <==>
      !dbError && Filter(books, c) != [] && PageSize(c) >= 0 && Offset(c) >= 0 && PagingInRange(c)
    ensures r.Failure? ==> r.message == FetchFailed
    ensures r.Success? ==> r.value.pageNum == PageNum(c) && r.value.pageSize == PageSize(c)
    ensures r.Success? ==> r.value.total == None
    ensures r.Success? ==> LimitOffset(Ranked(books, c), PageSize(c), Offset(c)) == Success(r.value.rows)
  {
    if dbError then Failure(FetchFailed)
    else
      var q := BuildListQuery(c);
      var cq := CountOf(q);
      BuiltQueriesSelectFilter(c, books);
      match ReadTotal(cq, books)
      case Failure(_) => Failure(FetchFailed)
      case Success(total) =>
        if !PagingInRange(c) then Failure(FetchFailed)
        else match RunList(q, books)
        case Failure(_) => Failure(FetchFailed)
        case Success(rows) => Success(BookPage(rows, total, PageNum(c), PageSize(c)))
  }

  /** `getBookList` with the count query it evidently intends, a
      `SELECT COUNT(*)` over the list query's WHERE clause: a search that
      matches nothing is an empty page, and `total` counts every match. */
  function GetBookListIntended(c: SearchCondition, books: seq<Book>, dbError: bool): (r: Result<BookPage>)
    ensures r.Success? <==> !dbError && PageSize(c) >= 0 && Offset(c) >= 0 && PagingInRange(c)
    ensures r.Failure? ==> r.message == FetchFailed
    ensures r.Success? ==> r.value.pageNum == PageNum(c) && r.value.pageSize == PageSize(c)
    // the count query counts the same filtered set the list query pages over
    ensures r.Success? ==> r.value.total == Some(|Filter(books, c)|)
    ensures r.Success? ==> LimitOffset(Ranked(books, c), PageSize(c), Offset(c)) == Success(r.value.rows)
  {
    if dbError then Failure(FetchFailed)
    else
      var q := BuildListQuery(c);
      var cq := CountOf(q);
      BuiltQueriesSelectFilter(c, books);
      var total := CountAsIntended(cq, books);
      if !PagingInRange(c) then Failure(FetchFailed)
      else match RunList(q, books)
      case Failure(_) => Failure(FetchFailed)
      case Success(rows) => Success(BookPage(rows, Some(total), PageNum(c), PageSize(c)))
  }

  /** The search as written against the search as intended: it fails
      exactly where the intended one fails or where nothing matches, and
      otherwise returns the intended page with a `NaN` total in place of
      the count. */
  lemma CountQueryHasNoCount(c: SearchCondition, books: seq<Book>, dbError: bool)
    ensures GetBookList(c, books, dbError).Success? <==>
      GetBookListIntended(c, books, dbError).Success? && Filter(books, c) != []
    ensures GetBookList(c, books, dbError).Success? ==>
      GetBookList(c, books, dbError).value == GetBookListIntended(c, books, dbError).value.(total := None)
    ensures GetBookListIntended(c, books, dbError).Success? ==>
      GetBookListIntended(c, books, dbError).value.total != None
  {
  }

  /** Page 1 of an unfiltered search of an empty table: the search as
      written fails, where the intended one answers an empty page with a
      total of 0. */
  lemma EmptyTableSearchFails()
    ensures var c := SearchCondition(Undefined, Undefined, Undefined, Undefined, Undefined, None, Num(1), Num(10));
      && GetBookList(c, [], false).Failure?
      && GetBookListIntended(c, [], false) == Success(BookPage([], Some(0), 1, 10))
  {
  }

  /** What a returned page holds: at most `pageSize` rows, and no more
      than there are matches, each a matching book of the table, newest
      first, taken from position `offset` of the ranked matches; it is the
      intended search's page with the count replaced by `NaN`. */
  lemma PageContents(c: SearchCondition, books: seq<Book>, dbError: bool)
    requires GetBookList(c, books, dbError).Success?
    ensures var page := GetBookList(c, books, dbError).value;
      && |page.rows| <= page.pageSize
      && |page.rows| <= |Filter(books, c)|
      && page.total == None
      && (forall b :: b in page.rows ==> b in books && Matches(c, b))
      && (forall i, j :: 0 <= i < j < |page.rows| ==> page.rows[i].createTime >= page.rows[j].createTime)
      && (forall i :: 0 <= i < |page.rows| ==> page.rows[i] == Ranked(books, c)[Offset(c) + i])
      && GetBookListIntended(c, books, dbError) == Success(page.(total := Some(|Filter(books, c)|)))
  {
    var page := GetBookList(c, books, dbError).value;
    var ranked := Ranked(books, c);
    assert |ranked| == |Filter(books, c)| by {
      assert |multiset(ranked)| == |multiset(Filter(books, c))|;
    }
    SliceRowsMatch(c, books, page.rows);
    CountQueryHasNoCount(c, books, dbError);
  }

  /** Rows sliced out of the ranked matches are matching books of the table. */
  lemma SliceRowsMatch(c: SearchCondition, books: seq<Book>, rows: seq<Book>)
    requires LimitOffset(Ranked(books, c), PageSize(c), Offset(c)) == Success(rows)
    ensures forall b :: b in rows ==> b in books && Matches(c, b)
  {
    var ranked := Ranked(books, c);
    RankedRowsAreMatches(books, c);
    forall b | b in rows ensures b in books && Matches(c, b) {
      var i :| 0 <= i < |rows| && rows[i] == b;
      assert ranked[Offset(c) + i] == b;
    }
  }

  /** A table of one matching book ranks that book alone. */
  lemma SingleMatch(c: SearchCondition, b: Book)
    requires Matches(c, b)
    ensures Filter([b], c) == [b]
    ensures Ranked([b], c) == [b]
  {
    var f := Filter([b], c);
    assert b in f;
    var ranked := Ranked([b], c);
    assert multiset(ranked) == multiset([b]);
    assert |ranked| == 1 by {
      assert |multiset(ranked)| == 1;
    }
    assert ranked[0] in multiset(ranked);
  }

  lemma RankedRowsAreMatches(books: seq<Book>, c: SearchCondition)
    ensures forall b :: b in Ranked(books, c) ==> b in books && Matches(c, b)
  {
    Sorting.SameElements(Ranked(books, c), Filter(books, c));
  }

  // ---------------------------------------------------------------------
  // Paging through a stable result

  /** Pages 1..n of `rows` at `size` rows per page, concatenated. */
  function PagesUpTo<T>(rows: seq<T>, size: nat, n: nat): seq<T> {
    if n == 0 then []
    else PagesUpTo(rows, size, n - 1) + LimitOffset(rows, size, (n - 1) * size).value
  }

  lemma {:induction false} PagesUpToIsPrefix<T>(rows: seq<T>, size: nat, n: nat)
    ensures PagesUpTo(rows, size, n) == rows[..Least(n * size, |rows|)]
  {
    if n > 0 {
      PagesUpToIsPrefix(rows, size, n - 1);
      var lo := Least((n - 1) * size, |rows|);
      var hi := Least(n * size, |rows|);
      assert (n - 1) * size <= n * size;
      var page := LimitOffset(rows, size, (n - 1) * size).value;
      assert page == rows[lo..hi];
      assert rows[..lo] + rows[lo..hi] == rows[..hi];
    }
  }

  /** The condition asking for page `p`. */
  function AtPage(c: SearchCondition, p: nat): SearchCondition {
    c.(pageNum := Num(p))
  }

  /** Page `p` can be asked for: its LIMIT and OFFSET are within `bigint`. */
  predicate PageInRange(c: SearchCondition, p: nat) {
    PageSize(c) <= MaxBigint && (p - 1) * PageSize(c) <= MaxBigint
  }

  /** The rows the client is shown for page `p`: the search's page, or
      the empty list of the failure answer when the search fails because
      nothing matches. */
  function SearchPage(c: SearchCondition, books: seq<Book>, p: nat): (rows: seq<Book>)
    requires PageSize(c) > 0 && p >= 1 && PageInRange(c, p)
    ensures Success(rows) == LimitOffset(Ranked(books, c), PageSize(c), (p - 1) * PageSize(c))
  {
    PageOfSearchAsWritten(c, books, p);
    ShownRows(GetBookList(AtPage(c, p), books, false))
  }

  /** The rows shown for a search's outcome: a failure shows none. */
  function ShownRows(r: Result<BookPage>): seq<Book> {
    if r.Success? then r.value.rows else []
  }

  /** The search's pages 1..n, concatenated: the first `n` pages of the
      ranked matches. */
  function SearchPagesUpTo(c: SearchCondition, books: seq<Book>, n: nat): (r: seq<Book>)
    requires PageSize(c) > 0 && (n == 0 || PageInRange(c, n))
    ensures r == PagesUpTo(Ranked(books, c), PageSize(c), n)
  {
    if n == 0 then []
    else
      MulMonotone(n - 2, n - 1, PageSize(c));
      var prev := SearchPagesUpTo(c, books, n - 1);
      var page := SearchPage(c, books, n);
      PagesUpToStep(Ranked(books, c), PageSize(c), n);
      prev + page
  }

  /** Walking the pages of a search over unchanged data visits the ranked
      matches in order with no gap and no repeat; once `n * pageSize`
      reaches `total`, the pages hold every match exactly once. */
  lemma {:induction false} PagesCoverMatches(c: SearchCondition, books: seq<Book>, n: nat)
    requires PageSize(c) > 0 && (n == 0 || PageInRange(c, n))
    ensures |Ranked(books, c)| == |Filter(books, c)|
    ensures SearchPagesUpTo(c, books, n) == Ranked(books, c)[..Least(n * PageSize(c), |Ranked(books, c)|)]
    ensures n * PageSize(c) >= |Filter(books, c)| ==>
      multiset(SearchPagesUpTo(c, books, n)) == multiset(Filter(books, c))
  {
    var ranked := Ranked(books, c);
    var size := PageSize(c);
    assert |ranked| == |Filter(books, c)| by {
      assert |multiset(ranked)| == |multiset(Filter(books, c))|;
    }
    PagesUpToIsPrefix(ranked, size, n);
    if n * size >= |ranked| {
      assert ranked[..|ranked|] == ranked;
    }
  }

  lemma PagesUpToStep<T>(rows: seq<T>, size: nat, n: nat)
    requires n >= 1
    ensures (n - 1) * size >= 0
    ensures PagesUpTo(rows, size, n) == PagesUpTo(rows, size, n - 1) + LimitOffset(rows, size, (n - 1) * size).value
  {
    MulNonNegative(n - 1, size);
  }

  /** Page `p` of a search holds the ranked matches from `(p-1) * pageSize`.
      As written, the search fails when nothing matches, and then the
      ranked matches are empty; the intended search always answers. */
  lemma PageOfSearch(c: SearchCondition, books: seq<Book>, p: nat)
    requires PageSize(c) > 0 && p >= 1 && PageInRange(c, p)
    ensures (p - 1) * PageSize(c) >= 0
    ensures GetBookList(AtPage(c, p), books, false).Success? <==> Filter(books, c) != []
    ensures Filter(books, c) == [] ==>
      LimitOffset(Ranked(books, c), PageSize(c), (p - 1) * PageSize(c)) == Success([])
    ensures GetBookList(AtPage(c, p), books, false).Success? ==>
      GetBookList(AtPage(c, p), books, false).value.rows
        == LimitOffset(Ranked(books, c), PageSize(c), (p - 1) * PageSize(c)).value
    ensures GetBookListIntended(AtPage(c, p), books, false).Success?
    ensures GetBookListIntended(AtPage(c, p), books, false).value.rows
      == LimitOffset(Ranked(books, c), PageSize(c), (p - 1) * PageSize(c)).value
  {
    PageOfSearchAsWritten(c, books, p);
    PageOfSearchIntended(c, books, p);
  }

  lemma PageOfSearchAsWritten(c: SearchCondition, books: seq<Book>, p: nat)
    requires PageSize(c) > 0 && p >= 1 && PageInRange(c, p)
    ensures (p - 1) * PageSize(c) >= 0
    ensures GetBookList(AtPage(c, p), books, false).Success? <==> Filter(books, c) != []
    ensures Filter(books, c) == [] ==>
      LimitOffset(Ranked(books, c), PageSize(c), (p - 1) * PageSize(c)) == Success([])
    ensures GetBookList(AtPage(c, p), books, false).Success? ==>
      GetBookList(AtPage(c, p), books, false).value.rows
        == LimitOffset(Ranked(books, c), PageSize(c), (p - 1) * PageSize(c)).value
    ensures ShownRows(GetBookList(AtPage(c, p), books, false))
      == LimitOffset(Ranked(books, c), PageSize(c), (p - 1) * PageSize(c)).value
  {
    AtPageParams(c, books, p);
    assert |Ranked(books, c)| == |Filter(books, c)| by {
      assert |multiset(Ranked(books, c))| == |multiset(Filter(books, c))|;
    }
  }

  lemma PageOfSearchIntended(c: SearchCondition, books: seq<Book>, p: nat)
    requires PageSize(c) > 0 && p >= 1 && PageInRange(c, p)
    ensures (p - 1) * PageSize(c) >= 0
    ensures GetBookListIntended(AtPage(c, p), books, false).Success?
    ensures GetBookListIntended(AtPage(c, p), books, false).value.rows
      == LimitOffset(Ranked(books, c), PageSize(c), (p - 1) * PageSize(c)).value
  {
    AtPageParams(c, books, p);
  }

  /** The condition for page `p` asks for page `p` of the same matches. */
  lemma AtPageParams(c: SearchCondition, books: seq<Book>, p: nat)
    requires PageSize(c) > 0 && p >= 1 && PageInRange(c, p)
    ensures var cp := AtPage(c, p);
      && PageSize(cp) == PageSize(c) && PageSize(cp) >= 0
      && Offset(cp) == (p - 1) * PageSize(c) && Offset(cp) >= 0
      && PagingInRange(cp)
      && Filter(books, cp) == Filter(books, c)
      && Ranked(books, cp) == Ranked(books, c)
  {
    var cp := AtPage(c, p);
    assert PageNum(cp) == p && PageSize(cp) == PageSize(c);
    MulNonNegative(p - 1, PageSize(c));
    FilterIgnoresPaging(books, c, cp);
  }

  lemma MulNonNegative(a: nat, b: nat)
    ensures a * b >= 0
  {
  }

  lemma MulMonotone(a: int, b: int, k: nat)
    requires a <= b
    ensures a * k <= b * k
  {
  }

  /** With pairwise distinct creation times among the matches,
      `ORDER BY b.create_time DESC` leaves the database no choice: every
      newest-first arrangement of the matches is `Ranked`, so the pages
      of any execution plan are the model's pages. */
  lemma RankedIsTheOnlyOrder(books: seq<Book>, c: SearchCondition, other: seq<Book>)
    requires multiset(other) == multiset(Filter(books, c))
    requires forall i, j :: 0 <= i < j < |other| ==> other[i].createTime > other[j].createTime
    ensures other == Ranked(books, c)
  {
    var r := Ranked(books, c);
    assert forall i, j :: 0 <= i < j < |r| ==> NewestFirst(r[i]) <= NewestFirst(r[j]);
    assert forall i, j :: 0 <= i < j < |other| ==> NewestFirst(other[i]) < NewestFirst(other[j]);
    Sorting.SortedUnique(other, r, NewestFirst);
  }

  /** Paging fields do not take part in the filter. */
  lemma {:induction false} FilterIgnoresPaging(books: seq<Book>, c: SearchCondition, d: SearchCondition)
    requires d == c.(pageNum := d.pageNum, pageSize := d.pageSize)
    ensures Filter(books, c) == Filter(books, d)
  {
    if books != [] {
      FilterIgnoresPaging(books[1..], c, d);
    }
  }

  /** When one page can hold every match, the first page's row count
      equals the intended count query's total; as written, the page holds
      every match while its total is `NaN`. */
  lemma FirstPageHoldsAllWhenLargeEnough(c: SearchCondition, books: seq<Book>)
    requires PageNum(c) == 1
    requires GetBookListIntended(c, books, false).Success?
    requires PageSize(c) >= GetBookListIntended(c, books, false).value.total.value
    ensures |GetBookListIntended(c, books, false).value.rows| == GetBookListIntended(c, books, false).value.total.value
    ensures GetBookList(c, books, false).Success? ==>
      |GetBookList(c, books, false).value.rows| == |Filter(books, c)| && GetBookList(c, books, false).value.total == None
  {
    assert |Ranked(books, c)| == |Filter(books, c)| by {
      assert |multiset(Ranked(books, c))| == |multiset(Filter(books, c))|;
    }
  }
}

=== FILE: books_route.dfy ===
/** The `/api/books` route: GET reads a work direction from the query string
    and answers the categories of that direction; POST reads a JSON search
    condition, fills in its paging and direction defaults, and answers a page
    of the book search. Every failure becomes a 500 response with a fixed
    payload. */
module BooksRoute {
  import opened Results
  import opened JsValues
  import opened Schema
  import Decimal
  import Sorting
  import BookSearch

  // ---------------------------------------------------------------------
  // GET: categories of one work direction

  const CategoriesFailed := "Failed to fetch book categories"

  /** `Number(s)` for the query-string forms the site sends: a missing
      parameter (`Number(null)`) and the empty string are 0, an optional
      sign followed by decimal digits is that integer, anything else is
      NaN (`None`). */
  function JsNumber(param: Option<string>): (r: Option<int>)
    ensures param.None? ==> r == Some(0)
    ensures param == Some("") ==> r == Some(0)
    ensures param.Some? && param.value != [] ==> r == Decimal.ParseInt(param.value)
  {
    match param
    case None => Some(0)
    case Some(s) => if s == [] then Some(0) else Decimal.ParseInt(s)
  }

  /** `Number(searchParams.get('workDirection')) || 0`: NaN and 0 are both
      falsy, so an absent or unreadable parameter asks for direction 0. */
  function DirectionParam(param: Option<string>): (wd: int)
    ensures JsNumber(param).None? ==> wd == 0
    ensures JsNumber(param).Some? ==> wd == JsNumber(param).value
  {
    match JsNumber(param)
    case None => 0
    case Some(n) => if n != 0 then n else 0
  }

  function SortOf(c: Category): int {
    c.sort
  }

  /** `WHERE work_direction = $1`, in table order. */
  function OfDirection(rows: seq<Category>, wd: int): (r: seq<Category>)
    ensures forall c :: c in r <==> c in rows && c.workDirection == wd
    ensures multiset(r) <= multiset(rows)
  {
    if rows == [] then []
    else
      var rest := OfDirection(rows[1..], wd);
      assert rows == [rows[0]] + rows[1..];
      if rows[0].workDirection == wd then [rows[0]] + rest else rest
  }

  /** `getBookCategories(workDirection)`: the categories of the direction,
      `ORDER BY sort` (ties in table order). */
  function GetBookCategories(rows: seq<Category>, wd: int, dbError: bool): (r: Result<seq<Category>>)
    ensures r.Success? <==> !dbError
    ensures r.Failure? ==> r.message == CategoriesFailed
    ensures r.Success? ==> multiset(r.value) == multiset(OfDirection(rows, wd))
    ensures r.Success? ==> forall i, j :: 0 <= i < j < |r.value| ==> r.value[i].sort <= r.value[j].sort
  {
    if dbError then Failure(CategoriesFailed)
    else Success(Sorting.SortBy(OfDirection(rows, wd), SortOf))
  }

  /** The GET body: the bare category array, or `{ categories: [] }` on
      failure. */
  datatype CategoriesBody = CategoryArray(rows: seq<Category>) | CategoryObject(categories: seq<Category>)

  datatype CategoriesResponse = CategoriesResponse(status: int, body: CategoriesBody)

  /** `GET(request)`. */
  function Get(param: Option<string>, rows: seq<Category>, dbError: bool): (resp: CategoriesResponse)
    ensures resp.status == 200 <==> !dbError
    ensures resp.status != 200 ==> resp == CategoriesResponse(500, CategoryObject([]))
    ensures resp.status == 200 ==> resp.body.CategoryArray?
  {
    match GetBookCategories(rows, DirectionParam(param), dbError)
    case Failure(_) => CategoriesResponse(500, CategoryObject([]))
    case Success(cs) => CategoriesResponse(200, CategoryArray(cs))
  }

  /** The GET answer holds exactly the categories of the requested
      direction, ascending by `sort`. */
  lemma GetAnswersDirection(param: Option<string>, rows: seq<Category>)
    ensures var resp := Get(param, rows, false);
      && resp.status == 200
      && (forall c :: c in resp.body.rows <==> c in rows && c.workDirection == DirectionParam(param))
      && (forall i, j :: 0 <= i < j < |resp.body.rows| ==> resp.body.rows[i].sort <= resp.body.rows[j].sort)
  {
    var wd := DirectionParam(param);
    Sorting.SameElements(Get(param, rows, false).body.rows, OfDirection(rows, wd));
  }

  /** `Number` reads back every integer the site writes with `toString`. */
  lemma JsNumberReadsIntToString(n: int)
    ensures JsNumber(Some(Decimal.IntToString(n))) == Some(n)
    ensures DirectionParam(Some(Decimal.IntToString(n))) == n
  {
    Decimal.IntToStringRoundTrip(n);
  }

  /** A missing parameter and a non-numeric one both ask for direction 0. */
  lemma DefaultDirection()
    ensures DirectionParam(None) == 0
    ensures DirectionParam(Some("")) == 0
    ensures DirectionParam(Some("x")) == 0
    ensures DirectionParam(Some("0")) == 0
  {
    assert !Decimal.IsDigit("x"[0]);
    assert Decimal.ParseDigits("0") == 0 by {
      assert "0"[..0] == [];
    }
  }

  // ---------------------------------------------------------------------
  // POST: the book search

  const ListFailed := "获取书籍列表失败"

  /** The fields of the JSON body the route reads; an absent key is
      `Undefined`. */
  datatype PostBody = PostBody(
    pageSize: Value,
    pageNum: Value,
    workDirection: Value,
    categoryId: Value,
    bookStatus: Value,
    wordCountMin: Value,
    wordCountMax: Value,
    keyword: Option<string>)

  /** The JSON answer of POST. `error` is present only on failure. */
  datatype ListResponse = ListResponse(
    status: int,
    list: seq<Book>,
    total: Value,
    pageNum: int,
    pageSize: int,
    error: Option<string>)

  /** A number as `JSON.stringify` writes it: `NaN` (`None`) becomes `null`. */
  function JsonNumber(n: Option<int>): (v: Value)
    ensures n.None? <==> v == Null
    ensures n.Some? ==> v == Num(n.value)
  {
    match n
    case None => Null
    case Some(k) => Num(k)
  }

  /** The condition handed to `getBookList`: `pageSize || 10`,
      `pageNum || 1`, `workDirection || 0`, everything else unchanged. */
  function ConditionOf(body: PostBody): (c: BookSearch.SearchCondition)
    ensures c.pageSize == Num(OrElse(body.pageSize, 10))
    ensures c.pageNum == Num(OrElse(body.pageNum, 1))
    ensures c.workDirection == Num(OrElse(body.workDirection, 0))
    ensures c.categoryId == body.categoryId && c.bookStatus == body.bookStatus
    ensures c.wordCountMin == body.wordCountMin && c.wordCountMax == body.wordCountMax
    ensures c.keyword == body.keyword
  {
    BookSearch.SearchCondition(
      Num(OrElse(body.workDirection, 0)), body.categoryId, body.bookStatus,
      body.wordCountMin, body.wordCountMax, body.keyword,
      Num(OrElse(body.pageNum, 1)), Num(OrElse(body.pageSize, 10)))
  }

  /** The failure payload of POST. */
  const FailedResponse := ListResponse(500, [], Num(0), 1, 10, Some(ListFailed))

  /** The answer of POST once `getBookList` has returned `result` for the
      body `b`: the search's list and total, with the paging numbers taken
      from the body again, or the failure payload. */
  function Respond(b: PostBody, result: Result<BookSearch.BookPage>): ListResponse {
    match result
    case Failure(_) => FailedResponse
    case Success(page) =>
      ListResponse(200, page.rows, JsonNumber(page.total), OrElse(b.pageNum, 1), OrElse(b.pageSize, 10), None)
  }

  /** `POST(request)`. `body` is `None` when reading the request fails:
      the text is not JSON (`request.json()` throws) or it is `null`
      (reading `null.pageSize` throws). Any other JSON value, an array or a
      number included, is a `PostBody` whose missing fields are
      `Undefined`. A search that matches nothing fails inside
      `getBookList`, so its answer is the failure payload; a successful
      answer carries the `NaN` total as `null`. */
  function Post(body: Option<PostBody>, books: seq<Book>, dbError: bool): (resp: ListResponse)
    ensures resp.status == 200 || resp == FailedResponse
    ensures resp.status == 200 <==>
      body.Some? && BookSearch.GetBookList(ConditionOf(body.value), books, dbError).Success?
    ensures resp.status == 200 ==>
      && resp.pageNum == OrElse(body.value.pageNum, 1)
      && resp.pageSize == OrElse(body.value.pageSize, 10)
      && resp.error == None
      && resp.total == Null
      && resp.list == BookSearch.GetBookList(ConditionOf(body.value), books, dbError).value.rows
  {
    match body
    case None => FailedResponse
    case Some(b) => Respond(b, BookSearch.GetBookList(ConditionOf(b), books, dbError))
  }

  /** `POST(request)` over the search with the count query it intends:
      `total` counts the matches, and a search matching nothing answers an
      empty list with status 200. */
  function PostIntended(body: Option<PostBody>, books: seq<Book>, dbError: bool): (resp: ListResponse)
    ensures resp.status == 200 || resp == FailedResponse
    ensures resp.status == 200 <==>
      body.Some? && BookSearch.GetBookListIntended(ConditionOf(body.value), books, dbError).Success?
    ensures resp.status == 200 ==>
      && resp.pageNum == OrElse(body.value.pageNum, 1)
      && resp.pageSize == OrElse(body.value.pageSize, 10)
      && resp.error == None
      && resp.total == Num(|BookSearch.Filter(books, ConditionOf(body.value))|)
      && resp.list == BookSearch.GetBookListIntended(ConditionOf(body.value), books, dbError).value.rows
  {
    match body
    case None => FailedResponse
    case Some(b) => Respond(b, BookSearch.GetBookListIntended(ConditionOf(b), books, dbError))
  }

  /** The defaults give a positive page size and a page number of at least
      one whenever the body's own values are absent or falsy. */
  lemma DefaultsArePositive(body: PostBody)
    requires !Truthy(body.pageSize) && !Truthy(body.pageNum)
    ensures BookSearch.PageSize(ConditionOf(body)) == 10
    ensures BookSearch.PageNum(ConditionOf(body)) == 1
    ensures BookSearch.Offset(ConditionOf(body)) == 0
  {
  }

  /** The route's status in terms of its inputs: a readable body, no
      database error, at least one matching book, and paging values the
      database accepts, neither negative nor beyond `bigint`. The intended
      route does not need the match. */
  lemma PostStatus(body: Option<PostBody>, books: seq<Book>, dbError: bool)
    ensures Post(body, books, dbError).status == 200 <==>
      && body.Some? && !dbError
      && BookSearch.Filter(books, ConditionOf(body.value)) != []
      && 0 <= BookSearch.PageSize(ConditionOf(body.value)) <= BookSearch.MaxBigint
      && 0 <= BookSearch.Offset(ConditionOf(body.value)) <= BookSearch.MaxBigint
    ensures PostIntended(body, books, dbError).status == 200 <==>
      && body.Some? && !dbError
      && 0 <= BookSearch.PageSize(ConditionOf(body.value)) <= BookSearch.MaxBigint
      && 0 <= BookSearch.Offset(ConditionOf(body.value)) <= BookSearch.MaxBigint
  {
  }

  /** A search matching nothing: the route answers the failure payload with
      status 500, where the intended route answers an empty first page
      with a total of 0. */
  lemma NoMatchAnswers500()
    ensures Post(Some(RangeBody()), [], false) == FailedResponse
    ensures PostIntended(Some(RangeBody()), [], false) == ListResponse(200, [], Num(0), 1, 10, None)
  {
    var c := ConditionOf(RangeBody());
    assert BookSearch.PageSize(c) == 10 && BookSearch.Offset(c) == 0;
    var page := BookSearch.GetBookListIntended(c, [], false).value;
    assert |BookSearch.Ranked([], c)| == 0 by {
      assert |multiset(BookSearch.Ranked([], c))| == |multiset(BookSearch.Filter([], c))|;
    }
    assert BookSearch.LimitOffset(BookSearch.Ranked([], c), 10, 0) == Success(page.rows);
  }

  /** The route always filters by work direction, because `|| 0` leaves it
      defined: a body without a direction searches direction 0 only. */
  lemma DirectionAlwaysFiltered(body: PostBody, b: Book)
    ensures BookSearch.StepPresent(ConditionOf(body), 0)
    ensures BookSearch.Matches(ConditionOf(body), b) ==> b.workDirection == OrElse(body.workDirection, 0)
    ensures !Truthy(body.workDirection) && BookSearch.Matches(ConditionOf(body), b) ==> b.workDirection == 0
  {
  }

  /** A successful answer is the search's page of the condition the route
      built: every listed book matches it, and `total` is `null`; the
      intended route answers the same page with `total` counting all
      matches. */
  lemma PostAnswersSearch(body: PostBody, books: seq<Book>)
    requires Post(Some(body), books, false).status == 200
    ensures var resp := Post(Some(body), books, false);
      var c := ConditionOf(body);
      && resp.total == Null
      && |resp.list| <= resp.pageSize
      && |resp.list| <= |BookSearch.Filter(books, c)|
      && (forall b :: b in resp.list ==> b in books && BookSearch.Matches(c, b))
      && PostIntended(Some(body), books, false) == resp.(total := Num(|BookSearch.Filter(books, c)|))
  {
    BookSearch.PageContents(ConditionOf(body), books, false);
  }

  /** A direction-0 book with the given id and word count, created at time
      `id`. */
  function Sized(id: int, words: int): Book {
    Book(id, "", "", "", "", 0, "", 0, 0, words, 0, id, 0, None, "", 0)
  }

  /** Books of 100000, 350000, 450000 and 600000 words. */
  function ScenarioBooks(): seq<Book> {
    [Sized(1, 100000), Sized(2, 350000), Sized(3, 450000), Sized(4, 600000)]
  }

  /** A body asking for 300000 to 500000 words and nothing else. */
  function RangeBody(): PostBody {
    PostBody(Undefined, Undefined, Undefined, Undefined, Undefined, Num(300000), Num(500000), None)
  }

  /** A first page large enough for every match lists them all, under a
      `null` total; the intended route's total is their number. */
  lemma FirstPageListsAllMatches(body: PostBody, books: seq<Book>)
    requires Post(Some(body), books, false).status == 200
    requires OrElse(body.pageNum, 1) == 1
    requires |BookSearch.Filter(books, ConditionOf(body))| <= OrElse(body.pageSize, 10)
    ensures var resp := Post(Some(body), books, false);
      && resp.total == Null
      && multiset(resp.list) == multiset(BookSearch.Filter(books, ConditionOf(body)))
      && PostIntended(Some(body), books, false).total == Num(|BookSearch.Filter(books, ConditionOf(body))|)
  {
    var c := ConditionOf(body);
    var ranked := BookSearch.Ranked(books, c);
    assert |ranked| == |BookSearch.Filter(books, c)| by {
      assert |multiset(ranked)| == |multiset(BookSearch.Filter(books, c))|;
    }
    var rows := BookSearch.GetBookList(c, books, false).value.rows;
    assert BookSearch.LimitOffset(ranked, BookSearch.PageSize(c), 0) == Success(rows);
    assert rows == ranked;
    PostAnswersSearch(body, books);
  }

  /** A direction-0 book is kept by the 300000..500000 filter exactly
      when its word count lies in the range. */
  lemma RangeMatches(b: Book)
    requires b.workDirection == 0
    ensures BookSearch.Matches(ConditionOf(RangeBody()), b) <==> 300000 <= b.wordCount <= 500000
  {
    assert ConditionOf(RangeBody())
      == BookSearch.SearchCondition(Num(0), Undefined, Undefined, Num(300000), Num(500000), None, Num(1), Num(10));
  }

  /** Which of four books the 300000..500000 filter keeps. */
  lemma RangeFilter(s: seq<Book>)
    requires |s| == 4 && forall i :: 0 <= i < 4 ==> s[i].workDirection == 0
    requires s[0].wordCount == 100000 && s[1].wordCount == 350000
    requires s[2].wordCount == 450000 && s[3].wordCount == 600000
    ensures BookSearch.Filter(s, ConditionOf(RangeBody())) == [s[1], s[2]]
  {
    var cond := ConditionOf(RangeBody());
    assert BookSearch.Filter(s[3..], cond) == [] by {
      RangeMatches(s[3]);
      BookSearch.FilterFrom(s, 3, cond);
      assert s[4..] == [];
    }
    assert BookSearch.Filter(s[2..], cond) == [s[2]] by {
      RangeMatches(s[2]);
      BookSearch.FilterFrom(s, 2, cond);
    }
    assert BookSearch.Filter(s[1..], cond) == [s[1], s[2]] by {
      RangeMatches(s[1]);
      BookSearch.FilterFrom(s, 1, cond);
    }
    RangeMatches(s[0]);
    BookSearch.FilterFrom(s, 0, cond);
    assert s[0..] == s;
  }

  /** A 300000..500000 word-count filter over books of 100000, 350000,
      450000 and 600000 words answers the two middle books with a `null`
      total; the intended route answers them with `total` 2. */
  lemma WordCountRangeScenario()
    ensures var resp := Post(Some(RangeBody()), ScenarioBooks(), false);
      && resp.status == 200 && resp.total == Null
      && multiset(resp.list) == multiset{Sized(2, 350000), Sized(3, 450000)}
    ensures PostIntended(Some(RangeBody()), ScenarioBooks(), false).total == Num(2)
  {
    RangeFilter(ScenarioBooks());
    PostStatus(Some(RangeBody()), ScenarioBooks(), false);
    FirstPageListsAllMatches(RangeBody(), ScenarioBooks());
  }
}

=== FILE: chapter_actions.dfy ===
/** The chapter transactions of the server actions: `createChapter`,
    `updateChapter` and `deleteChapter`. Each runs between BEGIN and
    COMMIT; on any error it issues ROLLBACK, so every failure returns the
    database it was given. A database error at any statement is the
    parameter `dbError`; the clock (`new Date()`) is the parameter `now`;
    the id the `book_chapter` sequence hands out is the parameter `newId`. */
module ChapterActions {
  import opened Results
  import opened JsValues
  import opened Schema
  import IntSets
  import ChapterReads

  /** The form data every chapter action receives. */
  datatype ChapterData = ChapterData(chapterName: string, chapterContent: string, isVip: int)

  /** The `data` of a successful create: the new id, the book, the number,
      and the submitted fields. */
  datatype Created = Created(id: int, bookId: int, chapterNum: int, data: ChapterData)

  /** The `data` of a successful update: the id and the submitted fields. */
  datatype Updated = Updated(id: int, data: ChapterData)

  const CreateFailed := "创建章节失败"
  const UpdateFailed := "更新章节失败"
  const DeleteFailed := "删除章节失败"

  // ---------------------------------------------------------------------
  // Chapter numbering

  /** The numbers of the book's chapters. */
  function NumbersOf(db: Db, bookId: int): set<int> {
    set k | k in db.chapters && db.chapters[k].bookId == bookId :: db.chapters[k].chapterNum
  }

  /** `chapterNumResult.rows[0]?.chapterNum`: the first row of
      `ORDER BY chapter_num DESC LIMIT 1`, undefined when there is none. */
  function TopNumber(db: Db, bookId: int): (v: Value)
    ensures v.Null? == false
    ensures v.Undefined? <==> NumbersOf(db, bookId) == {}
    ensures v.Num? ==> v.n in NumbersOf(db, bookId) && forall x :: x in NumbersOf(db, bookId) ==> x <= v.n
  {
    var nums := NumbersOf(db, bookId);
    if nums == {} then Undefined else Num(IntSets.Max(nums))
  }

  /** `(rows[0]?.chapterNum || 0) + 1`: one past the book's highest chapter
      number, and 1 for a book without chapters. */
  function NextChapterNum(db: Db, bookId: int): (n: int)
    ensures NumbersOf(db, bookId) == {} ==> n == 1
    ensures forall x :: x in NumbersOf(db, bookId) ==> x < n
    ensures NumbersOf(db, bookId) != {} ==> n - 1 in NumbersOf(db, bookId)
  {
    OrElse(TopNumber(db, bookId), 0) + 1
  }

  // ---------------------------------------------------------------------
  // The transactions

  /** `createChapter(bookId, data)`: take the next number, insert the
      chapter and its content under the new id, point the book's
      last-chapter fields at it. A key clash on either insert, or any
      database error, rolls everything back. */
  function CreateChapter(db: Db, bookId: int, data: ChapterData, newId: int, now: int, dbError: bool)
    : (out: (Db, Result<Created>))
    ensures out.1.Success? <==> !dbError && newId !in db.chapters && newId !in db.contents
    ensures out.1.Failure? ==> out.0 == db && out.1.message == CreateFailed
    ensures out.1.Success? ==> out.1.value == Created(newId, bookId, NextChapterNum(db, bookId), data)
    ensures out.1.Success? ==>
      && out.0.chapters == db.chapters[newId := Chapter(newId, bookId, NextChapterNum(db, bookId), data.chapterName, data.isVip, now, now)]
      && out.0.contents == db.contents[newId := Content(newId, data.chapterContent, now, now)]
      && out.0.books.Keys == db.books.Keys
      && (forall k :: k in db.books && k != bookId ==> out.0.books[k] == db.books[k])
      && (bookId in db.books ==> out.0.books[bookId] == db.books[bookId].(
            lastChapterId := Some(newId), lastChapterName := data.chapterName, lastChapterUpdateTime := now))
  {
    if dbError || newId in db.chapters || newId in db.contents then (db, Failure(CreateFailed))
    else
      var num := NextChapterNum(db, bookId);
      var chapters := db.chapters[newId := Chapter(newId, bookId, num, data.chapterName, data.isVip, now, now)];
      var contents := db.contents[newId := Content(newId, data.chapterContent, now, now)];
      // UPDATE book_info ... WHERE id = $4 matches no row for an unknown book
      var books := if bookId in db.books then
          db.books[bookId := db.books[bookId].(lastChapterId := Some(newId), lastChapterName := data.chapterName, lastChapterUpdateTime := now)]
        else db.books;
      (Db(books, chapters, contents), Success(Created(newId, bookId, num, data)))
  }

  /** `updateChapter(id, data)`: rewrite the chapter's name, VIP flag and
      update time, then its content if a content row exists. An unknown id
      throws and rolls back. The book row is never written. */
  function UpdateChapter(db: Db, id: int, data: ChapterData, now: int, dbError: bool): (out: (Db, Result<Updated>))
    ensures out.1.Success? <==> !dbError && id in db.chapters
    ensures out.1.Failure? ==> out.0 == db && out.1.message == UpdateFailed
    ensures out.1.Success? ==>
      && out.1.value == Updated(id, data)
      && out.0.books == db.books
      && out.0.chapters == db.chapters[id := db.chapters[id].(
            chapterName := data.chapterName, isVip := data.isVip, updateTime := now)]
      && out.0.contents.Keys == db.contents.Keys
      && (forall k :: k in db.contents && k != id ==> out.0.contents[k] == db.contents[k])
      && (id in db.contents ==> out.0.contents[id] == db.contents[id].(text := data.chapterContent, updateTime := now))
  {
    if dbError || id !in db.chapters then (db, Failure(UpdateFailed))
    else
      var chapters := db.chapters[id := db.chapters[id].(chapterName := data.chapterName, isVip := data.isVip, updateTime := now)];
      // UPDATE book_content ... WHERE chapter_id = $3 may match no row
      var contents := if id in db.contents then
          db.contents[id := db.contents[id].(text := data.chapterContent, updateTime := now)]
        else db.contents;
      (Db(db.books, chapters, contents), Success(Updated(id, data)))
  }

  /** `deleteChapter(id)`: delete the content, then the chapter; when no
      chapter row was deleted, throw, and ROLLBACK restores the content. */
  function DeleteChapter(db: Db, id: int, dbError: bool): (out: (Db, Result<int>))
    ensures out.1.Success? <==> !dbError && id in db.chapters
    ensures out.1.Failure? ==> out.0 == db && out.1.message == DeleteFailed
    ensures out.1.Success? ==>
      && out.1.value == id
      && out.0.books == db.books
      && out.0.chapters == db.chapters - {id}
      && out.0.contents == db.contents - {id}
  {
    var contentDeleted := db.(contents := db.contents - {id});
    if dbError || id !in db.chapters then (db, Failure(DeleteFailed))
    else (contentDeleted.(chapters := db.chapters - {id}), Success(id))
  }

  // ---------------------------------------------------------------------
  // Invariants

  /** Every row sits under its own key, every content row belongs to a
      chapter, chapter numbers start at 1 and are unique within a book. */
  predicate Valid(db: Db) {
    && (forall k :: k in db.books ==> db.books[k].id == k)
    && (forall k :: k in db.chapters ==> db.chapters[k].id == k)
    && (forall k :: k in db.contents ==> db.contents[k].chapterId == k && k in db.chapters)
    && (forall k :: k in db.chapters ==> db.chapters[k].chapterNum >= 1)
    && (forall a, b :: a in db.chapters && b in db.chapters && a != b && db.chapters[a].bookId == db.chapters[b].bookId
          ==> db.chapters[a].chapterNum != db.chapters[b].chapterNum)
  }

  /** Every book's last-chapter pointer names one of its own chapters. */
  predicate PointersValid(db: Db) {
    forall k :: k in db.books && db.books[k].lastChapterId.Some? ==>
      && db.books[k].lastChapterId.value in db.chapters
      && db.chapters[db.books[k].lastChapterId.value].bookId == k
  }

  lemma CreatePreservesValid(db: Db, bookId: int, data: ChapterData, newId: int, now: int, dbError: bool)
    requires Valid(db)
    ensures Valid(CreateChapter(db, bookId, data, newId, now, dbError).0)
  {
    var out := CreateChapter(db, bookId, data, newId, now, dbError);
    if out.1.Success? {
      var d := out.0;
      var num := NextChapterNum(db, bookId);
      assert num >= 1 by {
        if NumbersOf(db, bookId) != {} {
          var k :| k in db.chapters && db.chapters[k].bookId == bookId && db.chapters[k].chapterNum == num - 1;
        }
      }
      forall a, b | a in d.chapters && b in d.chapters && a != b && d.chapters[a].bookId == d.chapters[b].bookId
        ensures d.chapters[a].chapterNum != d.chapters[b].chapterNum
      {
        if a == newId {
          assert d.chapters[b] == db.chapters[b];
          assert db.chapters[b].chapterNum in NumbersOf(db, bookId);
        } else if b == newId {
          assert d.chapters[a] == db.chapters[a];
          assert db.chapters[a].chapterNum in NumbersOf(db, bookId);
        }
      }
    }
  }

  lemma CreatePreservesPointers(db: Db, bookId: int, data: ChapterData, newId: int, now: int, dbError: bool)
    requires Valid(db) && PointersValid(db)
    ensures PointersValid(CreateChapter(db, bookId, data, newId, now, dbError).0)
  {
  }

  lemma UpdatePreservesValid(db: Db, id: int, data: ChapterData, now: int, dbError: bool)
    requires Valid(db)
    ensures Valid(UpdateChapter(db, id, data, now, dbError).0)
    ensures PointersValid(db) ==> PointersValid(UpdateChapter(db, id, data, now, dbError).0)
  {
  }

  lemma DeletePreservesValid(db: Db, id: int, dbError: bool)
    requires Valid(db)
    ensures Valid(DeleteChapter(db, id, dbError).0)
  {
  }

  /** After a create, the book's pointer names its highest-numbered
      chapter. */
  lemma CreatePointsAtHighest(db: Db, bookId: int, data: ChapterData, newId: int, now: int)
    requires Valid(db)
    requires bookId in db.books
    requires CreateChapter(db, bookId, data, newId, now, false).1.Success?
    ensures var d := CreateChapter(db, bookId, data, newId, now, false).0;
      && d.books[bookId].lastChapterId == Some(newId)
      && forall k :: k in d.chapters && d.chapters[k].bookId == bookId ==>
           d.chapters[k].chapterNum <= d.chapters[newId].chapterNum
  {
    var d := CreateChapter(db, bookId, data, newId, now, false).0;
    forall k | k in d.chapters && d.chapters[k].bookId == bookId
      ensures d.chapters[k].chapterNum <= d.chapters[newId].chapterNum
    {
      if k != newId {
        assert db.chapters[k].chapterNum in NumbersOf(db, bookId);
      }
    }
  }

  // ---------------------------------------------------------------------
  // What the reads see afterwards

  /** A created chapter of an existing book is readable with its content. */
  lemma CreatedChapterIsReadable(db: Db, bookId: int, data: ChapterData, newId: int, now: int)
    requires bookId in db.books
    requires CreateChapter(db, bookId, data, newId, now, false).1.Success?
    ensures var r := ChapterReads.GetChapterContent(CreateChapter(db, bookId, data, newId, now, false).0, newId, false);
      r.Success? && r.value.content == data.chapterContent && r.value.chapter.chapterName == data.chapterName
  {
  }

  /** A deleted chapter's page fails, and the editor's read finds nothing. */
  lemma DeletedChapterIsGone(db: Db, id: int)
    requires DeleteChapter(db, id, false).1.Success?
    ensures ChapterReads.GetChapterContent(DeleteChapter(db, id, false).0, id, false).Failure?
    ensures ChapterReads.GetChapter(DeleteChapter(db, id, false).0, id, false) == Success(None)
  {
  }

  /** An update is what the editor reads back: the new name and VIP flag,
      the new text if the chapter had a content row, still none if not. */
  lemma UpdateReadBack(db: Db, id: int, data: ChapterData, now: int)
    requires UpdateChapter(db, id, data, now, false).1.Success?
    ensures var r := ChapterReads.GetChapter(UpdateChapter(db, id, data, now, false).0, id, false);
      && r.Success? && r.value.Some?
      && r.value.value.chapterName == data.chapterName
      && r.value.value.isVip == data.isVip
      && r.value.value.chapterContent == (if id in db.contents then Some(data.chapterContent) else None)
  {
  }

  // ---------------------------------------------------------------------
  // What the transactions do not maintain

  /** A book with chapters 1, 2 and 3, the third the latest. */
  function ThreeChapters(): Db {
    var book := Book(1, "Book", "Author", "", "", 0, "", 0, 0, 0, 0, 0, 0, Some(12), "Ch3", 0);
    Db(map[1 := book],
       map[10 := Chapter(10, 1, 1, "Ch1", 0, 0, 0),
           11 := Chapter(11, 1, 2, "Ch2", 0, 0, 0),
           12 := Chapter(12, 1, 3, "Ch3", 0, 0, 0)],
       map[10 := Content(10, "a", 0, 0), 11 := Content(11, "b", 0, 0), 12 := Content(12, "c", 0, 0)])
  }

  /** Creating "Ch4" on a book with chapters 1..3 numbers it 4 and makes it
      the book's latest chapter. */
  lemma CreateFourthChapter()
    ensures var out := CreateChapter(ThreeChapters(), 1, ChapterData("Ch4", "d", 0), 13, 5, false);
      && out.1 == Success(Created(13, 1, 4, ChapterData("Ch4", "d", 0)))
      && out.0.books[1].lastChapterName == "Ch4"
      && out.0.books[1].lastChapterId == Some(13)
  {
    var db := ThreeChapters();
    assert NumbersOf(db, 1) == {1, 2, 3} by {
      assert db.chapters[10].chapterNum == 1 && db.chapters[11].chapterNum == 2 && db.chapters[12].chapterNum == 3;
      forall x | x in NumbersOf(db, 1) ensures x in {1, 2, 3} {
        var k :| k in db.chapters && db.chapters[k].bookId == 1 && db.chapters[k].chapterNum == x;
      }
    }
    assert NextChapterNum(db, 1) == 4;
  }

  /** Deleting the latest chapter leaves the book pointing at a chapter
      that no longer exists. */
  lemma DeleteLeavesDanglingPointer()
    ensures Valid(ThreeChapters()) && PointersValid(ThreeChapters())
    ensures var d := DeleteChapter(ThreeChapters(), 12, false).0;
      && Valid(d)
      && d.books[1].lastChapterId == Some(12)
      && 12 !in d.chapters
      && !PointersValid(d)
  {
    var db := ThreeChapters();
    ThreeChaptersValid();
    DeletePreservesValid(db, 12, false);
    var d := DeleteChapter(db, 12, false).0;
    assert d.books == db.books && d.chapters == db.chapters - {12};
  }

  lemma ThreeChaptersValid()
    ensures Valid(ThreeChapters()) && PointersValid(ThreeChapters())
  {
    var db := ThreeChapters();
    assert db.chapters.Keys == {10, 11, 12};
    assert db.books.Keys == {1};
  }

  /** After the highest-numbered chapter is deleted, the next create gets
      a number no higher than the deleted one's: numbers are reused. */
  lemma DeleteTopReusesNumber(db: Db, id: int)
    requires Valid(db) && id in db.chapters
    requires forall k :: k in db.chapters && db.chapters[k].bookId == db.chapters[id].bookId ==>
      db.chapters[k].chapterNum <= db.chapters[id].chapterNum
    ensures var bookId := db.chapters[id].bookId;
      NextChapterNum(DeleteChapter(db, id, false).0, bookId) <= db.chapters[id].chapterNum
  {
    var bookId := db.chapters[id].bookId;
    var d := DeleteChapter(db, id, false).0;
    if NumbersOf(d, bookId) != {} {
      var top := NextChapterNum(d, bookId) - 1;
      var k :| k in d.chapters && d.chapters[k].bookId == bookId && d.chapters[k].chapterNum == top;
      assert k != id && k in db.chapters;
    }
  }

  /** Deleting chapter 3 of 1..3 and creating again numbers the new
      chapter 3. */
  lemma DeleteThenCreateReusesThree()
    ensures var d := DeleteChapter(ThreeChapters(), 12, false).0;
      CreateChapter(d, 1, ChapterData("New", "e", 0), 13, 5, false).1.value.chapterNum == 3
  {
    var d := DeleteChapter(ThreeChapters(), 12, false).0;
    assert d.chapters == map[10 := Chapter(10, 1, 1, "Ch1", 0, 0, 0), 11 := Chapter(11, 1, 2, "Ch2", 0, 0, 0)];
    assert NumbersOf(d, 1) == {1, 2} by {
      assert d.chapters[10].chapterNum == 1 && d.chapters[11].chapterNum == 2;
      forall x | x in NumbersOf(d, 1) ensures x in {1, 2} {
        var k :| k in d.chapters && d.chapters[k].bookId == 1 && d.chapters[k].chapterNum == x;
      }
    }
  }

  /** Deleting a middle chapter leaves a gap: the remaining numbers of a
      book need not be 1..n. */
  lemma DeleteMiddleLeavesGap()
    ensures NumbersOf(DeleteChapter(ThreeChapters(), 11, false).0, 1) == {1, 3}
  {
    var d := DeleteChapter(ThreeChapters(), 11, false).0;
    assert d.chapters == map[10 := Chapter(10, 1, 1, "Ch1", 0, 0, 0), 12 := Chapter(12, 1, 3, "Ch3", 0, 0, 0)];
    assert d.chapters[10].chapterNum == 1 && d.chapters[12].chapterNum == 3;
    forall x | x in NumbersOf(d, 1) ensures x in {1, 3} {
      var k :| k in d.chapters && d.chapters[k].bookId == 1 && d.chapters[k].chapterNum == x;
    }
  }
}

=== FILE: chapter_reads.dfy ===
/** The chapter reads: `getChapterList` and `getChapterContent` of the data
    layer, and `getChapter` of the server actions. Tables are the maps of
    `Schema.Db`, looked up by key. */
module ChapterReads {
  import opened Results
  import opened Schema
  import IntSets
  import Sorting

  const ListFailed := "获取章节列表失败"

  /** Thrown when the joined row is missing, then replaced by the catch
      block's message like any other error. */
  const ChapterMissing := "章节不存在"

  const ContentFailed := "获取章节内容失败"

  const GetFailed := "获取章节失败"

  /** The keys of the book's chapters (`WHERE book_id = $1`). */
  function ChapterIdsOf(db: Db, bookId: int): set<int> {
    set k | k in db.chapters && db.chapters[k].bookId == bookId
  }

  /** The rows stored under `ids`, in the order of `ids`. */
  function RowsAt(db: Db, ids: seq<int>): (r: seq<Chapter>)
    requires forall i :: 0 <= i < |ids| ==> ids[i] in db.chapters
    ensures |r| == |ids|
    ensures forall i :: 0 <= i < |ids| ==> r[i] == db.chapters[ids[i]]
  {
    seq(|ids|, i requires 0 <= i < |ids| => db.chapters[ids[i]])
  }

  /** The book's chapters in key order. */
  function BookChapters(db: Db, bookId: int): (r: seq<Chapter>)
    ensures |r| == |ChapterIdsOf(db, bookId)|
  {
    var ids := IntSets.Ascending(ChapterIdsOf(db, bookId));
    forall i | 0 <= i < |ids| ensures ids[i] in db.chapters {
      assert ids[i] in ChapterIdsOf(db, bookId);
    }
    RowsAt(db, ids)
  }

  lemma BookChaptersMembers(db: Db, bookId: int, c: Chapter)
    ensures c in BookChapters(db, bookId) <==> exists k :: k in db.chapters && db.chapters[k] == c && c.bookId == bookId
  {
    var ids := IntSets.Ascending(ChapterIdsOf(db, bookId));
    var rows := BookChapters(db, bookId);
    if c in rows {
      var i :| 0 <= i < |rows| && rows[i] == c;
      assert ids[i] in ChapterIdsOf(db, bookId);
    }
    if exists k :: k in db.chapters && db.chapters[k] == c && c.bookId == bookId {
      var k :| k in db.chapters && db.chapters[k] == c && c.bookId == bookId;
      assert k in ChapterIdsOf(db, bookId);
      var i :| 0 <= i < |ids| && ids[i] == k;
      assert rows[i] == c;
    }
  }

  function ChapterNum(c: Chapter): int {
    c.chapterNum
  }

  /** `getChapterList(bookId)`: the book's chapters, `ORDER BY chapter_num
      ASC`. Rows with equal numbers come in key order. */
  function GetChapterList(db: Db, bookId: int, dbError: bool): (r: Result<seq<Chapter>>)
    ensures r.Success? <==> !dbError
    ensures r.Failure? ==> r.message == ListFailed
    ensures r.Success? ==> |r.value| == |ChapterIdsOf(db, bookId)|
    ensures r.Success? ==> forall i, j :: 0 <= i < j < |r.value| ==> r.value[i].chapterNum <= r.value[j].chapterNum
  {
    if dbError then Failure(ListFailed)
    else
      Success(Sorting.SortBy(BookChapters(db, bookId), ChapterNum))
  }

  /** The list holds exactly the book's stored chapters. */
  lemma ChapterListMembers(db: Db, bookId: int)
    ensures var rows := GetChapterList(db, bookId, false).value;
      forall c :: c in rows <==> exists k :: k in db.chapters && db.chapters[k] == c && c.bookId == bookId
  {
    var rows := GetChapterList(db, bookId, false).value;
    Sorting.SameElements(rows, BookChapters(db, bookId));
    forall c ensures c in rows <==> exists k :: k in db.chapters && db.chapters[k] == c && c.bookId == bookId {
      BookChaptersMembers(db, bookId, c);
    }
  }

  /** The joined row of `getChapterContent`. */
  datatype ChapterView = ChapterView(
    chapter: Chapter,
    bookName: string,
    authorName: string,
    categoryName: string,
    content: string)

  /** Whether `book_chapter JOIN book_info JOIN book_content` has a row for
      the chapter. */
  predicate Joined(db: Db, chapterId: int) {
    && chapterId in db.chapters
    && db.chapters[chapterId].bookId in db.books
    && chapterId in db.contents
  }

  /** `getChapterContent(chapterId)`: the inner joins demand the chapter,
      its book and its content; a missing one ends in the same message as
      a database error. */
  function GetChapterContent(db: Db, chapterId: int, dbError: bool): (r: Result<ChapterView>)
    ensures r.Success? <==> !dbError && Joined(db, chapterId)
    ensures r.Failure? ==> r.message == ContentFailed
    ensures r.Success? ==> r.value.chapter == db.chapters[chapterId]
    ensures r.Success? ==> r.value.content == db.contents[chapterId].text
    ensures r.Success? ==> r.value.bookName == db.books[db.chapters[chapterId].bookId].bookName
  {
    var row: Result<ChapterView> :=
      if dbError then Failure(ContentFailed)
      else if !Joined(db, chapterId) then Failure(ChapterMissing)
      else
        var c := db.chapters[chapterId];
        var b := db.books[c.bookId];
        Success(ChapterView(c, b.bookName, b.authorName, b.categoryName, db.contents[chapterId].text));
    match row
    case Failure(_) => Failure(ContentFailed)
    case Success(v) => Success(v)
  }

  /** The row of `getChapter`; the LEFT JOIN leaves `chapterContent` null
      when the chapter has no content row. */
  datatype ChapterDetail = ChapterDetail(
    id: int,
    chapterName: string,
    chapterContent: Option<string>,
    isVip: int,
    bookId: int)

  /** `getChapter(id)`: `{ success: true, data: row || null }`, or
      `{ success: false }` on a database error. */
  function GetChapter(db: Db, id: int, dbError: bool): (r: Result<Option<ChapterDetail>>)
    ensures r.Failure? <==> dbError
    ensures r.Failure? ==> r.message == GetFailed
    ensures r.Success? ==> (r.value.Some? <==> id in db.chapters)
    ensures r.Success? && r.value.Some? ==>
      && r.value.value.chapterName == db.chapters[id].chapterName
      && r.value.value.isVip == db.chapters[id].isVip
      && r.value.value.bookId == db.chapters[id].bookId
      && (r.value.value.chapterContent.Some? <==> id in db.contents)
      && (id in db.contents ==> r.value.value.chapterContent.value == db.contents[id].text)
  {
    if dbError then Failure(GetFailed)
    else if id !in db.chapters then Success(None)
    else
      var c := db.chapters[id];
      var text := if id in db.contents then Some(db.contents[id].text) else None;
      Success(Some(ChapterDetail(id, c.chapterName, text, c.isVip, c.bookId)))
  }

  /** The two readers disagree on a chapter without content: the editor's
      read finds it, the reader's page fails. */
  lemma ContentlessChapter(db: Db, id: int)
    requires id in db.chapters && id !in db.contents
    ensures GetChapter(db, id, false).value.Some?
    ensures GetChapter(db, id, false).value.value.chapterContent == None
    ensures GetChapterContent(db, id, false).Failure?
  {
  }
}

=== FILE: date_format.dfy ===
/** `dateFormat(format, date)`: every `YYYY`, `MM`, `DD`, `HH`, `mm` and
    `ss` in the format, found left to right without overlap, becomes the
    matching field of the date; every other character is kept. The date's
    calendar fields are given as integers. */
module DateFormat {
  import opened Results
  import Decimal

  /** What `getFullYear()`, `getMonth()`, `getDate()`, `getHours()`,
      `getMinutes()` and `getSeconds()` return; the month is 0-based. */
  datatype DateFields = DateFields(year: int, month0: int, day: int, hours: int, minutes: int, seconds: int)

  datatype Token = Year | Month | Day | Hours | Minutes | Seconds

  /** The format split into literal characters and tokens. */
  datatype Piece = Lit(c: char) | Tok(t: Token)

  function TokenText(t: Token): string {
    match t
    case Year => "YYYY"
    case Month => "MM"
    case Day => "DD"
    case Hours => "HH"
    case Minutes => "mm"
    case Seconds => "ss"
  }

  /** The alternative of `/YYYY|MM|DD|HH|mm|ss/` that matches at the start of
      `s`, tried in the regular expression's order. */
  function TokenAt(s: string): (r: Option<Token>)
    ensures r.Some? ==> |TokenText(r.value)| <= |s| && s[..|TokenText(r.value)|] == TokenText(r.value)
    ensures r.None? ==> forall t: Token :: !(|TokenText(t)| <= |s| && s[..|TokenText(t)|] == TokenText(t))
  {
    if |s| >= 4 && s[..4] == "YYYY" then Some(Year)
    else if |s| >= 2 && s[..2] == "MM" then Some(Month)
    else if |s| >= 2 && s[..2] == "DD" then Some(Day)
    else if |s| >= 2 && s[..2] == "HH" then Some(Hours)
    else if |s| >= 2 && s[..2] == "mm" then Some(Minutes)
    else if |s| >= 2 && s[..2] == "ss" then Some(Seconds)
    else None
  }

  /** The left-to-right scan of the global replace. */
  function Scan(s: string): (pieces: seq<Piece>)
    decreases |s|
  {
    if s == [] then []
    else match TokenAt(s)
      case Some(t) => [Tok(t)] + Scan(s[|TokenText(t)|..])
      case None => [Lit(s[0])] + Scan(s[1..])
  }

  /** The text a piece stands for in the format. */
  function PieceFormat(x: Piece): string {
    match x
    case Lit(c) => [c]
    case Tok(t) => TokenText(t)
  }

  /** The text the pieces stand for. */
  function Unscan(pieces: seq<Piece>): string {
    if pieces == [] then [] else PieceFormat(pieces[0]) + Unscan(pieces[1..])
  }

  /** Scanning loses nothing: the pieces spell the format again. */
  lemma {:induction false} ScanRoundTrip(s: string)
    ensures Unscan(Scan(s)) == s
    decreases |s|
  {
    if s != [] {
      match TokenAt(s)
      case Some(t) =>
        ScanRoundTrip(s[|TokenText(t)|..]);
        assert s == s[..|TokenText(t)|] + s[|TokenText(t)|..];
      case None =>
        ScanRoundTrip(s[1..]);
        assert s == [s[0]] + s[1..];
    }
  }

  /** `n.toString().padStart(2, '0')` */
  function Two(n: int): string {
    Decimal.PadZero(Decimal.IntToString(n), 2)
  }

  /** The `formatMap` object: the text each token is replaced by. */
  datatype FormatMap = FormatMap(year: string, month: string, day: string, hours: string, minutes: string, seconds: string)

  function FormatMapOf(d: DateFields): FormatMap {
    FormatMap(Decimal.IntToString(d.year), Two(d.month0 + 1), Two(d.day), Two(d.hours), Two(d.minutes), Two(d.seconds))
  }

  /** `formatMap[match]` */
  function Lookup(m: FormatMap, t: Token): string {
    match t
    case Year => m.year
    case Month => m.month
    case Day => m.day
    case Hours => m.hours
    case Minutes => m.minutes
    case Seconds => m.seconds
  }

  /** The text a token of `d` is replaced by. */
  function FieldText(t: Token, d: DateFields): string {
    Lookup(FormatMapOf(d), t)
  }

  function PieceText(x: Piece, m: FormatMap): string {
    match x
    case Lit(c) => [c]
    case Tok(t) => Lookup(m, t)
  }

  /** The replaced text: literals kept, tokens looked up. */
  function Render(pieces: seq<Piece>, m: FormatMap): string {
    if pieces == [] then [] else PieceText(pieces[0], m) + Render(pieces[1..], m)
  }

  /** `format.replace(/YYYY|MM|DD|HH|mm|ss/g, match => m[match])` */
  function Replace(format: string, m: FormatMap): (r: string)
    // a format without token letters comes back unchanged
    ensures (forall i :: 0 <= i < |format| ==> !TokenLetter(format[i])) ==> r == format
    // replacing every token by its own text changes nothing
    ensures m == TokensAsThemselves ==> r == format
  {
    LiteralsUnchanged(format, m);
    RenderAsThemselves(Scan(format));
    ScanRoundTrip(format);
    Render(Scan(format), m)
  }

  /** The replace, one match at a time: a token at the front becomes its
      entry, a character starting no token is kept, and the rest of the
      format is replaced on. */
  lemma ReplaceFront(format: string, m: FormatMap)
    ensures TokenAt(format).Some? ==>
      Replace(format, m) == Lookup(m, TokenAt(format).value) + Replace(format[|TokenText(TokenAt(format).value)|..], m)
    ensures format != [] && TokenAt(format).None? ==> Replace(format, m) == [format[0]] + Replace(format[1..], m)
  {
  }

  /** The map that writes every token as its own text. */
  const TokensAsThemselves := FormatMap("YYYY", "MM", "DD", "HH", "mm", "ss")

  /** Rendering with that map spells the format the pieces stand for. */
  lemma {:induction false} RenderAsThemselves(pieces: seq<Piece>)
    ensures Render(pieces, TokensAsThemselves) == Unscan(pieces)
  {
    if pieces != [] {
      RenderAsThemselves(pieces[1..]);
      match pieces[0]
      case Lit(_) =>
      case Tok(t) =>
    }
  }

  /** `dateFormat(format, date)` */
  function Format(format: string, d: DateFields): (r: string)
    ensures (forall i :: 0 <= i < |format| ==> !TokenLetter(format[i])) ==> r == format
    ensures format == "YYYY-MM-DD" ==>
      r == Decimal.IntToString(d.year) + ("-" + (Two(d.month0 + 1) + ("-" + Two(d.day))))
  {
    DateOnlyFormat(FormatMapOf(d));
    Replace(format, FormatMapOf(d))
  }

  /** The letters a token can start with. */
  predicate TokenLetter(c: char) {
    c in {'Y', 'M', 'D', 'H', 'm', 's'}
  }

  /** A format without token letters comes back unchanged. */
  lemma {:induction false} LiteralsUnchanged(s: string, m: FormatMap)
    ensures (forall i :: 0 <= i < |s| ==> !TokenLetter(s[i])) ==>
      Scan(s) == seq(|s|, i requires 0 <= i < |s| => Lit(s[i])) && Render(Scan(s), m) == s
    decreases |s|
  {
    if s != [] && forall i :: 0 <= i < |s| ==> !TokenLetter(s[i]) {
      NoTokenAtLiteral(s);
      LiteralsUnchanged(s[1..], m);
      assert s == [s[0]] + s[1..];
    }
  }

  lemma NoTokenAtLiteral(s: string)
    requires s != [] && !TokenLetter(s[0])
    ensures TokenAt(s).None?
  {
    assert |s| >= 2 ==> s[..2][0] == s[0];
    assert |s| >= 4 ==> s[..4][0] == s[0];
  }

  /** A month renders as two digits that read back as the 1-based month. */
  lemma MonthReadsBack(d: DateFields)
    requires 0 <= d.month0 <= 11
    ensures |FieldText(Month, d)| == 2
    ensures Decimal.AllDigits(FieldText(Month, d))
    ensures Decimal.ParseDigits(FieldText(Month, d)) == d.month0 + 1
  {
    Decimal.PaddedRoundTrip(d.month0 + 1, 2);
  }

  /** Day, hour, minute and second fields in range read back the same way;
      a year is not padded. */
  lemma TwoDigitFieldReadsBack(n: int)
    requires 0 <= n <= 99
    ensures |Two(n)| == 2 && Decimal.AllDigits(Two(n)) && Decimal.ParseDigits(Two(n)) == n
  {
    Decimal.PaddedRoundTrip(n, 2);
  }

  lemma YearNotPadded(d: DateFields)
    requires 0 <= d.year <= 9
    ensures |FieldText(Year, d)| == 1
  {
  }

  /** Rendering distributes over concatenation of pieces. */
  lemma {:induction false} RenderConcat(p: seq<Piece>, q: seq<Piece>, m: FormatMap)
    ensures Render(p + q, m) == Render(p, m) + Render(q, m)
    decreases |p|
  {
    if p != [] {
      calc {
        Render(p + q, m);
        { assert (p + q)[0] == p[0]; assert (p + q)[1..] == p[1..] + q; }
        PieceText(p[0], m) + Render(p[1..] + q, m);
        { RenderConcat(p[1..], q, m); }
        PieceText(p[0], m) + (Render(p[1..], m) + Render(q, m));
        (PieceText(p[0], m) + Render(p[1..], m)) + Render(q, m);
      }
    } else {
      assert p + q == q;
    }
  }

  /** A token at the front of a string is recognised as that token. */
  lemma TokenAtFront(t: Token, rest: string)
    ensures TokenAt(TokenText(t) + rest) == Some(t)
    ensures (TokenText(t) + rest)[|TokenText(t)|..] == rest
  {
    var s := TokenText(t) + rest;
    assert s[..|TokenText(t)|] == TokenText(t);
    assert s[0] == TokenText(t)[0];
    if t != Year {
      assert |s| >= 4 ==> s[..4][0] == s[0];
    }
    assert |s| >= 2 ==> s[..2][0] == s[0];
  }

  /** One scanning step: a token at the front is taken whole. */
  lemma ScanToken(t: Token, rest: string)
    ensures Scan(TokenText(t) + rest) == [Tok(t)] + Scan(rest)
  {
    TokenAtFront(t, rest);
  }

  /** One scanning step: a character that starts no token is kept. */
  lemma ScanLiteral(c: char, rest: string)
    requires !TokenLetter(c)
    ensures Scan([c] + rest) == [Lit(c)] + Scan(rest)
  {
    NoTokenAtLiteral([c] + rest);
    assert ([c] + rest)[1..] == rest;
  }

  /** A format that is one token renders as that token's entry. */
  lemma SingleToken(t: Token, m: FormatMap)
    ensures Replace(TokenText(t), m) == Lookup(m, t)
  {
    ScanToken(t, "");
    assert TokenText(t) + "" == TokenText(t);
    assert Render([Tok(t)], m) == Lookup(m, t) + Render([], m);
  }

  /** Tokens are case sensitive: `MM` is the month, `mm` the minutes. */
  lemma CaseSensitive(m: FormatMap)
    ensures Replace("MM", m) == m.month
    ensures Replace("mm", m) == m.minutes
  {
    SingleToken(Month, m);
    SingleToken(Minutes, m);
  }

  /** Pieces whose literals start no token. */
  predicate PlainLiterals(pieces: seq<Piece>) {
    forall i :: 0 <= i < |pieces| ==> pieces[i].Lit? ==> !TokenLetter(pieces[i].c)
  }

  /** The other direction of the round trip: pieces whose literals start no
      token are scanned back from their text. */
  lemma {:induction false} UnscanRoundTrip(pieces: seq<Piece>)
    requires PlainLiterals(pieces)
    ensures Scan(Unscan(pieces)) == pieces
    decreases |pieces|
  {
    if pieces != [] {
      var rest := pieces[1..];
      assert PlainLiterals(rest) by {
        forall i | 0 <= i < |rest| ensures rest[i].Lit? ==> !TokenLetter(rest[i].c) {
          assert rest[i] == pieces[i + 1];
        }
      }
      UnscanRoundTrip(rest);
      UnscanFrom(pieces, 0);
      assert pieces[0..] == pieces && pieces[1..] == rest;
      ScanFirstPiece(pieces[0], Unscan(rest));
      assert pieces == [pieces[0]] + rest;
    }
  }

  /** Scanning the text of a piece followed by anything takes that piece. */
  lemma ScanFirstPiece(x: Piece, rest: string)
    requires x.Lit? ==> !TokenLetter(x.c)
    ensures Scan(PieceFormat(x) + rest) == [x] + Scan(rest)
  {
    match x
    case Lit(c) => ScanLiteral(c, rest);
    case Tok(t) => ScanToken(t, rest);
  }

  /** Reading a suffix back takes its first piece. */
  lemma UnscanFrom(p: seq<Piece>, i: nat)
    requires i < |p|
    ensures Unscan(p[i..]) == PieceFormat(p[i]) + Unscan(p[i + 1..])
  {
    assert p[i..][0] == p[i];
    assert p[i..][1..] == p[i + 1..];
  }

  /** Rendering a suffix takes its first piece. */
  lemma RenderFrom(p: seq<Piece>, i: nat, m: FormatMap)
    requires i < |p|
    ensures Render(p[i..], m) == PieceText(p[i], m) + Render(p[i + 1..], m)
  {
    assert p[i..][0] == p[i];
    assert p[i..][1..] == p[i + 1..];
  }

  /** The pieces of `YYYY-MM-DD`, the format the category page sends its
      update-time bound in. */
  function DatePieces(): seq<Piece> {
    [Tok(Year), Lit('-'), Tok(Month), Lit('-'), Tok(Day)]
  }

  lemma DateText(p: seq<Piece>)
    requires p == DatePieces()
    ensures Unscan(p[0..]) == "YYYY-MM-DD"
  {
    UnscanFrom(p, 4);
    assert p[5..] == [];
    UnscanFrom(p, 3);
    UnscanFrom(p, 2);
    UnscanFrom(p, 1);
    UnscanFrom(p, 0);
    assert Unscan(p[0..]) == "YYYY" + ("-" + ("MM" + ("-" + ("DD" + []))));
    assert "YYYY" + ("-" + ("MM" + ("-" + ("DD" + [])))) == "YYYY-MM-DD";
  }

  lemma DatePlain(p: seq<Piece>)
    requires p == DatePieces()
    ensures PlainLiterals(p)
  {
    forall i | 0 <= i < |p| && p[i].Lit? ensures !TokenLetter(p[i].c) {
      assert p[i].c == '-';
    }
  }

  lemma DateScan()
    ensures Scan("YYYY-MM-DD") == DatePieces()
  {
    var p := DatePieces();
    DateText(p);
    assert p[0..] == p;
    DatePlain(p);
    UnscanRoundTrip(p);
  }

  lemma DateRender(p: seq<Piece>, m: FormatMap)
    requires p == DatePieces()
    ensures Render(p[0..], m) == m.year + ("-" + (m.month + ("-" + m.day)))
  {
    RenderFrom(p, 4, m);
    assert p[5..] == [];
    assert Render(p[4..], m) == m.day + [];
    RenderFrom(p, 3, m);
    RenderFrom(p, 2, m);
    RenderFrom(p, 1, m);
    RenderFrom(p, 0, m);
  }

  /** `dateFormat('YYYY-MM-DD', date)`: the year, the month and the day
      entries of the format map, separated by dashes. */
  lemma DateOnlyFormat(m: FormatMap)
    ensures Replace("YYYY-MM-DD", m) == m.year + ("-" + (m.month + ("-" + m.day)))
  {
    DateScan();
    DateRender(DatePieces(), m);
    assert DatePieces()[0..] == DatePieces();
  }

  /** Two digits are not padded; one digit gets a leading zero. */
  lemma TwoOfTwoDigits(n: nat)
    requires 10 <= n <= 99
    ensures Two(n) == [Decimal.DigitChar(n / 10), Decimal.DigitChar(n % 10)]
  {
    assert Decimal.NatToString(n / 10) == [Decimal.DigitChar(n / 10)];
  }

  lemma TwoOfOneDigit(n: nat)
    requires n <= 9
    ensures Two(n) == ['0', Decimal.DigitChar(n)]
  {
    assert Decimal.NatToString(n) == [Decimal.DigitChar(n)];
  }

  /** One-digit fields get a leading zero: March is `03`. */
  lemma MarchIsPadded()
    ensures Two(3) == "03"
  {
    TwoOfOneDigit(3);
  }
}

=== FILE: decimal.dfy ===
/** Decimal rendering of integers (`n.toString()`), left padding
    (`padStart`), and the digit-string reading that is its inverse. */
module Decimal {
  import opened Results

  predicate IsDigit(c: char) {
    '0' <= c <= '9'
  }

  predicate AllDigits(s: string) {
    forall i :: 0 <= i < |s| ==> IsDigit(s[i])
  }

  function DigitChar(d: nat): (c: char)
    requires d < 10
    ensures IsDigit(c)
  {
    ['0', '1', '2', '3', '4', '5', '6', '7', '8', '9'][d]
  }

  function DigitValue(c: char): (d: nat)
    requires IsDigit(c)
    ensures d < 10
  {
    (c as int - '0' as int) as nat
  }

  lemma DigitRoundTrip(d: nat)
    requires d < 10
    ensures DigitValue(DigitChar(d)) == d
  {
  }

  /** `n.toString()` for a non-negative integer: no sign, no leading zero. */
  function NatToString(n: nat): (s: string)
    ensures |s| >= 1 && AllDigits(s)
    ensures |s| > 1 ==> s[0] != '0'
    decreases n
  {
    if n < 10 then [DigitChar(n)] else NatToString(n / 10) + [DigitChar(n % 10)]
  }

  /** `n.toString()` for any integer: a leading '-' for negatives. */
  function IntToString(n: int): (s: string)
    ensures |s| >= 1 && (n >= 0 <==> s[0] != '-')
    ensures n >= 0 ==> AllDigits(s)
  {
    if n >= 0 then NatToString(n) else "-" + NatToString(-n)
  }

  /** The value of a string of decimal digits (leading zeros allowed). */
  function ParseDigits(s: string): nat
    requires AllDigits(s)
  {
    if s == [] then 0 else 10 * ParseDigits(s[..|s| - 1]) + DigitValue(s[|s| - 1])
  }

  lemma {:induction false} NatToStringRoundTrip(n: nat)
    ensures ParseDigits(NatToString(n)) == n
    decreases n
  {
    var s := NatToString(n);
    if n < 10 {
      DigitRoundTrip(n);
    } else {
      NatToStringRoundTrip(n / 10);
      assert s[..|s| - 1] == NatToString(n / 10);
      DigitRoundTrip(n % 10);
    }
  }

  /** Distinct numbers render differently (`toString` is injective). */
  lemma NatToStringInjective(a: nat, b: nat)
    requires NatToString(a) == NatToString(b)
    ensures a == b
  {
    NatToStringRoundTrip(a);
    NatToStringRoundTrip(b);
  }

  /** `z` zero characters. */
  function Zeros(z: nat): (r: string)
    ensures |r| == z && forall i :: 0 <= i < z ==> r[i] == '0'
  {
    seq(z, _ => '0')
  }

  /** `s.padStart(width, '0')`. */
  function PadZero(s: string, width: nat): (r: string)
    ensures |r| == if |s| >= width then |s| else width
    ensures r[|r| - |s|..] == s
    ensures forall i :: 0 <= i < |r| - |s| ==> r[i] == '0'
  {
    if |s| >= width then s else Zeros(width - |s|) + s
  }

  /** Leading zeros do not change the value of a digit string. */
  lemma {:induction false} ParseLeadingZeros(z: nat, s: string)
    requires AllDigits(s)
    ensures AllDigits(Zeros(z) + s)
    ensures ParseDigits(Zeros(z) + s) == ParseDigits(s)
    decreases |s|
  {
    var zs: string := Zeros(z);
    var t := zs + s;
    assert AllDigits(t) by {
      forall i | 0 <= i < |t| ensures IsDigit(t[i]) {
        if i < z { assert t[i] == zs[i]; } else { assert t[i] == s[i - z]; }
      }
    }
    if s == [] {
      assert t == zs;
      ZerosParseToZero(z);
    } else {
      ParseLeadingZeros(z, s[..|s| - 1]);
      assert t[..|t| - 1] == zs + s[..|s| - 1];
      assert t[|t| - 1] == s[|s| - 1];
    }
  }

  lemma {:induction false} ZerosParseToZero(z: nat)
    ensures AllDigits(Zeros(z))
    ensures ParseDigits(Zeros(z)) == 0
  {
    var zs: string := Zeros(z);
    if z > 0 {
      ZerosParseToZero(z - 1);
      assert zs[..|zs| - 1] == Zeros(z - 1);
    }
  }

  /** Zero padding keeps the number readable: padding a rendered number and
      reading it back gives the number. */
  lemma PaddedRoundTrip(n: nat, width: nat)
    ensures AllDigits(PadZero(NatToString(n), width))
    ensures ParseDigits(PadZero(NatToString(n), width)) == n
  {
    NatToStringRoundTrip(n);
    PaddingKeepsValue(NatToString(n), width);
  }

  /** Padding any digit string keeps its value. */
  lemma PaddingKeepsValue(s: string, width: nat)
    requires AllDigits(s)
    ensures AllDigits(PadZero(s, width))
    ensures ParseDigits(PadZero(s, width)) == ParseDigits(s)
  {
    if |s| < width {
      ParseLeadingZeros(width - |s|, s);
    }
  }

  /** A decimal integer: an optional sign, '-' or '+', followed by at
      least one digit. */
  function ParseInt(s: string): (r: Option<int>)
    ensures s != [] && AllDigits(s) ==> r == Some(ParseDigits(s) as int)
    ensures |s| > 1 && s[0] == '-' && AllDigits(s[1..]) ==> r == Some(0 - ParseDigits(s[1..]) as int)
    ensures |s| > 1 && s[0] == '+' && AllDigits(s[1..]) ==> r == Some(ParseDigits(s[1..]) as int)
    ensures r.Some? <==> s != [] && (AllDigits(s) || (|s| > 1 && (s[0] == '-' || s[0] == '+') && AllDigits(s[1..])))
    ensures r.Some? && r.value < 0 ==> s[0] == '-'
  {
    if s == [] then None
    else if AllDigits(s) then Some(ParseDigits(s) as int)
    else if s[0] == '-' && |s| > 1 && AllDigits(s[1..]) then Some(0 - ParseDigits(s[1..]) as int)
    else if s[0] == '+' && |s| > 1 && AllDigits(s[1..]) then Some(ParseDigits(s[1..]) as int)
    else None
  }

  /** Reading a rendered integer gives the integer back. */
  lemma IntToStringRoundTrip(n: int)
    ensures ParseInt(IntToString(n)) == Some(n)
  {
    var s := IntToString(n);
    if n >= 0 {
      NatToStringRoundTrip(n);
    } else {
      NatToStringRoundTrip(-n);
      assert s[1..] == NatToString(-n);
      assert !IsDigit(s[0]);
    }
  }
}

=== FILE: feedback_form.dfy ===
/** The feedback page: one text box, two checks, and a box that empties
    only when the server accepts the text. */
module FeedbackForm {
  import opened Results
  import Validation

  const ContentEmpty := "反馈内容不能为空！"
  const ContentTooShort := "反馈内容不能少于 10 个字符！"
  const MinLength := 10
  const Submitted := "提交成功！"
  const SubmitFailed := "提交失败，请稍后重试"

  /** The checks of `handleSubmit`, in source order. */
  function FeedbackChecks(content: string): seq<Validation.Check> {
    [Validation.Check(content != "", ContentEmpty),
     Validation.Check(|content| >= MinLength, ContentTooShort)]
  }

  function ValidateFeedback(content: string): (r: Option<string>)
    ensures r.None? <==> |content| >= MinLength
    ensures content == "" ==> r == Some(ContentEmpty)
    ensures 0 < |content| < MinLength ==> r == Some(ContentTooShort)
  {
    var checks := FeedbackChecks(content);
    Validation.FirstFailingIndex(checks, if content == "" then 0 else 1);
    Validation.FirstFailure(checks)
  }

  /** `handleSubmit()`: the text box afterwards, and the effect. The body
      sent is `{ content }`. */
  function Submit(content: string, reply: Validation.Reply): (r: (string, Validation.Effect<string>))
    ensures r.1.sent.Some? <==> |content| >= MinLength
    ensures r.1.sent.None? ==> r == (content, Validation.Refused(ValidateFeedback(content).value))
    ensures r.1.sent.Some? ==> r.1.sent.value == content && r.1.navigate.None?
    ensures r.0 != content <==> r.1.sent.Some? && reply == Validation.Replied(true)
    ensures r.0 != content ==> r.0 == ""
    ensures r.1.sent.Some? ==> r.1.toast == Some(if reply == Validation.Replied(true) then Submitted else SubmitFailed)
  {
    match ValidateFeedback(content)
    case Some(message) => (content, Validation.Refused(message))
    case None =>
      if reply == Validation.Replied(true) then ("", Validation.Effect(Some(content), Some(Submitted), None))
      else (content, Validation.Effect(Some(content), Some(SubmitFailed), None))
  }

  /** After an accepted submission the box is empty, so pressing again
      sends nothing and asks for content. */
  lemma AcceptedFeedbackIsNotResent(content: string, reply: Validation.Reply, again: Validation.Reply)
    requires |content| >= MinLength && reply == Validation.Replied(true)
    ensures Submit(Submit(content, reply).0, again).1 == Validation.Refused(ContentEmpty)
  {
  }

  /** After a failed submission the text stays, and retrying sends the same
      text. */
  lemma FailedFeedbackCanBeRetried(content: string, reply: Validation.Reply, again: Validation.Reply)
    requires |content| >= MinLength && reply != Validation.Replied(true)
    ensures Submit(Submit(content, reply).0, again).1.sent == Some(content)
  {
  }
}

=== FILE: int_sets.dfy ===
/** Extremes of finite sets of integers and their ascending enumeration:
    the model's way of reading a table held in a map in a fixed order, as
    `ORDER BY ... LIMIT 1` and `ORDER BY id` do. */
module IntSets {

  /** A non-empty set has an element to pick. */
  lemma NonEmptyHasElement(s: set<int>)
    requires s != {}
    ensures exists y :: y in s
  {
    if forall y :: y !in s {
      assert false;
    }
  }

  lemma {:induction false} HasMin(s: set<int>)
    requires s != {}
    ensures exists m :: m in s && forall x :: x in s ==> m <= x
    decreases s
  {
    NonEmptyHasElement(s);
    var y :| y in s;
    var rest := s - {y};
    assert s == rest + {y};
    if rest == {} {
      assert s == {y};
      assert forall x :: x in s ==> y <= x;
    } else {
      HasMin(rest);
      var m :| m in rest && forall x :: x in rest ==> m <= x;
      LowerOfUnion(rest, y, m);
    }
  }

  /** A least element of `rest` and one more element `y` give a least
      element of `rest + {y}`. */
  lemma LowerOfUnion(rest: set<int>, y: int, m: int)
    requires m in rest && forall x :: x in rest ==> m <= x
    ensures var least := if y < m then y else m;
      least in rest + {y} && forall x :: x in rest + {y} ==> least <= x
  {
  }

  /** A greatest element of `rest` and one more element `y` give a
      greatest element of `rest + {y}`. */
  lemma UpperOfUnion(rest: set<int>, y: int, m: int)
    requires m in rest && forall x :: x in rest ==> x <= m
    ensures var greatest := if m < y then y else m;
      greatest in rest + {y} && forall x :: x in rest + {y} ==> x <= greatest
  {
  }

  lemma {:induction false} HasMax(s: set<int>)
    requires s != {}
    ensures exists m :: m in s && forall x :: x in s ==> x <= m
    decreases s
  {
    NonEmptyHasElement(s);
    var y :| y in s;
    var rest := s - {y};
    assert s == rest + {y};
    if rest == {} {
      assert s == {y};
      assert forall x :: x in s ==> x <= y;
    } else {
      HasMax(rest);
      var m :| m in rest && forall x :: x in rest ==> x <= m;
      UpperOfUnion(rest, y, m);
    }
  }

  /** The least element of a non-empty set. */
  function Min(s: set<int>): (m: int)
    requires s != {}
    ensures m in s
    ensures forall x :: x in s ==> m <= x
  {
    HasMin(s);
    var m :| m in s && forall x :: x in s ==> m <= x; m
  }

  /** The greatest element of a non-empty set. */
  function Max(s: set<int>): (m: int)
    requires s != {}
    ensures m in s
    ensures forall x :: x in s ==> x <= m
  {
    HasMax(s);
    var m :| m in s && forall x :: x in s ==> x <= m; m
  }

  /** Strictly ascending. */
  predicate Increasing(r: seq<int>) {
    forall i, j :: 0 <= i < j < |r| ==> r[i] < r[j]
  }

  /** The elements of `s` in strictly ascending order. */
  function Ascending(s: set<int>): (r: seq<int>)
    ensures |r| == |s|
    ensures forall x :: x in s <==> x in r
    ensures Increasing(r)
    decreases s
  {
    if s == {} then []
    else
      var m := Min(s);
      var rest := Ascending(s - {m});
      PrependLeast(s, m, rest);
      [m] + rest
  }

  /** Putting the least element in front of an ascending enumeration of
      the others enumerates the whole set ascending. */
  lemma PrependLeast(s: set<int>, m: int, rest: seq<int>)
    requires m in s && forall x :: x in s ==> m <= x
    requires |rest| == |s - {m}|
    requires forall x :: x in s - {m} <==> x in rest
    requires Increasing(rest)
    ensures |[m] + rest| == |s|
    ensures forall x :: x in s <==> x in [m] + rest
    ensures Increasing([m] + rest)
  {
    var r := [m] + rest;
    forall i, j | 0 <= i < j < |r| ensures r[i] < r[j] {
      if i == 0 {
        assert r[j] == rest[j - 1] && r[j] in s - {m};
      } else {
        assert r[i] == rest[i - 1] && r[j] == rest[j - 1];
      }
    }
  }
}

=== FILE: js_values.dfy ===
/** The few JavaScript value rules the site's logic leans on: optional
    fields that may be `undefined`, `null` or a number, truthiness, and the
    `x || d` defaulting idiom. */
module JsValues {

  /** A field of a JSON request body or of a client-side search condition.
      JSON has no NaN and no `undefined`, so an absent key reads as
      `Undefined`; numbers are integers in this model. */
  datatype Value = Undefined | Null | Num(n: int)

  /** JavaScript truthiness of such a value: only non-zero numbers. */
  predicate Truthy(v: Value) {
    v.Num? && v.n != 0
  }

  /** `v === null || v === undefined` */
  predicate Nullish(v: Value) {
    v.Undefined? || v.Null?
  }

  /** `v || d` for a numeric default `d`. */
  function OrElse(v: Value, d: int): (r: int)
    ensures Truthy(v) ==> r == v.n
    ensures !Truthy(v) ==> r == d
    ensures d != 0 ==> r != 0
  {
    if Truthy(v) then v.n else d
  }

  /** `s || d` for strings: the empty string is the only falsy string. */
  function OrElseText(s: string, d: string): (r: string)
    ensures s != [] ==> r == s
    ensures s == [] ==> r == d
  {
    if s != [] then s else d
  }
}

=== FILE: pagination.dfy ===
/** `CustomPagination`: how many pages a result has, which page buttons are
    shown around the current one, and the previous/next buttons. */
module Pagination {
  import opened Results

  const ShowPages := 5

  /** `Math.ceil(total / pageSize)` for a positive page size. */
  function TotalPages(total: int, pageSize: int): (n: int)
    requires pageSize > 0
    ensures (n - 1) * pageSize < total <= n * pageSize
  {
    var n := -((-total) / pageSize);
    CeilBounds(total, pageSize);
    n
  }

  lemma CeilBounds(total: int, pageSize: int)
    requires pageSize > 0
    ensures var n := -((-total) / pageSize); (n - 1) * pageSize < total <= n * pageSize
  {
    var q := (-total) / pageSize;
    var r := (-total) % pageSize;
    assert -total == q * pageSize + r && 0 <= r < pageSize;
    var n := -q;
    assert n * pageSize == -(q * pageSize);
    assert (n - 1) * pageSize == n * pageSize - pageSize;
  }

  function Max(a: int, b: int): int {
    if a >= b then a else b
  }

  function Min(a: int, b: int): int {
    if a <= b then a else b
  }

  /** The first and last page number of the window, as `renderPageNumbers`
      computes them: start two before the current page, take five pages,
      and slide back when the end was cut at the last page. */
  function Window(current: int, totalPages: int): (w: (int, int))
    ensures 1 <= w.0 && w.1 <= totalPages
    ensures w.1 - w.0 <= ShowPages - 1
    // five pages whenever there are five, every page when there are fewer
    ensures totalPages >= ShowPages ==> w.1 - w.0 == ShowPages - 1
    ensures 1 <= totalPages < ShowPages ==> w == (1, totalPages)
  {
    var start := Max(1, current - ShowPages / 2);
    var end := Min(totalPages, start + ShowPages - 1);
    if end - start + 1 < ShowPages then (Max(1, end - ShowPages + 1), end) else (start, end)
  }

  /** The page numbers of the window, ascending (`for (i = start; i <= end; i++)`). */
  function WindowPages(current: int, totalPages: int): (pages: seq<int>)
    ensures var (start, end) := Window(current, totalPages);
      && |pages| == (if end < start then 0 else end - start + 1)
      && forall i :: 0 <= i < |pages| ==> pages[i] == start + i
  {
    var (start, end) := Window(current, totalPages);
    if end < start then [] else seq(end - start + 1, i => start + i)
  }

  /** A reference description of the window: every page when there are at
      most five, otherwise the five pages starting at `current - 2` clamped
      into `1..totalPages - 4`. */
  function ReferenceWindow(current: int, totalPages: int): (int, int)
    requires totalPages >= 1
  {
    if totalPages <= ShowPages then (1, totalPages)
    else
      var start := Min(Max(1, current - 2), totalPages - ShowPages + 1);
      (start, start + ShowPages - 1)
  }

  /** The computed window is the reference window for every current page,
      in range or not. */
  lemma WindowIsReference(current: int, totalPages: int)
    requires totalPages >= 1
    ensures Window(current, totalPages) == ReferenceWindow(current, totalPages)
  {
  }

  /** The shown pages are consecutive, at most five, and inside
      `1..totalPages`. */
  lemma WindowBounds(current: int, totalPages: int)
    requires totalPages >= 1
    ensures var pages := WindowPages(current, totalPages);
      && 1 <= |pages| <= ShowPages
      && (forall i :: 0 <= i < |pages| ==> 1 <= pages[i] <= totalPages)
      && (forall i :: 0 < i < |pages| ==> pages[i] == pages[i - 1] + 1)
  {
    WindowIsReference(current, totalPages);
  }

  /** With at least five pages exactly five are shown; a current page in
      range is always among the shown ones, and with at most five pages
      every page is shown. */
  lemma WindowShowsCurrent(current: int, totalPages: int)
    requires totalPages >= 1
    ensures totalPages >= ShowPages ==> |WindowPages(current, totalPages)| == ShowPages
    ensures totalPages <= ShowPages ==> WindowPages(current, totalPages) == seq(totalPages, i => i + 1)
    ensures 1 <= current <= totalPages ==> current in WindowPages(current, totalPages)
  {
    WindowIsReference(current, totalPages);
    var pages := WindowPages(current, totalPages);
    var (start, end) := Window(current, totalPages);
    if 1 <= current <= totalPages {
      assert pages[current - start] == current;
    }
  }

  datatype Variant = Default | Outline

  /** A page button: its number, its look, and the page it asks for. */
  datatype PageButton = PageButton(page: int, variant: Variant, target: int)

  /** The previous or next arrow: the page it asks for and whether it is
      disabled. */
  datatype Arrow = Arrow(target: int, disabled: bool)

  datatype View = View(prev: Arrow, pages: seq<PageButton>, next: Arrow)

  /** `CustomPagination({ total, pageSize, current })`: nothing for an empty
      result, otherwise the two arrows around the window's buttons. */
  function Render(total: int, pageSize: int, current: int): (v: Option<View>)
    requires pageSize > 0
    ensures v.None? <==> total <= 0
    ensures v.Some? ==>
      && v.value.prev == Arrow(current - 1, current == 1)
      && v.value.next == Arrow(current + 1, current == TotalPages(total, pageSize))
      && |v.value.pages| == |WindowPages(current, TotalPages(total, pageSize))|
      && forall i :: 0 <= i < |v.value.pages| ==>
           var b := v.value.pages[i];
           && b.page == WindowPages(current, TotalPages(total, pageSize))[i]
           && b.target == b.page
           && (b.variant == Default <==> b.page == current)
  {
    if total <= 0 then None
    else
      var totalPages := TotalPages(total, pageSize);
      var pages := WindowPages(current, totalPages);
      var buttons := seq(|pages|, i requires 0 <= i < |pages| =>
        PageButton(pages[i], if current == pages[i] then Default else Outline, pages[i]));
      Some(View(Arrow(current - 1, current == 1), buttons, Arrow(current + 1, current == totalPages)))
  }

  /** A non-empty result has at least one page, so the window is never
      empty; exactly one button is highlighted when the current page is in
      range. */
  lemma RenderedButtons(total: int, pageSize: int, current: int)
    requires pageSize > 0 && total > 0
    ensures TotalPages(total, pageSize) >= 1
    ensures var v := Render(total, pageSize, current).value;
      && 1 <= |v.pages| <= ShowPages
      && (1 <= current <= TotalPages(total, pageSize) ==>
            exists i :: 0 <= i < |v.pages| && v.pages[i].variant == Default)
      && (forall i, j :: 0 <= i < j < |v.pages| ==> !(v.pages[i].variant == Default && v.pages[j].variant == Default))
  {
    var totalPages := TotalPages(total, pageSize);
    WindowBounds(current, totalPages);
    WindowShowsCurrent(current, totalPages);
    var v := Render(total, pageSize, current).value;
    var pages := WindowPages(current, totalPages);
    if 1 <= current <= totalPages {
      var k :| 0 <= k < |pages| && pages[k] == current;
      assert v.pages[k].variant == Default;
    }
  }

  /** Ten results at four per page make three pages, all shown, with the
      second highlighted when it is current. */
  lemma TenResultsFourPerPage()
    ensures TotalPages(10, 4) == 3
    ensures WindowPages(2, 3) == [1, 2, 3]
  {
    WindowShowsCurrent(2, 3);
  }
}

=== FILE: rank.dfy ===
/** The leaderboards of `getRankBooks`: three fixed queries over the
    `book_info` rows of work direction 0, each ordered by its own column
    descending and cut at 20 rows. Any other board name is an error. */
module Rank {
  import opened Results
  import opened Schema
  import Sorting

  datatype RankType = VisitRank | NewestRank | UpdateRank

  /** One row of a board as the function returns it. The newest board
      reports the creation time under `updateTime`. */
  datatype RankEntry = RankEntry(
    id: int,
    title: string,
    author: string,
    wordCount: int,
    category: string,
    coverUrl: string,
    description: string,
    status: int,
    visitCount: int,
    updateTime: int)

  const RankLimit := 20

  /** Thrown for an unknown board name; the catch block replaces it. */
  const InvalidRankType := "无效的排行榜类型"

  /** The single message every failure of `getRankBooks` is rethrown as. */
  const RankFailed := "获取排行榜数据失败"

  /** The `switch (type)`: exactly three names are boards. */
  function ParseRankType(name: string): (r: Result<RankType>)
    ensures r.Success? <==> name in {"visit_rank", "newest_rank", "update_rank"}
    ensures r.Success? ==> (r.value == VisitRank <==> name == "visit_rank")
    ensures r.Success? ==> (r.value == NewestRank <==> name == "newest_rank")
    ensures r.Success? ==> (r.value == UpdateRank <==> name == "update_rank")
    ensures r.Failure? ==> r.message == InvalidRankType
  {
    if name == "visit_rank" then Success(VisitRank)
    else if name == "newest_rank" then Success(NewestRank)
    else if name == "update_rank" then Success(UpdateRank)
    else Failure(InvalidRankType)
  }

  /** The board's name, the inverse of `ParseRankType`. */
  function RankTypeName(t: RankType): string {
    match t
    case VisitRank => "visit_rank"
    case NewestRank => "newest_rank"
    case UpdateRank => "update_rank"
  }

  lemma RankTypeNameRoundTrip(t: RankType)
    ensures ParseRankType(RankTypeName(t)) == Success(t)
  {
  }

  /** The `ORDER BY` column of each board. */
  function RankKey(t: RankType, b: Book): int {
    match t
    case VisitRank => b.visitCount
    case NewestRank => b.createTime
    case UpdateRank => b.updateTime
  }

  /** The sort key that puts the highest `RankKey` first. */
  function Order(t: RankType): Book -> int {
    b => -RankKey(t, b)
  }

  /** `WHERE b.work_direction = 0`, in table order. */
  function Eligible(books: seq<Book>): (r: seq<Book>)
    ensures forall b :: b in r <==> b in books && b.workDirection == 0
    ensures multiset(r) <= multiset(books)
  {
    if books == [] then []
    else
      var rest := Eligible(books[1..]);
      assert books == [books[0]] + books[1..];
      if books[0].workDirection == 0 then [books[0]] + rest else rest
  }

  /** The board's rows before projection: the eligible books ordered by the
      board's key descending, at most `RankLimit` of them. */
  function RankedBooks(t: RankType, books: seq<Book>): (r: seq<Book>)
    ensures |r| <= RankLimit
    ensures |r| == if |Eligible(books)| < RankLimit then |Eligible(books)| else RankLimit
    ensures forall b :: b in r ==> b in books && b.workDirection == 0
    ensures forall i, j :: 0 <= i < j < |r| ==> RankKey(t, r[i]) >= RankKey(t, r[j])
    ensures multiset(r) <= multiset(Eligible(books))
  {
    var sorted := Sorting.SortBy(Eligible(books), Order(t));
    var n := if |sorted| < RankLimit then |sorted| else RankLimit;
    TopRowsOfSorted(t, sorted, Eligible(books), n);
    sorted[..n]
  }

  /** A prefix of the eligible books sorted by `Order(t)` keeps their
      properties and is ordered by the key descending. */
  lemma TopRowsOfSorted(t: RankType, sorted: seq<Book>, e: seq<Book>, n: nat)
    requires Sorting.SortedBy(sorted, Order(t)) && multiset(sorted) == multiset(e)
    requires n <= |sorted|
    ensures forall i, j :: 0 <= i < j < n ==> RankKey(t, sorted[i]) >= RankKey(t, sorted[j])
    ensures multiset(sorted[..n]) <= multiset(e)
    ensures forall b :: b in sorted[..n] ==> b in e
  {
    var r := sorted[..n];
    forall i, j | 0 <= i < j < n ensures RankKey(t, sorted[i]) >= RankKey(t, sorted[j]) {
      assert Order(t)(sorted[i]) <= Order(t)(sorted[j]);
    }
    assert sorted == r + sorted[n..];
    assert multiset(sorted) == multiset(r) + multiset(sorted[n..]);
    Sorting.SameElements(sorted, e);
  }

  /** A board cut from fewer than `RankLimit` eligible books holds all of
      them. */
  lemma RankedBooksHoldAll(t: RankType, books: seq<Book>)
    requires |Eligible(books)| <= RankLimit
    ensures multiset(RankedBooks(t, books)) == multiset(Eligible(books))
  {
    var sorted := Sorting.SortBy(Eligible(books), Order(t));
    assert sorted[..|sorted|] == sorted;
  }

  /** No eligible book left off a full board outranks its last row. */
  lemma RankedBooksAreTop(t: RankType, books: seq<Book>)
    requires |RankedBooks(t, books)| == RankLimit
    ensures var r := RankedBooks(t, books);
      forall b :: b in Eligible(books) && b !in r ==> RankKey(t, b) <= RankKey(t, r[|r| - 1])
  {
    var e := Eligible(books);
    var sorted := Sorting.SortBy(e, Order(t));
    var r := RankedBooks(t, books);
    var n := RankLimit;
    assert r == sorted[..n];
    Sorting.SameElements(sorted, e);
    forall b | b in e && b !in r ensures RankKey(t, b) <= RankKey(t, r[n - 1]) {
      var j :| 0 <= j < |sorted| && sorted[j] == b;
      assert j >= n;
      assert Order(t)(sorted[n - 1]) <= Order(t)(sorted[j]);
    }
  }

  /** The row the board's query returns for a book. */
  function Project(t: RankType, b: Book): (e: RankEntry)
    ensures e.id == b.id && e.visitCount == b.visitCount && e.wordCount == b.wordCount
    ensures e.updateTime == if t == NewestRank then b.createTime else b.updateTime
  {
    RankEntry(b.id, b.bookName, b.authorName, b.wordCount, b.categoryName, b.picUrl, b.bookDesc,
      b.bookStatus, b.visitCount, if t == NewestRank then b.createTime else b.updateTime)
  }

  /** `getRankBooks(type)`. An unknown name and a database error
      (`dbError`) both end in the catch block's single message. */
  function GetRankBooks(name: string, books: seq<Book>, dbError: bool): (r: Result<seq<RankEntry>>)
    ensures r.Success? <==> !dbError && ParseRankType(name).Success?
    ensures r.Failure? ==> r.message == RankFailed
    ensures r.Success? ==> |r.value| <= RankLimit
    ensures r.Success? ==> var t := ParseRankType(name).value;
      && |r.value| == |RankedBooks(t, books)|
      && forall i :: 0 <= i < |r.value| ==> r.value[i] == Project(t, RankedBooks(t, books)[i])
  {
    match ParseRankType(name)
    case Failure(_) => Failure(RankFailed)
    case Success(t) =>
      if dbError then Failure(RankFailed)
      else
        var rows := RankedBooks(t, books);
        Success(seq(|rows|, i requires 0 <= i < |rows| => Project(t, rows[i])))
  }

  /** Every row of a successful board is a direction-0 book, ordered by the
      board's column descending. */
  lemma BoardRows(name: string, books: seq<Book>)
    requires GetRankBooks(name, books, false).Success?
    ensures var t := ParseRankType(name).value;
      var rows := GetRankBooks(name, books, false).value;
      && (forall i :: 0 <= i < |rows| ==>
            exists b :: b in books && b.workDirection == 0 && rows[i] == Project(t, b))
      && (forall i, j :: 0 <= i < j < |rows| ==>
            RankKey(t, RankedBooks(t, books)[i]) >= RankKey(t, RankedBooks(t, books)[j]))
  {
    var t := ParseRankType(name).value;
    var ranked := RankedBooks(t, books);
    var rows := GetRankBooks(name, books, false).value;
    forall i | 0 <= i < |rows|
      ensures exists b :: b in books && b.workDirection == 0 && rows[i] == Project(t, b)
    {
      assert ranked[i] in ranked;
    }
  }
}

=== FILE: rank_page.dfy ===
/** The leaderboard page: the tab switch that renames the board and asks
    for its rows, the fetch that fills or clears the table, and the rows it
    shows (rank number and formatted word count). */
module RankPage {
  import opened Results
  import Rank
  import WordCount

  /** The fields of a leaderboard row the page reads. */
  datatype RankRow = RankRow(
    id: int,
    bookName: string,
    categoryName: string,
    lastChapterName: string,
    authorName: string,
    wordCount: int)

  /** `rankType`, `rankName` and `books`. */
  datatype PageState = PageState(rankType: string, rankName: string, books: seq<RankRow>)

  const Initial := PageState("visit_rank", "点击榜", [])

  /** The title of each known board; `None` leaves the title as it was. */
  function BoardTitle(value: string): (r: Option<string>)
    ensures r.Some? <==> value in {"visit_rank", "newest_rank", "update_rank"}
    ensures value == "visit_rank" ==> r == Some("点击榜")
    ensures value == "newest_rank" ==> r == Some("新书榜")
    ensures value == "update_rank" ==> r == Some("更新榜")
  {
    if value == "visit_rank" then Some("点击榜")
    else if value == "newest_rank" then Some("新书榜")
    else if value == "update_rank" then Some("更新榜")
    else None
  }

  /** `handleRankChange(value)`: the new state and the board type the page
      then fetches. An unknown value keeps the old title and is still
      fetched. */
  function HandleRankChange(s: PageState, value: string): (r: (PageState, string))
    ensures r.0.rankType == value && r.1 == value
    ensures r.0.books == s.books
    ensures BoardTitle(value).Some? ==> r.0.rankName == BoardTitle(value).value
    ensures BoardTitle(value).None? ==> r.0.rankName == s.rankName
  {
    var name := match BoardTitle(value) case Some(t) => t case None => s.rankName;
    (s.(rankType := value, rankName := name), value)
  }

  /** The page titles exactly the board names `getRankBooks` accepts, and
      gives them three different titles. */
  lemma TitlesMatchBoards(value: string)
    ensures BoardTitle(value).Some? <==> Rank.ParseRankType(value).Success?
    ensures forall t, u :: BoardTitle(Rank.RankTypeName(t)) == BoardTitle(Rank.RankTypeName(u)) ==> t == u
  {
  }

  /** What `fetch` and `res.json()` produced: a failed request, or a body
      whose `data` is an array of rows or something else. */
  datatype Response = NotOk | DataArray(rows: seq<RankRow>) | DataOther

  /** `fetchRankData`: the rows of an array answer, an empty table
      otherwise. */
  function FetchRankData(s: PageState, resp: Response): (r: PageState)
    ensures r.rankType == s.rankType && r.rankName == s.rankName
    ensures resp.DataArray? ==> r.books == resp.rows
    ensures !resp.DataArray? ==> r.books == []
  {
    match resp
    case DataArray(rows) => s.(books := rows)
    case _ => s.(books := [])
  }

  /** One table row: the rank shown and the formatted word count. */
  datatype RowView = RowView(rank: int, row: RankRow, words: WordCount.Shown)

  /** The table body: `index + 1` as the rank of each row. */
  function Rows(books: seq<RankRow>): (r: seq<RowView>)
    ensures |r| == |books|
    ensures forall i :: 0 <= i < |r| ==> r[i].row == books[i] && r[i].words == WordCount.RankFormat(books[i].wordCount)
  {
    seq(|books|, i requires 0 <= i < |books| => RowView(i + 1, books[i], WordCount.RankFormat(books[i].wordCount)))
  }

  /** The ranks shown are 1..n in table order: n strictly increasing
      numbers within `1..n`, so each rank appears once. */
  lemma RanksAreOneToN(books: seq<RankRow>)
    ensures var r := Rows(books);
      && (forall i, j :: 0 <= i < j < |r| ==> r[i].rank < r[j].rank)
      && (forall i :: 0 <= i < |r| ==> 1 <= r[i].rank <= |books|)
  {
  }

  /** Switching to an unknown board keeps the old title while the table
      is cleared by the failing fetch. */
  lemma UnknownBoardKeepsTitle(s: PageState, value: string, resp: Response)
    requires Rank.ParseRankType(value).Failure?
    requires !resp.DataArray?
    ensures var (t, fetched) := HandleRankChange(s, value);
      && FetchRankData(t, resp).rankName == s.rankName
      && FetchRankData(t, resp).rankType == value
      && FetchRankData(t, resp).books == []
  {
  }
}

=== FILE: results.dfy ===
/** Optional values and the success-or-failure outcome of an operation that
    the source reports with `throw`, `null` or `{ success: false }`. */
module Results {

  datatype Option<+T> = None | Some(value: T)

  datatype Result<+T> = Success(value: T) | Failure(message: string) {
    predicate IsFailure() {
      Failure?
    }

    function PropagateFailure<U>(): Result<U>
      requires Failure?
    {
      Failure(message)
    }

    function Extract(): T
      requires Success?
    {
      value
    }
  }
}

=== FILE: schema.dfy ===
/** The rows of the site's relational store that the modelled code reads
    and writes (`book_info`, `book_chapter`, `book_content`,
    `book_category`). Timestamps are opaque integers. */
module Schema {
  import opened Results

  /** A `book_info` row. `lastChapter*` is the denormalised pointer to the
      book's newest chapter that chapter creation maintains. */
  datatype Book = Book(
    id: int,
    bookName: string,
    authorName: string,
    picUrl: string,
    bookDesc: string,
    categoryId: int,
    categoryName: string,
    workDirection: int,
    bookStatus: int,
    wordCount: int,
    visitCount: int,
    createTime: int,
    updateTime: int,
    lastChapterId: Option<int>,
    lastChapterName: string,
    lastChapterUpdateTime: int)

  /** A `book_chapter` row. */
  datatype Chapter = Chapter(
    id: int,
    bookId: int,
    chapterNum: int,
    chapterName: string,
    isVip: int,
    createTime: int,
    updateTime: int)

  /** A `book_content` row, one per chapter, keyed by its chapter id. */
  datatype Content = Content(chapterId: int, text: string, createTime: int, updateTime: int)

  /** A `book_category` row. */
  datatype Category = Category(id: int, name: string, workDirection: int, sort: int)

  /** The three tables the chapter transactions touch, each keyed by the
      column their statements select on (`id`, `id`, `chapter_id`). */
  datatype Db = Db(books: map<int, Book>, chapters: map<int, Chapter>, contents: map<int, Content>)
}

=== FILE: sorting.dfy ===
/** `ORDER BY key` over an in-memory row sequence: a stable insertion sort
    by an integer key. Descending orders use the negated key. */
module Sorting {

  predicate SortedBy<T>(s: seq<T>, key: T -> int) {
    forall i, j :: 0 <= i < j < |s| ==> key(s[i]) <= key(s[j])
  }

  /** Places `x` before the first element whose key is not smaller, so an
      element inserted later never overtakes an equal one. */
  function Insert<T>(x: T, s: seq<T>, key: T -> int): (r: seq<T>)
    requires SortedBy(s, key)
    ensures SortedBy(r, key)
    ensures multiset(r) == multiset(s) + multiset{x}
    ensures |r| == |s| + 1
    ensures r[0] == if s == [] || key(x) <= key(s[0]) then x else s[0]
    decreases |s|
  {
    if s == [] || key(x) <= key(s[0]) then
      ConsSorted(x, s, key);
      [x] + s
    else
      var rest := Insert(x, s[1..], key);
      assert s == [s[0]] + s[1..];
      ConsSorted(s[0], rest, key);
      [s[0]] + rest
  }

  /** A sorted sequence stays sorted under a head no larger than its
      first element. */
  lemma ConsSorted<T>(a: T, s: seq<T>, key: T -> int)
    requires SortedBy(s, key)
    requires s != [] ==> key(a) <= key(s[0])
    ensures SortedBy([a] + s, key)
  {
    var r := [a] + s;
    forall i, j | 0 <= i < j < |r| ensures key(r[i]) <= key(r[j]) {
      if i == 0 {
        assert r[j] == s[j - 1];
        assert key(s[0]) <= key(s[j - 1]) || j == 1;
      } else {
        assert r[i] == s[i - 1] && r[j] == s[j - 1];
      }
    }
  }

  /** The rows of `s` ordered by ascending key. */
  function SortBy<T>(s: seq<T>, key: T -> int): (r: seq<T>)
    ensures SortedBy(r, key)
    ensures multiset(r) == multiset(s)
    ensures |r| == |s|
  {
    if s == [] then []
    else
      assert s == [s[0]] + s[1..];
      Insert(s[0], SortBy(s[1..], key), key)
  }

  /** A prefix of a sorted sequence holds its smallest keys: every element
      left out is at least as large as every element kept. */
  lemma PrefixHoldsSmallest<T>(s: seq<T>, key: T -> int, n: nat)
    requires SortedBy(s, key)
    requires n <= |s|
    ensures SortedBy(s[..n], key)
    ensures forall i, j :: 0 <= i < n <= j < |s| ==> key(s[i]) <= key(s[j])
  {
  }

  /** `x in multiset(s)` reads as `x in s`. */
  lemma SameElements<T>(a: seq<T>, b: seq<T>)
    requires multiset(a) == multiset(b)
    ensures forall x :: x in a <==> x in b
  {
    forall x ensures x in a <==> x in b {
      assert x in a <==> x in multiset(a);
      assert x in b <==> x in multiset(b);
    }
  }

  /** Keys that are strictly increasing leave one sorted arrangement: two
      sequences with the same elements, one strictly increasing and one
      sorted, are equal. */
  lemma {:induction false} SortedUnique<T>(a: seq<T>, b: seq<T>, key: T -> int)
    requires forall i, j :: 0 <= i < j < |a| ==> key(a[i]) < key(a[j])
    requires SortedBy(b, key)
    requires multiset(a) == multiset(b)
    ensures a == b
  {
    if a == [] {
      assert |multiset(b)| == 0;
    } else {
      HeadsAgree(a, b, key);
      DropHead(a, b);
      assert SortedBy(b[1..], key);
      SortedUnique(a[1..], b[1..], key);
      assert a == [a[0]] + a[1..] && b == [b[0]] + b[1..];
    }
  }

  /** Both sequences start with the element of least key. */
  lemma HeadsAgree<T>(a: seq<T>, b: seq<T>, key: T -> int)
    requires a != []
    requires forall i, j :: 0 <= i < j < |a| ==> key(a[i]) < key(a[j])
    requires SortedBy(b, key)
    requires multiset(a) == multiset(b)
    ensures b != [] && a[0] == b[0]
  {
    SameElements(a, b);
    assert a[0] in b;
    var m :| 0 <= m < |b| && b[m] == a[0];
    assert b[0] in a;
    var k :| 0 <= k < |a| && a[k] == b[0];
    assert key(a[k]) <= key(a[0]);
  }

  /** Equal heads leave equal multisets behind. */
  lemma DropHead<T>(a: seq<T>, b: seq<T>)
    requires a != [] && b != [] && a[0] == b[0]
    requires multiset(a) == multiset(b)
    ensures multiset(a[1..]) == multiset(b[1..])
  {
    assert a == [a[0]] + a[1..] && b == [b[0]] + b[1..];
    assert multiset(a) == multiset{a[0]} + multiset(a[1..]);
    assert multiset(b) == multiset{a[0]} + multiset(b[1..]);
    forall y ensures multiset(a[1..])[y] == multiset(b[1..])[y] {
      assert multiset(a)[y] == multiset{a[0]}[y] + multiset(a[1..])[y];
      assert multiset(b)[y] == multiset{a[0]}[y] + multiset(b[1..])[y];
    }
  }
}

=== FILE: validation.dfy ===
/** The validation shape every form of the site follows: a fixed list of
    checks run in order, the first failing one shows its message and stops
    the submission. */
module Validation {
  import opened Results

  /** One `if (!ok) { toast(message); return }` step. */
  datatype Check = Check(ok: bool, message: string)

  /** What pressing a form's button does: the request body sent, if any,
      the toast shown and the page navigated to. */
  datatype Effect<T> = Effect(sent: Option<T>, toast: Option<string>, navigate: Option<string>)

  /** How a form's `fetch` ended: it threw (network failure), or a response
      arrived whose `ok` flag is given. */
  datatype Reply = Thrown | Replied(ok: bool)

  /** The effect of a form whose checks failed: nothing but the message. */
  function Refused<T>(message: string): Effect<T> {
    Effect(None, Some(message), None)
  }

  predicate AllPass(checks: seq<Check>) {
    forall i :: 0 <= i < |checks| ==> checks[i].ok
  }

  /** The message of the first failing check, or `None` when all pass. */
  function FirstFailure(checks: seq<Check>): (r: Option<string>)
    ensures r.None? <==> AllPass(checks)
    ensures r.Some? ==>
      exists i :: 0 <= i < |checks| && !checks[i].ok && r.value == checks[i].message && AllPass(checks[..i])
  {
    if checks == [] then None
    else if !checks[0].ok then
      assert checks[..0] == [];
      Some(checks[0].message)
    else
      var rest := FirstFailure(checks[1..]);
      if rest.Some? then
        var i :| 0 <= i < |checks[1..]| && !checks[1..][i].ok && rest.value == checks[1..][i].message
          && AllPass(checks[1..][..i]);
        assert checks[1..][..i] == checks[1..i + 1];
        assert AllPass(checks[..i + 1]) by {
          forall k | 0 <= k < i + 1 ensures checks[k].ok {
            if k > 0 { assert checks[k] == checks[1..][..i][k - 1]; }
          }
        }
        rest
      else
        assert forall k :: 1 <= k < |checks| ==> checks[k] == checks[1..][k - 1];
        rest
  }

  /** The failing check that decides the message is the first failing one:
      the message is that of check `i` exactly when check `i` fails and all
      before it pass. */
  lemma FirstFailureIsFirst(checks: seq<Check>, i: nat)
    requires i < |checks| && !checks[i].ok && AllPass(checks[..i])
    ensures FirstFailure(checks) == Some(checks[i].message)
  {
  }

  /** Checks run in order: the checks after a failing prefix are never
      consulted, and a passing prefix hands over to the rest. */
  lemma {:induction false} FirstFailureAppend(a: seq<Check>, b: seq<Check>)
    ensures !AllPass(a) ==> FirstFailure(a + b) == FirstFailure(a)
    ensures AllPass(a) ==> FirstFailure(a + b) == FirstFailure(b)
    decreases |a|
  {
    if a != [] {
      assert (a + b)[1..] == a[1..] + b;
      assert (a + b)[0] == a[0];
      FirstFailureAppend(a[1..], b);
      if a[0].ok {
        assert AllPass(a) <==> AllPass(a[1..]) by {
          assert forall k :: 1 <= k < |a| ==> a[k] == a[1..][k - 1];
        }
      }
    } else {
      assert a + b == b;
    }
  }

  /** When check `i` fails, the message is that of the first failing check
      at or before `i`; it is check `i`'s own when the ones before pass. */
  lemma FirstFailingIndex(checks: seq<Check>, i: nat)
    requires i < |checks|
    ensures !checks[i].ok && AllPass(checks[..i]) ==> FirstFailure(checks) == Some(checks[i].message)
  {
    if !checks[i].ok && AllPass(checks[..i]) {
      FirstFailureIsFirst(checks, i);
    }
  }
}

=== FILE: word_count.dfy ===
/** The site's three word-count formatters. `wordCountFormat` of the shared
    utilities switches to 万 at 50000 and to 千 at 4000; the leaderboard
    page switches strictly above 10000 and 1000; the category pages switch
    at 10000 and 1000 inclusive. The last two floor the quotient. */
module WordCount {
  import opened Results
  import Decimal

  datatype Unit = Wan | Qian | NoUnit

  /** A formatted count: the number shown and the unit after it. */
  datatype Shown = Shown(number: int, unit: Unit)

  /** How many words one step of the unit stands for. */
  function Scale(u: Unit): (k: int)
    ensures k >= 1
  {
    match u
    case Wan => 10000
    case Qian => 1000
    case NoUnit => 1
  }

  function Suffix(u: Unit): string {
    match u
    case Wan => "万"
    case Qian => "千"
    case NoUnit => ""
  }

  /** The displayed text: the number in decimal, then the unit. */
  function Text(s: Shown): (t: string)
    ensures |t| >= 1
  {
    Decimal.IntToString(s.number) + Suffix(s.unit)
  }

  /** The inverse of `Text`: a trailing 万 or 千 after digits, or a bare
      decimal integer. */
  function ReadShown(t: string): (r: Option<Shown>)
    ensures r.Some? && r.value.unit != NoUnit ==> r.value.number >= 0
  {
    if t == [] then None
    else
      var last := t[|t| - 1];
      var front := t[..|t| - 1];
      if last == '万' || last == '千' then
        if front != [] && Decimal.AllDigits(front) then
          Some(Shown(Decimal.ParseDigits(front), if last == '万' then Wan else Qian))
        else None
      else
        match Decimal.ParseInt(t)
        case None => None
        case Some(n) => Some(Shown(n, NoUnit))
  }

  /** Every text of a count with a unit, and every bare number, reads back
      as what was shown. */
  lemma ReadShownRoundTrip(s: Shown)
    requires s.unit != NoUnit ==> s.number >= 0
    ensures ReadShown(Text(s)) == Some(s)
  {
    var t := Text(s);
    var digits := Decimal.IntToString(s.number);
    Decimal.IntToStringRoundTrip(s.number);
    if s.unit == NoUnit {
      assert t == digits;
      assert Decimal.IsDigit(t[|t| - 1]) by {
        if s.number >= 0 {
        } else {
          assert t[1..] == Decimal.NatToString(-s.number);
        }
      }
    } else {
      assert t[..|t| - 1] == digits;
      Decimal.NatToStringRoundTrip(s.number);
    }
  }

  // ---------------------------------------------------------------------
  // The three formatters

  /** The unit `wordCountFormat` of the shared utilities picks; the number
      it shows is an unrounded quotient and is not modelled. */
  function UtilsUnit(count: int): (u: Unit)
    ensures u == Wan <==> count >= 50000
    ensures u == Qian <==> 4000 <= count < 50000
    ensures u == NoUnit <==> count < 4000
  {
    if count >= 50000 then Wan
    else if count >= 4000 then Qian
    else NoUnit
  }

  /** The leaderboard's `formatWordCount`: strict thresholds. */
  function RankFormat(count: int): (s: Shown)
    ensures s.unit == Wan <==> count > 10000
    ensures s.unit == Qian <==> 1000 < count <= 10000
    ensures s.unit == NoUnit <==> count <= 1000
    // the shown number is the floor of the count in the unit
    ensures s.number * Scale(s.unit) <= count < (s.number + 1) * Scale(s.unit)
  {
    if count > 10000 then Shown(count / 10000, Wan)
    else if count > 1000 then Shown(count / 1000, Qian)
    else Shown(count, NoUnit)
  }

  /** The category pages' `wordCountFormat`: inclusive thresholds. */
  function ClassFormat(count: int): (s: Shown)
    ensures s.unit == Wan <==> count >= 10000
    ensures s.unit == Qian <==> 1000 <= count < 10000
    ensures s.unit == NoUnit <==> count < 1000
    ensures s.number * Scale(s.unit) <= count < (s.number + 1) * Scale(s.unit)
  {
    if count >= 10000 then Shown(count / 10000, Wan)
    else if count >= 1000 then Shown(count / 1000, Qian)
    else Shown(count, NoUnit)
  }

  /** A count with a unit is shown with a positive number: the unit is
      never shown after 0. */
  lemma UnitHasPositiveNumber(count: int)
    ensures RankFormat(count).unit != NoUnit ==> RankFormat(count).number >= 1
    ensures ClassFormat(count).unit != NoUnit ==> ClassFormat(count).number >= 1
  {
  }

  /** The leaderboard and the category pages agree everywhere except on the
      two threshold values themselves. */
  lemma RankAndClassAgree(count: int)
    ensures RankFormat(count) == ClassFormat(count) <==> count != 1000 && count != 10000
  {
  }

  /** At exactly 10000 the leaderboard shows "10千" and the category pages
      show "1万"; at 1000 they show "1000" and "1千". */
  lemma ThresholdTexts()
    ensures RankFormat(10000) == Shown(10, Qian) && ClassFormat(10000) == Shown(1, Wan)
    ensures RankFormat(1000) == Shown(1000, NoUnit) && ClassFormat(1000) == Shown(1, Qian)
    ensures Text(Shown(10, Qian)) == "10千"
    ensures Text(Shown(1, Wan)) == "1万"
  {
    assert Decimal.NatToString(1) == "1";
    assert Decimal.NatToString(10) == Decimal.NatToString(1) + ['0'];
  }

  /** The shared formatter and the category pages pick the same unit
      exactly below 1000, from 4000 to below 10000, and from 50000 on. */
  lemma UtilsAndClassUnitsAgree(count: int)
    ensures UtilsUnit(count) == ClassFormat(count).unit <==>
      count < 1000 || 4000 <= count < 10000 || count >= 50000
  {
  }

  /** The units from smallest to largest. */
  function UnitLevel(u: Unit): int {
    match u
    case NoUnit => 0
    case Qian => 1
    case Wan => 2
  }

  /** The formatters are monotone: a larger count never shows a smaller
      unit. */
  lemma UnitsMonotone(a: int, b: int)
    requires a <= b
    ensures UnitLevel(UtilsUnit(a)) <= UnitLevel(UtilsUnit(b))
    ensures UnitLevel(RankFormat(a).unit) <= UnitLevel(RankFormat(b).unit)
    ensures UnitLevel(ClassFormat(a).unit) <= UnitLevel(ClassFormat(b).unit)
  {
  }
}
